=== FILE: README.md ===
# dbc-influxdb: a Dafny model of the file-type reader

This project models `FileTypeReader` from `dbc_influxdb/filetypereader.py`.
The reader takes one instrument data file and a file-type configuration. It
returns a list of tables with a two-level (variable, unit) header, plus a
"missed IDs" diagnostic. The timestamp index of each table is sorted and
free of duplicates. The project also models the pure helpers of
`dbc_influxdb/main.py`: the UTC-offset suffix, the tag/field check before an
upload, the field-to-measurement assignment, and the bucket filter.

## What is modelled, and how

- **Tables** (`tables.dfy`). A data frame is a list of column labels plus a
  list of rows. Each row has an index key and one cell per column (the
  subset type `Table`).
  - Labels are plain names, or (variable, unit) pairs for a two-level header.
  - Cells are missing, numbers, text, or ±infinity.
  - Keys are timestamps in whole minutes, or `NaT`.
  - The exceptions the code can raise form the datatype `Fault`. Every stage
    that can raise returns a `Result`.
- **Configuration** (`config.dfy`). This is the translation `__init__` does
  before `run`:
  - falsy row settings become `None`;
  - names are used only without a header;
  - the `-9999` index-column sentinel;
  - the special format;
  - the goodrows/badrows split;
  - `_convert_timestamp_idx_col`.

  The last one is an in-place loop over the configuration's own list. It is
  modelled as a method on an `array`, proved against the function
  `ConvertTimestampIdxCol`.
- **Reading** (`reader.dfy`). What one `pd.read_csv` call does is a
  parameter: it either loads a table or raises `ValueError`, a CSV error, or
  something else. `ReadFile` models the two fallbacks:
  - after a `ValueError`, skip rows 0 and 1;
  - after a CSV error, use the C engine.

  A fallback's own exception is not caught again.
- **Stages of `run`**. Each stage is a function over the list of tables. The
  functions are composed into `Front`, `Finish` and `Pipeline`:
  - the parsed-timestamp index;
  - the special formats `-ALTERNATING-` and `-ICOSSEQ-` (`special_formats.dfy`);
  - the positional row filters (`row_filters.dfy`);
  - numeric coercion and the ±inf replacement (`coercion.dfy`);
  - the two timestamp recipes (`timestamps.dfy`);
  - sorting and keep-last de-duplication (`ordering.dfy`);
  - the column finalisation (`schema.dfy`).
- **The class `FileTypeReader`**. It has the fields `data_df`, `df_list` and
  `missed_ids`, plus a `fault` field that records the exception `run` raised.
  - Its methods perform `run` stage by stage and rewrite `df_list` one table
    at a time.
  - Each method's `ensures` ties the new state to its stage function.
  - The constructor's `ensures` states that the object holds exactly what
    `Pipeline` computes.
  - `PipelineGuarantees` then states what every completed run delivers:
    - strictly increasing keys;
    - only finite numbers or missing cells;
    - distinct (variable, unit) labels free of "Unnamed".
- **`main.py` helpers** (`influx.dfy`). What the database returns (the field
  lists of a measurement, the bucket names) is a parameter.

Where the docstrings and comments of `dbc_influxdb/filetypereader.py` and
its code differ, the model follows the code:

- **Missing cells in the row filters.** After `convert_dtypes` the columns
  hold pandas' nullable types. So `cell == id` and `cell != id` give `NA` on
  a missing cell, and a row whose mask is `NA` is not selected. A missing
  cell therefore drops the row under both the keep and the remove filter.
- **`-ICOSSEQ-` files never finish `run`.** `_special_data_formats` binds
  `missed_ids` only on the `-ALTERNATING-` branch. So an `-ICOSSEQ-` file
  ends in `UnboundLocalError`, or in an earlier exception of the reshape
  itself. The reshape is still modelled in full and proved about: which
  rows it keeps (`IcosSeqKeepsLocatedRows`) and where each cell lands
  (`IcosSeqPlacesCells`).
- **Text cells become missing.** `_to_numeric` leaves only numbers and
  missing cells, and then the infinities are replaced. Every finished table
  is therefore numeric; no text columns are kept.
- **The five-part timestamp recipe.** pandas assembles
  `YEAR*10000 + MONTH*100 + DAY` and parses that number as `%Y%m%d` without
  `errors='coerce'`:
  - an impossible date raises `ValueError` instead of dropping the row;
  - parts out of range can be re-read as another date (`FivePartDigitsAreReparsed`).
- **The UTC offset.** `_convert_datestr_to_iso8601` writes a negative offset
  with a doubled sign ("--1:00"). It writes offsets of 24 and up as they are.
  `OffsetValidIff` states the offsets for which the suffix is a valid
  RFC 3339 (section 5.6) numeric offset.
- **Timestamps.** They are whole minutes from 0001-01-01 in the proleptic
  Gregorian calendar. pandas (version 2) holds datetimes and timedeltas as
  signed 64-bit nanosecond counts, and each step of a recipe runs on the
  whole column before the next:
  - a date outside 1677-09-22 to 2262-04-11 does not parse;
  - `to_timedelta` of a value too large for the range raises `ValueError`;
  - a sum that leaves the range raises `OverflowError`;
  - a `NaT` operand is not checked, so a row without a year start or a
    clock time is dropped rather than raising.

  So the year range decides whether a `YEAR+DOY+TIME` row has a timestamp
  only while DOY and the sums stay in range (`DoyStamp`,
  `DoyPastLastDayOverflows`, `DoyTooLargeRaises`); the five-part recipe
  raises at its first failing step (`FivePartStamp`,
  `FivePartLastDayOverflows`).
- **Parsing text.** Text-to-number parsing is a parameter with one parser
  per path: `astype(float)` uses Python's `float()`, and `pd.to_numeric`
  its own parser. They differ, for example on "1_000", which only `float()`
  reads. So the fast path and the coercing fallback give the same table
  only where the two parsers agree (`AsFloatAgreesWithCoerce`,
  `AsFloatKeepsWhatCoerceDrops`).
- **Repeated labels after the column stages.** Two columns whose units both
  say "Unnamed" under one variable become the same (variable,
  "-not-given-") label. `df[newcols]` then selects that label once per
  listing, and assigning the new header raises `ValueError`
  (`RepeatedUnitsRaise`).

## Model

| member | source | states |
|---|---|---|
| Tables.Lookup | dbc_influxdb/filetypereader.py:340 | a label lookup succeeds exactly when the label is a column, and gives its position; otherwise `KeyError` with that name |
| Tables.ResolvePosition | dbc_influxdb/filetypereader.py:226 | `iloc[:, p]` succeeds exactly for `-n <= p < n`; negative positions count from the end |
| Tables.TryMapTables | dbc_influxdb/filetypereader.py:408-414 | a per-table stage over the list succeeds exactly when it succeeds on every table, and then gives each table's own result |
| Tables.TryMapTablesFirstFault | dbc_influxdb/filetypereader.py:408-414 | the exception reported is that of the first table that fails |
| Tables.SelectColumnsNumeric | dbc_influxdb/filetypereader.py:403 | selecting columns keeps a numeric table numeric |
| Tables.SelectColumnsKeepsCells | dbc_influxdb/filetypereader.py:403 | selecting columns keeps every row's key and its cell under every selected label |
| Config.FirstTagIn | dbc_influxdb/filetypereader.py:79-85 | the index found is that of the first tag occurring in the file type; none is found only when no tag occurs |
| Config.DetectSpecialFormat | dbc_influxdb/filetypereader.py:77-85 | ICOSSEQ exactly when "-ICOSSEQ-" occurs; ALTERNATING exactly when only "-ALTERNATING-" occurs; none otherwise |
| Config.ConvertEntry | dbc_influxdb/filetypereader.py:219-220 | `(c[0], c[1])` succeeds exactly for a pair, or a list or string of two or more items, and always yields a pair |
| Config.ConvertTimestampIdxCol | dbc_influxdb/filetypereader.py:206-221 | succeeds exactly for a non-empty list whose entries all convert when the first is a list; the result is the list after conversion |
| Config.ConvertTimestampIdxColInPlace | dbc_influxdb/filetypereader.py:206-221 | the in-place loop reports success exactly as the function does, and leaves the array as the function's partial or full conversion, even when it raises part way |
| Config.PartiallyConvertedUpTo | dbc_influxdb/filetypereader.py:219-220 | the loop converts exactly the entries before the first one that fails |
| Config.PartiallyConvertedAllPairs | dbc_influxdb/filetypereader.py:219-220 | with every entry convertible, each entry becomes its pair, in order |
| Config.ConvertTimestampIdxColIdempotent | dbc_influxdb/filetypereader.py:206-221 | converting an already converted list changes nothing |
| Config.NoneIfFalsy | dbc_influxdb/filetypereader.py:47-48 | the setting is `None` exactly when the configured value is falsy, otherwise the value itself |
| Config.TranslateConfig | dbc_influxdb/filetypereader.py:46-102 | translation fails only through `_convert_timestamp_idx_col`, with its exception; `compression`, `skiprows`, `header` and the index column are the configured values, with falsy ones (and the `-9999` sentinel) as `None`; names are used exactly when there is no header; the keep and remove lists split into their first entry (the column position) and the rest (the IDs), both `None` for an empty list; dates are parsed exactly when configured, into `('TIMESTAMP', '-')` from the converted columns; the special format is detected from the file type |
| Config.SettingsFrom | dbc_influxdb/filetypereader.py:46-102 | the settings built from the configuration satisfy every rule of the translation above, with the given `parse_dates` |
| Config.HeaderRowZeroMeansNoHeader | dbc_influxdb/filetypereader.py:47-57 | header row 0 is read as no header (names come from the variables), while index column 0 is kept |
| RowFilters.RowsMatching | dbc_influxdb/filetypereader.py:226-227 | the kept rows are exactly those whose cell at the position the mask selects, each as often as it occurs in the input |
| RowFilters.RowsMatchingAppend | dbc_influxdb/filetypereader.py:226-227 | the mask keeps the rows' order: filtering two blocks of rows is filtering each, the first block's rows first |
| RowFilters.FilterOnColumn | dbc_influxdb/filetypereader.py:226-227 | a filter on a position outside the table raises `IndexError`; otherwise it keeps the columns and exactly the rows the mask selects, in order and with their multiplicities; every row left passes the mask |
| RowFilters.FilterPaired | dbc_influxdb/filetypereader.py:223-233 | the i-th ID filters the i-th table, whose rows then all pass the mask for that ID; tables past the IDs are unchanged; every table keeps its labels and some of its rows; more IDs than tables, or a bad position, raises `IndexError` |
| RowFilters.FilterPairedIdempotent | dbc_influxdb/filetypereader.py:223-233 | filtering a second time with the same IDs changes nothing |
| RowFilters.RowsMatchingIdempotent | dbc_influxdb/filetypereader.py:226-227 | applying one mask twice selects what it selected once |
| RowFilters.AllSelectedFewerRows | dbc_influxdb/filetypereader.py:223-233 | a table with the same labels and some of the rows of a table that passes a mask passes it too, so the remove filter keeps what the keep filter promised |
| SpecialFormats.FirstColumns | dbc_influxdb/filetypereader.py:292 | `iloc[:, 0:n]` keeps the first `n` columns (all of them when there are fewer) and every row's cells under them |
| SpecialFormats.Relabel | dbc_influxdb/filetypereader.py:293 | assigning names succeeds exactly when their number matches the columns; otherwise `ValueError` |
| SpecialFormats.SplitOne | dbc_influxdb/filetypereader.py:288-293 | one source's table has the configured names, and holds the rows carrying its ID cut to that many columns |
| SpecialFormats.AlternatingSplit | dbc_influxdb/filetypereader.py:266-308 | one table per configured ID, at most two, each the split for its ID with its own variable list |
| SpecialFormats.AlternatingIgnoresLaterIds | dbc_influxdb/filetypereader.py:297-308 | IDs after the second play no part in the split |
| SpecialFormats.SplitOneRowsCarryId | dbc_influxdb/filetypereader.py:288-293 | every row of a split table comes from an input row carrying that ID, with the same key |
| SpecialFormats.PresentValues | dbc_influxdb/filetypereader.py:261 | the values are exactly the non-missing cells of the column |
| SpecialFormats.CheckMissedIds | dbc_influxdb/filetypereader.py:254-264 | needs an "ID" column and IDs; reports "all IDs defined" exactly when every configured ID occurs, else the configured IDs that do not occur, in the configured order and with their repeats |
| SpecialFormats.MissedAmong | dbc_influxdb/filetypereader.py:261-262 | an ID is reported exactly when it is configured and absent from the column |
| SpecialFormats.MissedAmongAppend | dbc_influxdb/filetypereader.py:262 | the comprehension keeps the configured order: the missed IDs of two lists are those of the first, then those of the second |
| SpecialFormats.MissedAmongOne | dbc_influxdb/filetypereader.py:262 | one configured ID is reported once if it never occurs, and otherwise not at all |
| SpecialFormats.DetectSubformat | dbc_influxdb/filetypereader.py:328-332 | chambers exactly when "-CMB-" occurs (tested last, so it wins); profile exactly when only "-PRF-" occurs |
| SpecialFormats.LocationColumn | dbc_influxdb/filetypereader.py:335-337 | "LOCATION" exactly when some label mentions it, else "INLET" exactly when some label mentions that, else none |
| SpecialFormats.CellLeTotalPreorder | dbc_influxdb/filetypereader.py:343 | the order `list.sort` uses on comparable location values is a total preorder |
| SpecialFormats.Locations | dbc_influxdb/filetypereader.py:340-343 | the locations are the distinct present values of the column, sorted; a mix of text and numbers raises `TypeError` |
| SpecialFormats.SortedUniqueValues | dbc_influxdb/filetypereader.py:340-343 | sorting the unique values gives a sorted list without repeats holding exactly those values |
| SpecialFormats.LocationsCoverPresentValues | dbc_influxdb/filetypereader.py:340-343 | every row's location cell is missing or one of the locations |
| SpecialFormats.NewNameOfCleanParts | dbc_influxdb/filetypereader.py:361-369 | for underscore-free parts the new name `f"{col}_{addsuffix}_{loc}_1".replace("__", "_")` is `col_SUB_loc_1`, or `col_loc_1` when the variable already names the subformat |
| SpecialFormats.NewNamesSeparateLocations | dbc_influxdb/filetypereader.py:361-369 | for underscore-free parts, two different location tags give two different new names |
| SpecialFormats.LocationText | dbc_influxdb/filetypereader.py:352-366 | a text location prints as itself; a numeric one as its integer text followed by ".0", as the float column prints it |
| SpecialFormats.LocationTag | dbc_influxdb/filetypereader.py:352-353 | the tag is the location's text, followed by "_0" exactly for chambers |
| SpecialFormats.LocationTagsDiffer | dbc_influxdb/filetypereader.py:352-353 | two different locations of one kind give two different tags |
| SpecialFormats.RowsAtLocation | dbc_influxdb/filetypereader.py:349 | the slice holds exactly the rows whose location cell equals the location |
| SpecialFormats.RenamedColumns | dbc_influxdb/filetypereader.py:355-372 | every column gets the new name built from its label, the subformat and the location |
| SpecialFormats.LocationSlice | dbc_influxdb/filetypereader.py:349-375 | one location's rows under that location's new column names |
| SpecialFormats.ReindexedKeepsCells | dbc_influxdb/filetypereader.py:376 | a row laid onto the union of labels keeps its cell under every label it had |
| SpecialFormats.ConcatRows | dbc_influxdb/filetypereader.py:376 | concatenation keeps the first frame's labels first, holds the union of the labels, and puts both frames' rows in order with their cells under the same labels; repeated labels that differ between frames raise `InvalidIndexError` |
| SpecialFormats.Aligned | dbc_influxdb/filetypereader.py:376 | concatenating frames whose labels are distinct keeps the first frame's labels first, holds the union of the labels, and keeps both frames' row keys in order |
| SpecialFormats.AlignedKeepsFirst | dbc_influxdb/filetypereader.py:376 | the first frame's rows keep their cells under every label of the result |
| SpecialFormats.AlignedKeepsSecond | dbc_influxdb/filetypereader.py:376 | the second frame's rows, placed after the first frame's, keep their cells under every label of the result |
| SpecialFormats.Stacked | dbc_influxdb/filetypereader.py:347-376 | the stacked frame's keys are each location's row keys in turn, and all its labels are plain names; where each cell lands is `StackedPlacesCells` |
| SpecialFormats.IcosSeqReshape | dbc_influxdb/filetypereader.py:310-384 | the reshape needs a location column, found by name among plain labels; no output label mentions the location column; without a subformat it succeeds only when no row has a location (`None in col` raises `TypeError`); where each cell lands is `IcosSeqPlacesCells` |
| SpecialFormats.WithoutLocationColumns | dbc_influxdb/filetypereader.py:379-380 | exactly the labels not mentioning the location column remain, in their order; every row keeps its key and its cell under each of them |
| SpecialFormats.IcosSeqPlacesCells | dbc_influxdb/filetypereader.py:310-384 | the i-th row at the k-th location lands after the rows of the earlier locations and keeps its key; under the new name of each column for its location it holds that column's cell, unless the new name mentions the location column and is dropped; under every other location's labels it is `Missing` |
| SpecialFormats.StackedPlacesCells | dbc_influxdb/filetypereader.py:347-376 | in the stacked frame, the i-th row at the k-th location sits after the rows of the earlier locations, holds its cells under that location's new labels and `Missing` under the other labels |
| SpecialFormats.StackPlaces | dbc_influxdb/filetypereader.py:375 | in frames concatenated one after another, a row of frame k follows the rows of the frames before it and holds its cells under frame k's labels |
| SpecialFormats.ConcatPlacesSecond | dbc_influxdb/filetypereader.py:375 | `pd.concat` puts the second frame's rows after the first's, each with its cells under its own labels and `Missing` under labels only the first frame has |
| SpecialFormats.ConcatPlacesFirst | dbc_influxdb/filetypereader.py:375 | `pd.concat` keeps the first frame's rows in place with their cells, `Missing` under labels only the second frame has |
| SpecialFormats.StackedIsStack | dbc_influxdb/filetypereader.py:347-376 | the loop over the first n locations stacks exactly those locations' slices |
| SpecialFormats.StackedKeyAt | dbc_influxdb/filetypereader.py:347-376 | in the stacked index, the key right after the earlier locations' keys, plus i, is the i-th row's own key at the k-th location |
| SpecialFormats.DroppedPlacesCells | dbc_influxdb/filetypereader.py:378-380 | dropping the labels that mention the location column keeps a row's cell under every label of its own that stays, and leaves it `Missing` under every remaining label it lacks |
| SpecialFormats.SliceColumnsDistinct | dbc_influxdb/filetypereader.py:375 | once stacking succeeds, each location's new labels are distinct |
| SpecialFormats.StackedKeysAreLocated | dbc_influxdb/filetypereader.py:348-376 | stacking distinct locations yields, as a multiset, exactly the keys of the rows at those locations |
| SpecialFormats.IcosSeqKeepsLocatedRows | dbc_influxdb/filetypereader.py:310-384 | the reshape keeps exactly the rows that have a location, each once |
| SpecialFormats.StackedColumnsAreRenamed | dbc_influxdb/filetypereader.py:355-376 | a label is in the stacked frame exactly when it is an input column renamed for one of the locations |
| SpecialFormats.StackedStep | dbc_influxdb/filetypereader.py:348-376 | the last location's slice is stacked under what the earlier ones built: a label is in the result exactly when it is in one of the two |
| Coercion.CoerceCell | dbc_influxdb/filetypereader.py:422 | `to_numeric(errors='coerce')` leaves numbers, infinities and missing cells alone and turns text into the number its parser reads, or NaN exactly when that parser reads none |
| Coercion.AsFloat | dbc_influxdb/filetypereader.py:420 | `astype(float)` succeeds exactly when every text cell is read as a number by `float()` |
| Coercion.AsFloatAgreesWithCoerce | dbc_influxdb/filetypereader.py:419-422 | when `astype(float)` succeeds and the two parsers agree on the table's texts, it gives the same table as the coercing fallback |
| Coercion.AsFloatKeepsWhatCoerceDrops | dbc_influxdb/filetypereader.py:419-422 | a text that only `float()` reads keeps its number when the whole table converts, where the fallback would give NaN |
| Coercion.ToNumeric | dbc_influxdb/filetypereader.py:416-422 | the same shape and keys; when every cell converts, each text becomes the number `float()` reads, otherwise the number `pd.to_numeric` reads or missing; every cell is a number, an infinity, or missing |
| Coercion.ReplaceInfinities | dbc_influxdb/filetypereader.py:166-167 | each ±inf becomes missing and every other cell stays |
| Coercion.SanitisedIsNumeric | dbc_influxdb/filetypereader.py:158-167 | after coercion and the ±inf replacement every cell is a finite number or missing |
| Coercion.ReplacedIsNumeric | dbc_influxdb/filetypereader.py:166-167 | replacing the infinities of a table of numbers, infinities and missing cells leaves finite numbers and missing cells |
| Timestamps.FivePartStampOfDate | dbc_influxdb/filetypereader.py:517 | a real date from 1678-01-01 to 2262-04-10 with a valid hour and minute gives its day number times 1440 plus the hours and minutes; no step overflows |
| Timestamps.FivePartStamp | dbc_influxdb/filetypereader.py:517 | a row's assembly fails first at the date exactly when its digits spell no date in pandas' range; any other failure is a later step (the hours, the sum with the date, the minutes, the full sum); a success is the day number times 1440 plus the hours and minutes, inside the nanosecond range |
| Timestamps.FivePartLastDayOverflows | dbc_influxdb/filetypereader.py:517 | on 2262-04-11, hour 24 overflows the sum of the date and the hours |
| Timestamps.EarliestFailure | dbc_influxdb/filetypereader.py:517 | the step at which the column-wide assembly stops is the earliest step any row fails at, and some row fails there; it is 0 exactly when every row assembles |
| Timestamps.FivePartImpossibleMonth | dbc_influxdb/filetypereader.py:517 | a month past 12 gives no date, so the recipe raises |
| Timestamps.FivePartDigitsAreReparsed | dbc_influxdb/filetypereader.py:517 | month 0, day 115 of 2023 is read as 15 January 2023 |
| Timestamps.ParseFourDigits | dbc_influxdb/filetypereader.py:546-547 | four digits parse as hour d0d1 and minute d2d3 exactly when those are at most 23 and 59 |
| Timestamps.FourDigitText | dbc_influxdb/filetypereader.py:546 | `zfill(4)` of the text of 0..9999 is its four digits |
| Timestamps.LongTextNoTime | dbc_influxdb/filetypereader.py:547 | text longer than four characters never parses as `%H%M` |
| Timestamps.TimeOfDayIsParsed | dbc_influxdb/filetypereader.py:546-551 | `zfill(4)` of TIME parsed as `%H%M` gives hour TIME/100 and minute TIME%100 exactly when 0 <= TIME <= 9999 and those are at most 23 and 59 (the closed form `TimeOfDay`) |
| Timestamps.YearStart | dbc_influxdb/filetypereader.py:544 | a year gives a start exactly when pandas can hold it (1678 to 2262) |
| Timestamps.DoyStamp | dbc_influxdb/filetypereader.py:544-556 | `ValueError` exactly when DOY days are beyond the timedelta range; any other failure is an `OverflowError` of a sum; otherwise the timestamp exists exactly when the year is 1678 to 2262 and TIME is a clock time, and it lies inside the nanosecond range |
| Timestamps.DoyStampValue | dbc_influxdb/filetypereader.py:544-556 | for years 1678 to 2261, DOY 1 to 366 and a clock time, nothing overflows and the timestamp is the start of the year, plus DOY-1 days, plus the hour and minute of TIME |
| Timestamps.DoyPastLastDayOverflows | dbc_influxdb/filetypereader.py:553-556 | day 200 of 2262 lies past pandas' last day, so the sum raises `OverflowError` |
| Timestamps.DoyTooLargeRaises | dbc_influxdb/filetypereader.py:545 | a DOY of 106752 days is no timedelta, so `to_timedelta` raises `ValueError` |
| Timestamps.DoyFaults | dbc_influxdb/filetypereader.py:544-556 | the recipe computes exactly when no row raises `ValueError` and none raises `OverflowError` |
| Timestamps.YearStartBounds | dbc_influxdb/filetypereader.py:544 | years 1678 to 2261 have a start, and it lies between the day numbers of 1678-01-01 and 2261-01-01 |
| Timestamps.DoyStepsFit | dbc_influxdb/filetypereader.py:545-556 | within those years, DOY 1 to 366 and a clock time, every intermediate value fits the nanosecond range |
| Timestamps.DayNumberBounds | dbc_influxdb/filetypereader.py:517 | dates from 1678-01-01 to 2262-04-10 have day numbers between 612512 and 825912 |
| Timestamps.LookupAll | dbc_influxdb/filetypereader.py:505-513 | every name is looked up; the first absent one raises `KeyError` with its name |
| Timestamps.Restamped | dbc_influxdb/filetypereader.py:528 | the kept rows get their timestamps as keys and keep their cells |
| Timestamps.WithoutColumns | dbc_influxdb/filetypereader.py:520-521 | exactly the named columns (and `TIMESTAMP`) are dropped, the others stay in order; keys stay; a numeric table stays numeric |
| Timestamps.WithoutColumnsKeepsCells | dbc_influxdb/filetypereader.py:520-521 | every row keeps its cell under each label that is not dropped |
| Timestamps.CompleteRows | dbc_influxdb/filetypereader.py:504-514 | exactly the rows with a value in every date column remain |
| Timestamps.CompleteRowsCounts | dbc_influxdb/filetypereader.py:504-514 | each complete row remains as often as it occurred, and no other row |
| Timestamps.BuildFivePart | dbc_influxdb/filetypereader.py:503-530 | needs all five columns; succeeds exactly when every complete row assembles; otherwise raises the fault of the earliest failing step (`ValueError` for the date or a timedelta, `OverflowError` for a sum); on success gives `FivePartTable` |
| Timestamps.FivePartTable | dbc_influxdb/filetypereader.py:517-528 | the complete rows in order, each keyed by its timestamp, under the labels other than the five parts; a numeric table stays numeric |
| Timestamps.FivePartTableKeepsCells | dbc_influxdb/filetypereader.py:517-528 | the surviving labels keep their order, and every kept row (a row of the input) keeps its cell under each of them |
| Timestamps.DoyRows | dbc_influxdb/filetypereader.py:534-562 | exactly the rows with YEAR, DOY (not 0) and TIME and with a timestamp remain |
| Timestamps.DoyRowsCounts | dbc_influxdb/filetypereader.py:534-562 | each such row remains as often as it occurred, and no other row |
| Timestamps.BuildDoy | dbc_influxdb/filetypereader.py:533-565 | needs YEAR, DOY and TIME; succeeds exactly when no row raises; a failure is `ValueError` exactly when some row's DOY is beyond the timedelta range, else `OverflowError`; on success gives `DoyTable` |
| Timestamps.DoyTable | dbc_influxdb/filetypereader.py:544-563 | the dated rows in order, each keyed by its timestamp, without the parts and the helper columns; a numeric table stays numeric |
| Timestamps.DoyTableKeepsCells | dbc_influxdb/filetypereader.py:558-563 | the surviving labels keep their order, and every kept row (a row of the input) keeps its cell under each of them |
| Timestamps.BuildTimestamp | dbc_influxdb/filetypereader.py:493-565 | an unknown recipe changes nothing; a known one keys every remaining row by a timestamp; a numeric table stays numeric |
| Ordering.RowLeTotalPreorder | dbc_influxdb/filetypereader.py:390-392 | the index order (timestamps ascending, `NaT` last) is a total preorder |
| Ordering.SortIndex | dbc_influxdb/filetypereader.py:390-392 | `sort_index` yields the same rows (a permutation), ordered by key, under the same columns |
| Ordering.KeepLast | dbc_influxdb/filetypereader.py:386-388 | `duplicated(keep='last')` leaves rows of the input with distinct keys, and keeps a sorted input sorted |
| Ordering.KeepLastKeepsTheLast | dbc_influxdb/filetypereader.py:386-388 | a row survives exactly when no later row has its key |
| Ordering.KeepLastKeepsEveryKey | dbc_influxdb/filetypereader.py:386-388 | every key of the input still has a row |
| Ordering.SortedDedupIsStrictlyIncreasing | dbc_influxdb/filetypereader.py:172-173 | sorting then de-duplicating leaves strictly increasing keys, one row per input key |
| Ordering.RemoveIndexDuplicates | dbc_influxdb/filetypereader.py:386-388 | the rows left are those `KeepLast` keeps (the last row of each key), from the input, with distinct keys; on a sorted input the keys strictly increase |
| Schema.UnitsHeader | dbc_influxdb/filetypereader.py:432-438 | a plain header gets the unit "-not-given-" on every label; a two-level header is left alone |
| Schema.AddUnitsRow | dbc_influxdb/filetypereader.py:429-438 | fails with `TypeError` exactly for a table without columns; otherwise the rows stay and a plain header becomes two-level |
| Schema.RenamedUnit | dbc_influxdb/filetypereader.py:411-412 | after renaming, a label is free of "Unnamed" exactly when its variable is |
| Schema.RenameUnnamedUnits | dbc_influxdb/filetypereader.py:406-414 | a pair mentioning "Unnamed" keeps its variable and gets the unit "-not-given-"; other labels stay |
| Schema.RemoveUnnamedCols | dbc_influxdb/filetypereader.py:394-404 | the labels free of "Unnamed" remain, in order, with the keys; none left raises `TypeError`; a surviving label that repeats raises `ValueError`; a result never repeats a label |
| Schema.RemoveUnnamedColsKeepsCells | dbc_influxdb/filetypereader.py:401-403 | every row keeps its key and its cell under each label that remains |
| Schema.FinaliseColumns | dbc_influxdb/filetypereader.py:176-180 | the three column stages on one table raise only `TypeError` or `ValueError`, and otherwise leave a two-level header without repeated labels and the same keys |
| Schema.FinalHeader | dbc_influxdb/filetypereader.py:176-177 | each label after the units row and the renaming |
| Schema.FinaliseColumnsSurvivors | dbc_influxdb/filetypereader.py:176-180 | the column stages succeed exactly when some label survives and the survivors do not repeat; the finished header is the renamed header without "Unnamed" labels; each survivor is a pair with both parts free of "Unnamed" and a non-empty unit |
| Schema.RepeatedUnitsRaise | dbc_influxdb/filetypereader.py:394-414 | two columns of one variable whose units both contain "Unnamed" (as `Unnamed: 1_level_1` and `Unnamed: 2_level_1`) make the column stages raise `ValueError` |
| Schema.RepeatedSurvivorRaises | dbc_influxdb/filetypereader.py:401-403 | a label that survives twice makes `_remove_unnamed_cols` raise `ValueError` |
| Reader.Surfaced | dbc_influxdb/filetypereader.py:482-483 | an unguarded read loads its table or lets its exception through |
| Reader.ReadFile | dbc_influxdb/filetypereader.py:440-491 | reading succeeds exactly when the first attempt loads, or a `ValueError` is followed by a successful skip-rows retry, or a CSV error by a successful C-engine retry; the first successful load is the result |
| Reader.RetriesDoNotChain | dbc_influxdb/filetypereader.py:482-483 | a CSV error in the skip-rows retry is not retried with the C engine |
| Reader.SetParsedIndex | dbc_influxdb/filetypereader.py:121-125 | with a parsed `('TIMESTAMP', '-')` column, that column becomes the index and leaves the columns: a number gives its timestamp, any other cell `NaT`; otherwise the table is unchanged |
| Reader.ParsedIndexKeepsOtherColumns | dbc_influxdb/filetypereader.py:121-125 | every other column keeps its cells when the parsed column becomes the index |
| Reader.SpecialFormatOutput | dbc_influxdb/filetypereader.py:235-252 | ICOSSEQ always raises (`UnboundLocalError` unless the reshape raised first); ALTERNATING gives the split and the missed-ID diagnostic |
| Reader.Front | dbc_influxdb/filetypereader.py:115-148 | the list holds one table without a special format and one or two for ALTERNATING; the diagnostic is "not special format" exactly without one |
| Reader.FilterIds | dbc_influxdb/filetypereader.py:223-233 | an unset column position raises `TypeError`; otherwise the paired filter |
| Reader.Filtered | dbc_influxdb/filetypereader.py:150-155 | with no truthy ID list nothing changes; otherwise only `TypeError` or `IndexError`, or every table keeps its labels and some of its rows, the i-th table's rows all carrying the i-th good ID and none carrying the i-th bad ID |
| Reader.Cleaned | dbc_influxdb/filetypereader.py:157-171 | coercion, the ±inf replacement and the timestamp keep the number of tables and leave every table numeric |
| Reader.CleanedIsNumeric | dbc_influxdb/filetypereader.py:157-167 | every table is numeric after coercion and the ±inf replacement |
| Reader.Ordered | dbc_influxdb/filetypereader.py:172-173 | every table has strictly increasing keys and the same columns, and stays numeric |
| Reader.Finished | dbc_influxdb/filetypereader.py:176-180 | running the three column stages list-wide succeeds exactly when each table's finalisation does, and gives those results: two-level headers without repeated labels, and the same keys |
| Reader.Pipeline | dbc_influxdb/filetypereader.py:115-180 | the diagnostic of a finished run is the one the special-format stage produced |
| Reader.PipelineAfterFront | dbc_influxdb/filetypereader.py:115-180 | once the list is built, `run` ends as the stages after it end: with their exception, or with their tables and the diagnostic |
| Reader.PipelineStopsAtFront | dbc_influxdb/filetypereader.py:115-148 | an exception while reading, indexing or reshaping ends `run` with that exception |
| Reader.PipelineOutcome | dbc_influxdb/filetypereader.py:150-180 | what the stages after the list report decides `run`: their exception, or the tables they leave with the diagnostic |
| Reader.IcosSeqNeverCompletes | dbc_influxdb/filetypereader.py:235-252 | an ICOSSEQ file never gets through `run` |
| Reader.PipelineGuarantees | dbc_influxdb/filetypereader.py:115-180 | every finished table has strictly increasing keys, only finite numbers or missing cells, and distinct pair labels free of "Unnamed"; the diagnostic is "not special format" exactly for files without one |
| Reader.Finish | dbc_influxdb/filetypereader.py:150-180 | the stages after the list keep the number of tables, and every table they produce has strictly increasing keys, only finite numbers or missing cells, and distinct pair labels free of "Unnamed" |
| Reader.FinishedGuarantees | dbc_influxdb/filetypereader.py:176-180 | the column stages on sorted numeric tables keep them sorted and numeric and leave distinct pair labels free of "Unnamed" |
| Reader.FinalisedTable | dbc_influxdb/filetypereader.py:176-180 | the column stages keep a table's keys and numeric cells and leave pair labels free of "Unnamed" |
| Reader.FileTypeReader.FileInformation | dbc_influxdb/filetypereader.py:87-91 | the file information carries the path, the file type and its special format |
| Reader.FileTypeReader.constructor | dbc_influxdb/filetypereader.py:46-109 | the reader keeps its path, type and settings and holds exactly the outcome of `run` |
| Reader.FileTypeReader.Run | dbc_influxdb/filetypereader.py:115-180 | after `run` the object holds the `Pipeline` result: the list and diagnostic, or the exception |
| Reader.FileTypeReader.RunOnList | dbc_influxdb/filetypereader.py:150-180 | once the list exists, the object ends holding the `Pipeline` result: the finished list, or the first stage's exception |
| Reader.FileTypeReader.ProcessList | dbc_influxdb/filetypereader.py:150-180 | the filter, number, order and column stages applied in place leave the list `Finish` gives, or report its exception |
| Reader.FileTypeReader.Load | dbc_influxdb/filetypereader.py:116-148 | reports the exception of reading, indexing or the special format, and otherwise holds the list and diagnostic `Front` gives |
| Reader.FileTypeReader.FilterDataRows | dbc_influxdb/filetypereader.py:150-155 | the list after the keep and remove filters, or their exception |
| Reader.FileTypeReader.CleanValues | dbc_influxdb/filetypereader.py:157-171 | the list after coercion, the ±inf replacement and the timestamp, or the exception |
| Reader.FileTypeReader.OrderIndex | dbc_influxdb/filetypereader.py:172-173 | the list sorted and de-duplicated table by table |
| Reader.FileTypeReader.FinishColumns | dbc_influxdb/filetypereader.py:176-180 | the list after the three column stages, or the exception |
| Reader.FileTypeReader.SpecialDataFormats | dbc_influxdb/filetypereader.py:235-252 | the list and diagnostic of the special format, or the exception |
| Reader.FileTypeReader.SpecialFormatAlternating | dbc_influxdb/filetypereader.py:248-252 | the `-ALTERNATING-` branch leaves the split tables and the missed-ID report that `SpecialFormatOutput` gives, or reports its exception |
| Reader.FileTypeReader.SpecialFormatIcosseq | dbc_influxdb/filetypereader.py:310-384 | the loops compute exactly the reshape `IcosSeqReshape` specifies |
| Reader.FileTypeReader.KeepGoodDataRows | dbc_influxdb/filetypereader.py:223-227 | the list after the keep filter, or its exception |
| Reader.FileTypeReader.RemoveBadDataRows | dbc_influxdb/filetypereader.py:229-233 | the list after the remove filter, or its exception |
| Reader.FileTypeReader.FilterEachById | dbc_influxdb/filetypereader.py:225-227 | the in-place loop leaves the paired filter's result, or its exception |
| Reader.FileTypeReader.UpdateEach | dbc_influxdb/filetypereader.py:166-167 | rewriting each `df_list[ix]` in place gives the stage applied to every table |
| Reader.FileTypeReader.TryUpdateEach | dbc_influxdb/filetypereader.py:408-414 | the in-place loop reports the first table's exception, or leaves every table's result |
| SpecialFormats.StackLocations | dbc_influxdb/filetypereader.py:347-376 | the loop over the locations builds the stacked frame, or raises `TypeError` for a missing subformat |
| SpecialFormats.AddLocation | dbc_influxdb/filetypereader.py:349-376 | one pass of the location loop raises `TypeError` without a subformat, and otherwise concatenates the location's renamed rows below the frame so far |
| SpecialFormats.StackedAppend | dbc_influxdb/filetypereader.py:348-376 | stacking one more location concatenates its slice below the frame the earlier locations built, or keeps their exception |
| SpecialFormats.RenameForLocation | dbc_influxdb/filetypereader.py:355-372 | the inner loop gives every column its new name, or raises `TypeError` for a missing subformat |
| SpecialFormats.StackedFailsFrom | dbc_influxdb/filetypereader.py:348-376 | once stacking fails, it fails with the same exception for every longer list of locations |
| Text.ZFill | dbc_influxdb/main.py:356 | `zfill` leaves text of the width or longer unchanged; shorter text gets zeros in front up to the width, placed after a leading sign |
| Text.IntToStrInjective | dbc_influxdb/filetypereader.py:546 | different integers print as different texts |
| Influx.IsoWithOffset | dbc_influxdb/main.py:352-361 | the result is the ISO date followed by the offset suffix |
| Influx.OffsetSuffix | dbc_influxdb/main.py:355-360 | the suffix starts with '+' exactly for offsets of zero or more and with '-' exactly for negative ones, and ends with ":00" |
| Influx.OffsetHours | dbc_influxdb/main.py:356-358 | offsets 0 to 9 are written as two digits; every other offset as its plain text, at least two characters long |
| Influx.SmallOffset | dbc_influxdb/main.py:356-359 | offsets 0 to 9 get two digits ("+01:00") |
| Influx.LargeOffset | dbc_influxdb/main.py:356-359 | offsets of 10 or more are written as they are |
| Influx.NegativeOffsetDoublesSign | dbc_influxdb/main.py:355-359 | a negative offset is written with a doubled sign ("--1:00") |
| Influx.OffsetOfMinusOne | dbc_influxdb/main.py:355-359 | offset -1 gives "--1:00" |
| Influx.OffsetValidIff | dbc_influxdb/main.py:345-359 | the suffix is a valid RFC 3339 numeric offset exactly for offsets 0 to 23 |
| Influx.CheckTagsAndField | dbc_influxdb/main.py:75-86 | the upload passes exactly when every tag is a column and at most one column is not a tag; the missing tags are reported in the tags' order with repeats, the fields in the columns' order |
| Influx.LastMeasurement | dbc_influxdb/main.py:387-393 | a variable gets a measurement exactly when some measurement's fields list it, and the one it gets lists it |
| Influx.LastMeasurementIsLast | dbc_influxdb/main.py:387-393 | a variable is assigned exactly when some measurement lists it, and then to the last one that does |
| Influx.DetectMeasurementForField | dbc_influxdb/main.py:387-393 | the loops map exactly the listed variables found in some measurement, each to the last measurement listing it |
| Influx.AssignedStep | dbc_influxdb/main.py:388-392 | one more measurement extends the assignment: it wins for the variables its fields list, and the others keep their measurement |
| Influx.LastMeasurementStep | dbc_influxdb/main.py:388-392 | among the first i+1 measurements, the last listing a variable is the (i+1)-th if it lists it, and otherwise the last among the first i |
| Influx.ShowBuckets | dbc_influxdb/main.py:446 | exactly the bucket names not starting with '_' remain |
| Influx.ShowBucketsKeepsOrder | dbc_influxdb/main.py:446 | the kept names keep their order |
| Influx.ShowBucketsKeepsUserBuckets | dbc_influxdb/main.py:446 | a list without system buckets comes back unchanged |

## Left out

- CSV parsing is left out: delimiters, encodings, compression, NA markers, `usecols`, `nrows` and the `on_bad_lines` warning. Each `pd.read_csv` call is a parameter that either loads a table or raises.
- `convert_dtypes` (`_convert_to_float_or_string`) is the identity on the model's cells. Its effect on missing cells in the row filters is built into `RowFilters.Selects`.
- Floating point is left out. Numbers are integers; NaN is the missing cell; the infinities are their own cells.
- Text-to-number parsing is a parameter: one parser for `float()` and one for `pd.to_numeric`.
- Reading the YAML configuration files (`get_conf_filetypes`, `read_configfile`) is left out. The model starts from the parsed configuration.
- The InfluxDB client, the Flux queries, the writes and `dateutil` parsing in `dbc_influxdb/main.py` are left out. The ISO date text is an input of `IsoWithOffset`; field lists and bucket names are parameters.
- The `readfile` wrapper in `dbc_influxdb/main.py`, `dbc_influxdb/manual_run.py`, logging, `pd.set_option` and `print` are left out.
- Name lookups on a two-level header are left out. `df['YEAR']` on a table with (variable, unit) labels is modelled as a missing column, so it raises `KeyError`.
- A (variable, unit) label inside a plain header (only possible through `parse_dates` on a headerless file) is treated like any other label.
- Reader.FileTypeReader.Run: the model records the exception in the `fault` field; it does not model the partial state pandas leaves in `df_list` when a stage raises.
- Ordering.SortIndex: `sort_index` uses quicksort, which is not stable. The model sorts stably, and its contract states only "sorted and a permutation", which both satisfy.
- Timestamps.FivePartStamp: the range checks follow pandas 2 (`OutOfBoundsTimedelta`, a `ValueError`, for a timedelta; `OverflowError` for a sum). The nanosecond value -2**63, which pandas reserves for `NaT`, is treated as out of range. Dates are checked against whole days (1677-09-22 to 2262-04-11), not against the exact first and last nanosecond.
- Timestamps.DoyStamp: YEAR is taken as an integer. A float year that `%Y` cannot read becomes no timestamp in the source; in the model the integer year is used.
- SpecialFormats.LocationText: a numeric location is printed as its float text (e.g. "35.0"). Other float formatting is left out.
- SpecialFormats.ConcatRows: the rules for repeated labels in `pd.concat` are approximated. Frames whose labels repeat concatenate only when their headers are equal; otherwise the result is `InvalidIndexError`.
- Reader.SetParsedIndex: pandas keeps a `parse_dates` column it cannot parse as text, and the index is then that text; sorting and de-duplication work on the strings. The model keys every non-numeric cell of the parsed column as `NaT`, so rows with different unparsed texts share one key and all but the last are dropped.
- Reader.FilterIds: `iloc[:, None]` with no column position configured is modelled as `TypeError`; depending on the pandas version it may be another indexing error such as `ValueError`.
- SpecialFormats.WithoutLocationColumns: `df[cols]` with a repeated label selects it once per listing; the model keeps each column once. A repeated label can only come from `ConcatRows`, whose treatment of repeated labels is itself approximated.
- SpecialFormats.NewName: for parts with underscores of their own, the effect of `replace("__", "_")` is modelled but only the underscore-free case is stated as a lemma.
- Influx.OffsetSuffix: only integer offsets are modelled.
- Everything the source writes to the database is left out, and so are the `dbc_influxdb/tests` files.

=== FILE: coercion.dfy ===
/** Numeric coercion (`_to_numeric`) and the ±inf sanitising step of `run`
    (dbc_influxdb/filetypereader.py). Text-to-number parsing is a parameter,
    one parser per pandas path: `astype(float)` goes through Python's
    `float()`, which accepts digit separators such as "1_000", while
    `pd.to_numeric` has its own parser, which does not. */
module Coercion {
  import opened Wrappers
  import opened Tables

  /** The number each of the two paths reads from a text, if any. */
  datatype Parsers = Parsers(asFloat: string -> Option<Cell>, toNumeric: string -> Option<Cell>)

  /** A cell that is a float once converted: a number or an infinity. */
  predicate IsNumber(c: Cell) {
    c.Num? || c.PosInf? || c.NegInf?
  }

  /** The parser's answer, kept only when it is a number. */
  function Parsed(parse: string -> Option<Cell>, s: string): (r: Option<Cell>)
    ensures r.Some? ==> IsNumber(r.value) && parse(s) == r
    ensures r.None? ==> parse(s).None? || !IsNumber(parse(s).value)
  {
    match parse(s)
    case Some(c) => if IsNumber(c) then Some(c) else None
    case None => None
  }

  /** `float(cell)` for one cell: text that does not parse raises. */
  function CellAsFloat(p: Parsers, c: Cell): (r: Option<Cell>)
    ensures !c.Str? ==> r == Some(c)
    ensures c.Str? ==> r == Parsed(p.asFloat, c.s)
  {
    match c
    case Str(s) => Parsed(p.asFloat, s)
    case _ => Some(c)
  }

  /** The cell `astype(float)` leaves when the whole table converts. */
  function FloatOf(p: Parsers, c: Cell): Cell {
    if CellAsFloat(p, c).Some? then CellAsFloat(p, c).value else c
  }

  /** `pd.to_numeric(cell, errors='coerce')`: text that does not parse becomes NaN. */
  function CoerceCell(p: Parsers, c: Cell): (r: Cell)
    ensures r.Missing? || IsNumber(r)
    ensures !c.Str? ==> r == c
    ensures c.Str? ==> (r == Missing <==> Parsed(p.toNumeric, c.s).None?)
    ensures c.Str? && r != Missing ==> Some(r) == p.toNumeric(c.s)
  {
    match c
    case Str(s) => (match Parsed(p.toNumeric, s) case Some(x) => x case None => Missing)
    case Missing => c
    case Num(_) => c
    case PosInf => c
    case NegInf => c
  }

  /** Every cell of the table converts to a float. */
  predicate AllFloat(t: Table, p: Parsers) {
    forall row <- t.rows :: forall c <- row.cells :: CellAsFloat(p, c).Some?
  }

  /** `df.astype(float)`, which raises (`None` here) on the first cell that
      does not convert. */
  function AsFloat(t: Table, p: Parsers): (r: Option<Table>)
    ensures r.Some? <==> AllFloat(t, p)
  {
    if AllFloat(t, p) then Some(MapCells(t, (c: Cell) => FloatOf(p, c)))
    else None
  }

  /** `df.apply(pd.to_numeric, errors='coerce')`. */
  function CoerceNumeric(t: Table, p: Parsers): (r: Table) {
    MapCells(t, (c: Cell) => CoerceCell(p, c))
  }

  /** The two parsers read the same number (or none) from every text cell. */
  predicate AgreeOn(t: Table, p: Parsers) {
    forall row <- t.rows :: forall c <- row.cells :: c.Str? ==> Parsed(p.asFloat, c.s) == Parsed(p.toNumeric, c.s)
  }

  /** When `astype(float)` succeeds and the two parsers agree on the
      table's texts, it gives what the coercing fallback gives. */
  lemma AsFloatAgreesWithCoerce(t: Table, p: Parsers)
    requires AsFloat(t, p).Some? && AgreeOn(t, p)
    ensures AsFloat(t, p).value == CoerceNumeric(t, p)
  {
    var a := AsFloat(t, p).value;
    var b := CoerceNumeric(t, p);
    assert |a.rows| == |b.rows|;
    forall i | 0 <= i < |t.rows| ensures a.rows[i] == b.rows[i] {
      assert t.rows[i] in t.rows;
      assert |a.rows[i].cells| == |b.rows[i].cells|;
      forall k | 0 <= k < |t.rows[i].cells| ensures a.rows[i].cells[k] == b.rows[i].cells[k] {
        assert t.rows[i].cells[k] in t.rows[i].cells;
      }
    }
  }

  /** Where `float()` reads a number that `pd.to_numeric` rejects (as with
      "1_000"), the table that converts keeps the number, which the
      coercing fallback would have made NaN. */
  lemma AsFloatKeepsWhatCoerceDrops(t: Table, p: Parsers, i: nat, k: nat)
    requires i < |t.rows| && k < |t.rows[i].cells| && t.rows[i].cells[k].Str?
    requires AllFloat(t, p) && p.toNumeric(t.rows[i].cells[k].s).None?
    ensures ToNumeric(t, p).rows[i].cells[k] != Missing
    ensures CoerceNumeric(t, p).rows[i].cells[k] == Missing
  {
    assert t.rows[i] in t.rows && t.rows[i].cells[k] in t.rows[i].cells;
  }

  /** `_to_numeric` on one table: try `astype(float)`, fall back to coercion.
      Labels, keys and shape stay; numbers stay; when every cell converts,
      text becomes the number `float()` reads, otherwise the number
      `pd.to_numeric` reads or `Missing`. */
  function ToNumeric(t: Table, p: Parsers): (r: Table)
    ensures r.columns == t.columns && |r.rows| == |t.rows|
    ensures forall i :: 0 <= i < |t.rows| ==>
      && r.rows[i].key == t.rows[i].key
      && |r.rows[i].cells| == |t.rows[i].cells|
      && forall k :: 0 <= k < |t.rows[i].cells| ==>
        r.rows[i].cells[k] == if AllFloat(t, p) then FloatOf(p, t.rows[i].cells[k]) else CoerceCell(p, t.rows[i].cells[k])
    ensures forall row <- r.rows :: forall c <- row.cells :: c.Missing? || IsNumber(c)
  {
    match AsFloat(t, p)
    case Some(f) =>
      assert forall row <- f.rows :: forall c <- row.cells :: c.Missing? || IsNumber(c) by {
        forall row <- f.rows, c <- row.cells ensures c.Missing? || IsNumber(c) {
          var i :| 0 <= i < |f.rows| && f.rows[i] == row;
          var k :| 0 <= k < |row.cells| && row.cells[k] == c;
          assert t.rows[i] in t.rows && t.rows[i].cells[k] in t.rows[i].cells;
        }
      }
      f
    case None => CoerceNumeric(t, p)
  }

  /** `df.replace([np.inf, -np.inf], np.nan)`. */
  function ReplaceInfinities(t: Table): (r: Table)
    ensures r.columns == t.columns && Keys(r.rows) == Keys(t.rows)
    ensures forall i :: 0 <= i < |t.rows| ==>
      && |r.rows[i].cells| == |t.rows[i].cells|
      && forall k :: 0 <= k < |t.rows[i].cells| ==>
        r.rows[i].cells[k] == (if t.rows[i].cells[k].PosInf? || t.rows[i].cells[k].NegInf? then Missing else t.rows[i].cells[k])
  {
    MapCells(t, (c: Cell) => if c.PosInf? || c.NegInf? then Missing else c)
  }

  /** After coercion and sanitising, every cell is a finite number or missing. */
  lemma {:induction false} SanitisedIsNumeric(t: Table, p: Parsers)
    ensures Numeric(ReplaceInfinities(ToNumeric(t, p)))
  {
    ReplacedIsNumeric(ToNumeric(t, p));
  }

  /** Replacing the infinities of a table of numbers, infinities and
      missing cells leaves numbers and missing cells. */
  lemma ReplacedIsNumeric(n: Table)
    requires forall row <- n.rows :: forall c <- row.cells :: c.Missing? || IsNumber(c)
    ensures Numeric(ReplaceInfinities(n))
  {
    var r := ReplaceInfinities(n);
    forall row <- r.rows, c <- row.cells ensures NumericCell(c) {
      var i :| 0 <= i < |r.rows| && r.rows[i] == row;
      var k :| 0 <= k < |row.cells| && row.cells[k] == c;
      assert n.rows[i] in n.rows && n.rows[i].cells[k] in n.rows[i].cells;
    }
  }
}

=== FILE: config.dfy ===
/** Translation of one file type's configuration into reader settings
    (`FileTypeReader.__init__`, dbc_influxdb/filetypereader.py). */
module Config {
  import opened Wrappers
  import opened Text
  import opened Tables

  /** The YAML scalars and lists a row-number setting can hold. */
  datatype Yaml = Null | Bool(b: bool) | Int(i: int) | IntList(items: seq<int>)

  /** Python truthiness of such a value: `None`, `False`, `0` and `[]` are false. */
  predicate Truthy(v: Yaml) {
    match v
    case Null => false
    case Bool(b) => b
    case Int(i) => i != 0
    case IntList(xs) => |xs| > 0
  }

  /** One entry of `data_parse_dates`: a column position, a column name, a
      YAML list (as written in the configuration files) or a tuple. */
  datatype DateCol =
    | Position(position: int)
    | ColumnName(name: string)
    | NameList(names: seq<string>)
    | NamePair(first: string, second: string)

  /** The configuration keys the reader uses. List-valued keys hold `[]`
      where the YAML file has `false`, `null` or an empty list. */
  datatype RawConfig = RawConfig(
    filetypeGzip: bool,
    dataSkiprows: Yaml,
    dataHeaderrows: Yaml,
    dataVars: seq<string>,            // the keys of `data_vars`, in order
    dataVars2: Option<seq<string>>,   // the keys of `data_vars2`, if that key exists
    dataIndexCol: Yaml,
    dataParseDates: seq<DateCol>,
    dataBuildTimestamp: Option<string>,
    dataKeepGoodRows: seq<int>,       // [column position, id, id, ...]
    dataRemoveBadRows: seq<int>)      // [column position, id, id, ...]

  datatype SpecialFormat = NoSpecialFormat | IcosSeq | Alternating

  /** `parse_dates` as handed to the CSV reader: off, or a dict that combines
      the listed columns into one new column with the given label. */
  datatype ParseDates = NoParseDates | ParseInto(target: Label, sources: seq<DateCol>)

  datatype Settings = Settings(
    compression: Option<string>,
    skiprows: Yaml,
    header: Yaml,
    names: Option<seq<string>>,
    indexCol: Yaml,
    parseDates: ParseDates,
    buildTimestamp: Option<string>,
    specialFormat: SpecialFormat,
    goodrowsCol: Option<int>,
    goodrowsIds: Option<seq<int>>,
    badrowsCol: Option<int>,
    badrowsIds: Option<seq<int>>,
    dataVars: seq<string>,
    dataVars2: Option<seq<string>>)

  /** The label of the column `parse_dates` builds. */
  const ParsedTimestampLabel: Label := Pair("TIMESTAMP", "-")

  /** The sentinel that configuration files use for "no index column". */
  const NoIndexCol: int := -9999

  const SpecialFormatTags: seq<string> := ["-ICOSSEQ-", "-ALTERNATING-"]

  // -------------------------------------------------------- special format

  /** Index of the first tag that occurs in `filetype`. */
  function FirstTagIn(tags: seq<string>, filetype: string): (r: Option<nat>)
    ensures r.Some? ==> r.value < |tags| && IsSubstring(tags[r.value], filetype)
    ensures r.Some? ==> forall k :: 0 <= k < r.value ==> !IsSubstring(tags[k], filetype)
    ensures r.None? ==> forall k :: 0 <= k < |tags| ==> !IsSubstring(tags[k], filetype)
  {
    if tags == [] then None
    else if IsSubstring(tags[0], filetype) then Some(0)
    else match FirstTagIn(tags[1..], filetype)
      case None => None
      case Some(k) => Some(k + 1)
  }

  /** The special format is the first of "-ICOSSEQ-", "-ALTERNATING-" that
      occurs in the file type's name; ICOSSEQ wins when both occur. */
  function DetectSpecialFormat(filetype: string): (r: SpecialFormat)
    ensures r == IcosSeq <==> IsSubstring("-ICOSSEQ-", filetype)
    ensures r == Alternating <==> !IsSubstring("-ICOSSEQ-", filetype) && IsSubstring("-ALTERNATING-", filetype)
    ensures r == NoSpecialFormat <==> !IsSubstring("-ICOSSEQ-", filetype) && !IsSubstring("-ALTERNATING-", filetype)
  {
    assert SpecialFormatTags[0] == "-ICOSSEQ-" && SpecialFormatTags[1] == "-ALTERNATING-";
    match FirstTagIn(SpecialFormatTags, filetype)
    case None => NoSpecialFormat
    case Some(k) => if k == 0 then IcosSeq else Alternating
  }

  // ----------------------------------------------- _convert_timestamp_idx_col

  /** `(c[0], c[1])` for one entry: an int is not subscriptable, a string or
      list shorter than two raises `IndexError`, a longer one is cut to two. */
  function ConvertEntry(c: DateCol): (r: Result<DateCol, Fault>)
    ensures r.Ok? ==> r.value.NamePair?
    ensures r.Ok? <==> match c
      case Position(_) => false
      case ColumnName(s) => |s| >= 2
      case NameList(xs) => |xs| >= 2
      case NamePair(_, _) => true
  {
    match c
    case Position(_) => Err(TypeError)
    case ColumnName(s) => if |s| >= 2 then Ok(NamePair([s[0]], [s[1]])) else Err(IndexError)
    case NameList(xs) => if |xs| >= 2 then Ok(NamePair(xs[0], xs[1])) else Err(IndexError)
    case NamePair(_, _) => Ok(c)
  }

  /** The list after the in-place loop has rewritten entries up to (not
      including) the first one it cannot convert. */
  function PartiallyConverted(v: seq<DateCol>): (r: seq<DateCol>)
    ensures |r| == |v|
  {
    if v == [] then []
    else match ConvertEntry(v[0])
      case Err(_) => v
      case Ok(c) => [c] + PartiallyConverted(v[1..])
  }

  /** What the list holds once the conversion has run (or raised). */
  function AfterConversion(v: seq<DateCol>): seq<DateCol> {
    if v != [] && v[0].NameList? then PartiallyConverted(v) else v
  }

  /** Every entry of `v` can be made a pair. */
  predicate AllConvertible(v: seq<DateCol>) {
    forall c <- v :: ConvertEntry(c).Ok?
  }

  /** `_convert_timestamp_idx_col`: a list of positions is kept, a list whose
      first entry is a YAML list is turned into a list of pairs, anything else
      is kept. */
  function ConvertTimestampIdxCol(v: seq<DateCol>): (r: Result<seq<DateCol>, Fault>)
    ensures r.Ok? <==> v != [] && (v[0].NameList? ==> AllConvertible(v))
    ensures r.Ok? ==> r.value == AfterConversion(v)
  {
    if v == [] then Err(IndexError)
    else if v[0].Position? then Ok(v)
    else if v[0].NameList? then
      (if AllConvertible(v) then Ok(PartiallyConverted(v)) else Err(ConvertEntryFault(v)))
    else Ok(v)
  }

  /** `_convert_timestamp_idx_col` as written: `new` is the very list `var`,
      so the entries are rewritten in place, and an entry that cannot be made
      a pair raises with the entries before it already rewritten. */
  method ConvertTimestampIdxColInPlace(v: array<DateCol>) returns (ok: bool)
    modifies v
    ensures ok <==> ConvertTimestampIdxCol(old(v[..])).Ok?
    ensures v[..] == AfterConversion(old(v[..]))
  {
    if v.Length == 0 {
      return false;
    }
    if !v[0].NameList? {
      return true;
    }
    ghost var original := v[..];
    for idx := 0 to v.Length
      invariant v[idx..] == original[idx..]
      invariant forall k :: 0 <= k < idx ==> ConvertEntry(original[k]).Ok? && v[k] == ConvertEntry(original[k]).value
    {
      var c := ConvertEntry(v[idx]);
      if c.Err? {
        assert original[idx] == v[idx];
        PartiallyConvertedUpTo(original, idx);
        assert !AllConvertible(original) by { assert original[idx] in original; }
        assert v[..] == PartiallyConverted(original);
        return false;
      }
      v[idx] := c.value;
    }
    PartiallyConvertedUpTo(original, v.Length);
    assert v[..] == PartiallyConverted(original);
    assert AllConvertible(original) by {
      forall c <- original ensures ConvertEntry(c).Ok? {
        var k :| 0 <= k < |original| && original[k] == c;
      }
    }
    return true;
  }

  /** When the entries before `idx` convert and the one at `idx` (if any)
      does not, the rewrite converts exactly that prefix. */
  lemma {:induction false} PartiallyConvertedUpTo(v: seq<DateCol>, idx: nat)
    requires idx <= |v| && forall k :: 0 <= k < idx ==> ConvertEntry(v[k]).Ok?
    requires idx < |v| ==> ConvertEntry(v[idx]).Err?
    ensures forall k :: 0 <= k < idx ==> PartiallyConverted(v)[k] == ConvertEntry(v[k]).value
    ensures forall k :: idx <= k < |v| ==> PartiallyConverted(v)[k] == v[k]
  {
    if idx > 0 {
      assert forall k :: 0 <= k < idx - 1 ==> v[1..][k] == v[k + 1];
      PartiallyConvertedUpTo(v[1..], idx - 1);
    }
  }

  /** The exception raised by the first entry that cannot be converted. */
  function ConvertEntryFault(v: seq<DateCol>): Fault
    requires !AllConvertible(v)
  {
    if ConvertEntry(v[0]).Err? then ConvertEntry(v[0]).error else ConvertEntryFault(v[1..])
  }

  /** With every entry convertible, the rewrite yields only pairs, in order. */
  lemma {:induction false} PartiallyConvertedAllPairs(v: seq<DateCol>)
    requires AllConvertible(v)
    ensures forall i :: 0 <= i < |v| ==> PartiallyConverted(v)[i] == ConvertEntry(v[i]).value
  {
    if v != [] {
      assert v[0] in v;
      assert forall c <- v[1..] :: c in v;
      PartiallyConvertedAllPairs(v[1..]);
    }
  }

  /** Converting twice changes nothing more: the first entry of a converted
      list is a pair, so the second call keeps the list. This matters because
      the source rewrites the configuration's own list. */
  lemma ConvertTimestampIdxColIdempotent(v: seq<DateCol>)
    requires ConvertTimestampIdxCol(v).Ok?
    ensures ConvertTimestampIdxCol(ConvertTimestampIdxCol(v).value) == ConvertTimestampIdxCol(v)
  {
    if v[0].NameList? {
      PartiallyConvertedAllPairs(v);
    }
  }

  // ---------------------------------------------------------- translation

  /** `None if not x else x`: every falsy value, row 0 included, becomes `None`. */
  function NoneIfFalsy(v: Yaml): (r: Yaml)
    ensures r == Null <==> !Truthy(v)
    ensures r != Null ==> r == v
  {
    if Truthy(v) then v else Null
  }

  /** `goodrows_col` and `goodrows_ids` (or the `badrows` pair) from one
      configured list: both `None` for an empty list, otherwise its first
      entry and the rest. */
  predicate SplitsInto(conf: seq<int>, col: Option<int>, ids: Option<seq<int>>) {
    && (col.None? <==> conf == [])
    && (ids.None? <==> conf == [])
    && (col.Some? && ids.Some? ==> [col.value] + ids.value == conf)
  }

  /** The attributes `__init__` derives from the configuration, apart from
      `parse_dates`: falsy row settings become `None`, names are used only
      without a header, `-9999` means no index column, the special format
      comes from the file type, and the keep/remove lists split into a
      column position and IDs. */
  predicate Translates(filetype: string, conf: RawConfig, s: Settings) {
    && s.compression == (if conf.filetypeGzip then Some("gzip") else None)
    && (s.skiprows == Null <==> !Truthy(conf.dataSkiprows))
    && (s.skiprows != Null ==> s.skiprows == conf.dataSkiprows)
    && (s.header == Null <==> !Truthy(conf.dataHeaderrows))
    && (s.header != Null ==> s.header == conf.dataHeaderrows)
    && (s.names.Some? <==> s.header == Null)
    && (s.names.Some? ==> s.names.value == conf.dataVars)
    && (s.indexCol == Null <==> conf.dataIndexCol == Null || conf.dataIndexCol == Int(NoIndexCol))
    && (s.indexCol != Null ==> s.indexCol == conf.dataIndexCol)
    && s.buildTimestamp == conf.dataBuildTimestamp
    && s.specialFormat == DetectSpecialFormat(filetype)
    && SplitsInto(conf.dataKeepGoodRows, s.goodrowsCol, s.goodrowsIds)
    && SplitsInto(conf.dataRemoveBadRows, s.badrowsCol, s.badrowsIds)
    && s.dataVars == conf.dataVars && s.dataVars2 == conf.dataVars2
  }

  /** The settings once `parse_dates` has been formatted. */
  function SettingsFrom(filetype: string, conf: RawConfig, parseDates: ParseDates): (r: Settings)
    ensures Translates(filetype, conf, r) && r.parseDates == parseDates
  {
    var header := NoneIfFalsy(conf.dataHeaderrows);
    Settings(
      compression := if conf.filetypeGzip then Some("gzip") else None,
      skiprows := NoneIfFalsy(conf.dataSkiprows),
      header := header,
      names := if !Truthy(header) then Some(conf.dataVars) else None,
      indexCol := if conf.dataIndexCol == Int(NoIndexCol) then Null else conf.dataIndexCol,
      parseDates := parseDates,
      buildTimestamp := conf.dataBuildTimestamp,
      specialFormat := DetectSpecialFormat(filetype),
      goodrowsCol := if conf.dataKeepGoodRows == [] then None else Some(conf.dataKeepGoodRows[0]),
      goodrowsIds := if conf.dataKeepGoodRows == [] then None else Some(conf.dataKeepGoodRows[1..]),
      badrowsCol := if conf.dataRemoveBadRows == [] then None else Some(conf.dataRemoveBadRows[0]),
      badrowsIds := if conf.dataRemoveBadRows == [] then None else Some(conf.dataRemoveBadRows[1..]),
      dataVars := conf.dataVars,
      dataVars2 := conf.dataVars2)
  }

  /** `FileTypeReader.__init__` up to the call of `run`. */
  function TranslateConfig(filetype: string, conf: RawConfig): (r: Result<Settings, Fault>)
    ensures r.Ok? <==> conf.dataParseDates == [] || ConvertTimestampIdxCol(conf.dataParseDates).Ok?
    ensures r.Err? ==> r.error == ConvertTimestampIdxCol(conf.dataParseDates).error
    ensures r.Ok? ==> Translates(filetype, conf, r.value)
    ensures r.Ok? ==> (r.value.parseDates.ParseInto? <==> conf.dataParseDates != [])
    ensures r.Ok? && r.value.parseDates.ParseInto? ==>
      && r.value.parseDates.target == ParsedTimestampLabel
      && r.value.parseDates.sources == AfterConversion(conf.dataParseDates)
  {
    if conf.dataParseDates == [] then Ok(SettingsFrom(filetype, conf, NoParseDates))
    else
      var cols :- ConvertTimestampIdxCol(conf.dataParseDates);
      Ok(SettingsFrom(filetype, conf, ParseInto(ParsedTimestampLabel, cols)))
  }

  /** Header row 0 is read as "no header": the column names then come from
      the configured variables. An index column 0 is kept. */
  lemma HeaderRowZeroMeansNoHeader(filetype: string, conf: RawConfig)
    requires conf.dataParseDates == []
    requires conf.dataHeaderrows == Int(0) && conf.dataIndexCol == Int(0)
    ensures TranslateConfig(filetype, conf).Ok?
    ensures TranslateConfig(filetype, conf).value.header == Null
    ensures TranslateConfig(filetype, conf).value.names == Some(conf.dataVars)
    ensures TranslateConfig(filetype, conf).value.indexCol == Int(0)
  {
  }
}

=== FILE: influx.dfy ===
/** The pure helpers of `dbcInflux` (dbc_influxdb/main.py): the UTC offset
    appended by `_convert_datestr_to_iso8601`, the tag and field checks of
    `upload_singlevar`, the measurement assignment of
    `detect_measurement_for_field` and the bucket filter of `show_buckets`.
    What the database returns is a parameter. */
module Influx {
  import opened Wrappers
  import opened Seqs
  import opened Text

  // --------------------------------------------------------- UTC offset

  /** `str(h).zfill(2) if h < 10 else h`, as the f-string prints it. */
  function OffsetHours(h: int): (r: string)
    ensures |r| >= 2
    ensures 0 <= h < 10 ==> r == ['0', DigitChar(h)]
    ensures h < 0 || h >= 10 ==> r == IntToStr(h)
  {
    assert 0 <= h < 10 ==> IntToStr(h) == [DigitChar(h)];
    if h < 10 then ZFill(IntToStr(h), 2) else IntToStr(h)
  }

  /** The text `_convert_datestr_to_iso8601` appends to the ISO date: a sign,
      the hours and ":00". */
  function OffsetSuffix(h: int): (r: string)
    ensures |r| >= 5 && r[|r| - 3..] == ":00"
    ensures r[0] == '+' <==> h >= 0
    ensures r[0] == '-' <==> h < 0
  {
    (if h >= 0 then "+" else "-") + OffsetHours(h) + ":00"
  }

  /** `_convert_datestr_to_iso8601`: the date in ISO form (from the date
      parser, not modelled) followed by the offset. */
  function IsoWithOffset(isostr: string, h: int): (r: string)
    ensures |r| > |isostr| && r[..|isostr|] == isostr
    ensures r[|isostr|..] == OffsetSuffix(h)
  {
    isostr + OffsetSuffix(h)
  }

  /** Offsets 0 to 9 are written with two digits: 1 gives "+01:00". */
  lemma SmallOffset(h: int)
    requires 0 <= h <= 9
    ensures OffsetSuffix(h) == ['+', '0', DigitChar(h), ':', '0', '0']
  {
    assert IntToStr(h) == [DigitChar(h)];
  }

  /** Offsets of 10 or more are written as they are: 10 gives "+10:00". */
  lemma LargeOffset(h: int)
    requires h >= 10
    ensures OffsetSuffix(h) == "+" + NatToStr(h) + ":00"
  {
  }

  /** A negative offset doubles the sign: -1 gives "--1:00". */
  lemma NegativeOffsetDoublesSign(h: int)
    requires h < 0
    ensures OffsetSuffix(h)[..2] == "--"
    ensures OffsetSuffix(h) == "--" + NatToStr(-h) + ":00"
  {
    var s := IntToStr(h);
    assert s == "-" + NatToStr(-h);
    assert ZFill(s, 2) == s;
  }

  lemma OffsetOfMinusOne()
    ensures OffsetSuffix(-1) == "--1:00"
  {
    NegativeOffsetDoublesSign(-1);
  }

  /** RFC 3339, section 5.6, `time-numoffset`: a sign, a two-digit hour from
      00 to 23, ':' and a two-digit minute from 00 to 59. */
  predicate IsTimeNumOffset(s: string) {
    && |s| == 6
    && (s[0] == '+' || s[0] == '-')
    && IsDigit(s[1]) && IsDigit(s[2]) && s[3] == ':' && IsDigit(s[4]) && IsDigit(s[5])
    && 10 * DigitValue(s[1]) + DigitValue(s[2]) <= 23
    && 10 * DigitValue(s[4]) + DigitValue(s[5]) <= 59
  }

  /** The suffix is a valid numeric offset exactly for offsets 0 to 23: every
      negative offset and every offset from 24 up gives an invalid one. */
  lemma OffsetValidIff(h: int)
    ensures IsTimeNumOffset(OffsetSuffix(h)) <==> 0 <= h <= 23
  {
    var s := OffsetSuffix(h);
    if 0 <= h <= 9 {
      SmallOffset(h);
    } else if 10 <= h <= 99 {
      var d := NatToStr(h);
      assert NatToStr(h / 10) == [DigitChar(h / 10)];
      assert d == [DigitChar(h / 10), DigitChar(h % 10)];
      assert s == "+" + d + ":00";
      assert s[1] == d[0] && s[2] == d[1];
      assert 10 * DigitValue(s[1]) + DigitValue(s[2]) == h;
    } else if h >= 100 {
      assert |NatToStr(h / 10)| >= 2;
      assert |s| > 6;
    } else {
      NegativeOffsetDoublesSign(h);
      assert s[1] == '-';
    }
  }

  // ------------------------------------------------ tag and field checks

  /** The two exceptions `upload_singlevar` raises before writing. */
  datatype UploadError = MissingTags(missing: seq<string>) | TooManyFields(fields: seq<string>)

  /** The checks in `upload_singlevar`: every tag must be a column, and the
      columns that are not tags (the field) may be at most one. The field
      list is returned; an empty one passes. */
  function CheckTagsAndField(cols: seq<string>, tags: seq<string>): (r: Result<seq<string>, UploadError>)
    ensures r.Ok? <==> (forall t <- tags :: t in cols) && |Filter(cols, (c: string) => c !in tags)| <= 1
    ensures r.Err? && r.error.MissingTags? ==>
      r.error.missing != [] && forall t :: t in r.error.missing <==> t in tags && t !in cols
    ensures r.Err? && r.error.TooManyFields? ==>
      (forall t <- tags :: t in cols) && |r.error.fields| > 1
    ensures r.Ok? ==> |r.value| <= 1 && forall c :: c in r.value <==> c in cols && c !in tags
    ensures r.Err? && r.error.MissingTags? ==> r.error.missing == Filter(tags, (t: string) => t !in cols)
    ensures r.Err? && r.error.TooManyFields? ==> r.error.fields == Filter(cols, (c: string) => c !in tags)
    ensures r.Ok? ==> r.value == Filter(cols, (c: string) => c !in tags)
  {
    var missing := Filter(tags, (t: string) => t !in cols);
    if |missing| > 0 then
      assert missing[0] in missing;
      Err(MissingTags(missing))
    else
      assert forall t <- tags :: t in cols by {
        forall t <- tags ensures t in cols {
          assert t !in missing;
        }
      }
      var field := Filter(cols, (c: string) => c !in tags);
      if |field| > 1 then Err(TooManyFields(field)) else Ok(field)
  }

  // ------------------------------------------------ measurement assignment

  /** The last measurement in `ms` whose field list holds `v`, if any. */
  function LastMeasurement(v: string, ms: seq<string>, fields: string -> seq<string>): (r: Option<string>)
    ensures r.Some? ==> r.value in ms && v in fields(r.value)
    ensures r.None? <==> forall m <- ms :: v !in fields(m)
    decreases |ms|
  {
    if ms == [] then None
    else if v in fields(ms[|ms| - 1]) then Some(ms[|ms| - 1])
    else LastMeasurement(v, ms[..|ms| - 1], fields)
  }

  /** `LastMeasurement` finds a measurement exactly when some field list
      holds `v`, and the one it finds is listed after every other that does. */
  lemma {:induction false} LastMeasurementIsLast(v: string, ms: seq<string>, fields: string -> seq<string>)
    ensures LastMeasurement(v, ms, fields).Some? <==> exists i :: 0 <= i < |ms| && v in fields(ms[i])
    ensures LastMeasurement(v, ms, fields).Some? ==> exists i ::
      && 0 <= i < |ms|
      && ms[i] == LastMeasurement(v, ms, fields).value
      && v in fields(ms[i])
      && forall k :: i < k < |ms| ==> v !in fields(ms[k])
    decreases |ms|
  {
    if ms != [] {
      var n := |ms| - 1;
      var init := ms[..n];
      LastMeasurementIsLast(v, init, fields);
      assert forall i :: 0 <= i < n ==> init[i] == ms[i];
      if v !in fields(ms[n]) && LastMeasurement(v, ms, fields).Some? {
        var i :| 0 <= i < n && init[i] == LastMeasurement(v, init, fields).value && v in fields(init[i])
          && forall k :: i < k < n ==> v !in fields(init[k]);
        assert forall k :: i < k < |ms| ==> v !in fields(ms[k]);
      }
    }
  }

  /** `detect_measurement_for_field`; `fields(m)` is what
      `show_fields_in_measurement` returns for measurement `m`. Each variable
      found in some field list is mapped to the last measurement listing it;
      the others are absent. */
  method DetectMeasurementForField(ms: seq<string>, vars: seq<string>, fields: string -> seq<string>)
    returns (byVar: map<string, string>)
    ensures forall v :: v in byVar <==> v in vars && LastMeasurement(v, ms, fields).Some?
    ensures forall v <- byVar :: LastMeasurement(v, ms, fields) == Some(byVar[v])
  {
    byVar := map[];
    for i := 0 to |ms|
      invariant AssignedAfter(byVar, ms, i, vars, fields)
    {
      var m := ms[i];
      var fieldslist := fields(m);
      ghost var before := byVar;
      for k := 0 to |vars|
        invariant forall v :: v in byVar <==> v in before || (v in vars[..k] && v in fieldslist)
        invariant forall v <- byVar :: byVar[v] == if v in vars[..k] && v in fieldslist then m else before[v]
      {
        assert vars[..k + 1] == vars[..k] + [vars[k]];
        if vars[k] in fieldslist {
          byVar := byVar[vars[k] := m];
        }
      }
      assert vars[..|vars|] == vars;
      AssignedStep(before, byVar, ms, i, vars, fields);
    }
    assert ms[..|ms|] == ms;
  }

  /** The map after the first `i` measurements holds, for each listed
      variable, the last of them whose fields hold it. */
  ghost predicate AssignedAfter(byVar: map<string, string>, ms: seq<string>, i: nat, vars: seq<string>,
                          fields: string -> seq<string>)
    requires i <= |ms|
  {
    && (forall v :: v in byVar <==> v in vars && LastMeasurement(v, ms[..i], fields).Some?)
    && (forall v <- byVar :: LastMeasurement(v, ms[..i], fields) == Some(byVar[v]))
  }

  /** Assigning measurement `ms[i]` to the variables its fields list extends
      the assignment from the first `i` measurements to the first `i + 1`. */
  lemma AssignedStep(before: map<string, string>, after: map<string, string>, ms: seq<string>, i: nat,
                     vars: seq<string>, fields: string -> seq<string>)
    requires i < |ms| && AssignedAfter(before, ms, i, vars, fields)
    requires forall v :: v in after <==> v in before || (v in vars && v in fields(ms[i]))
    requires forall v <- after :: after[v] == if v in vars && v in fields(ms[i]) then ms[i] else before[v]
    ensures AssignedAfter(after, ms, i + 1, vars, fields)
  {
    forall v ensures LastMeasurement(v, ms[..i + 1], fields) ==
      if v in fields(ms[i]) then Some(ms[i]) else LastMeasurement(v, ms[..i], fields)
    {
      LastMeasurementStep(v, ms, i, fields);
    }
  }

  /** One more measurement: it wins for the variables its fields list. */
  lemma LastMeasurementStep(v: string, ms: seq<string>, i: nat, fields: string -> seq<string>)
    requires i < |ms|
    ensures LastMeasurement(v, ms[..i + 1], fields) ==
      if v in fields(ms[i]) then Some(ms[i]) else LastMeasurement(v, ms[..i], fields)
  {
    assert ms[..i + 1][..i] == ms[..i];
  }

  // ------------------------------------------------------- bucket filter

  /** `[x for x in bucketlist if not x.startswith('_')]`: the system buckets go. */
  function ShowBuckets(names: seq<string>): (r: seq<string>)
    ensures forall b :: b in r <==> b in names && !StartsWith(b, "_")
  {
    Filter(names, (b: string) => !StartsWith(b, "_"))
  }

  /** The kept names keep their order: filtering a list in two parts gives
      the filtered parts one after the other. */
  lemma ShowBucketsKeepsOrder(a: seq<string>, b: seq<string>)
    ensures ShowBuckets(a + b) == ShowBuckets(a) + ShowBuckets(b)
  {
    FilterAppend(a, b, (x: string) => !StartsWith(x, "_"));
  }

  /** A list without system buckets comes back unchanged. */
  lemma ShowBucketsKeepsUserBuckets(names: seq<string>)
    requires forall b <- names :: !StartsWith(b, "_")
    ensures ShowBuckets(names) == names
  {
    FilterAll(names, (x: string) => !StartsWith(x, "_"));
  }
}

=== FILE: ordering.dfy ===
/** `_sort_timestamp` and `_remove_index_duplicates`
    (dbc_influxdb/filetypereader.py): order the rows by their index key and
    keep the last row of each key. */
module Ordering {
  import opened Seqs
  import opened Tables

  /** `sort_index` order: timestamps ascending, `NaT` after every timestamp. */
  predicate KeyLe(a: Key, b: Key) {
    match a
    case NaT => b.NaT?
    case At(x) => b.NaT? || x <= b.minutes
  }

  predicate RowLe(a: Row, b: Row) {
    KeyLe(a.key, b.key)
  }

  lemma RowLeTotalPreorder()
    ensures TotalPreorder(RowLe)
  {
  }

  /** Keys that strictly increase: ordered and pairwise different. */
  predicate StrictlyIncreasing(ks: seq<Key>) {
    forall i, j :: 0 <= i < j < |ks| ==> KeyLe(ks[i], ks[j]) && ks[i] != ks[j]
  }

  /** `df.sort_index()`: the same rows, ordered by key. */
  function SortIndex(t: Table): (r: Table)
    ensures r.columns == t.columns
    ensures multiset(r.rows) == multiset(t.rows)
    ensures SortedBy(r.rows, RowLe)
    ensures Numeric(t) ==> Numeric(r)
  {
    var rows := SortBy(t.rows, RowLe);
    RowLeTotalPreorder();
    SortBySorted(t.rows, RowLe);
    assert forall row <- rows :: row in multiset(rows);
    Frame(t.columns, rows)
  }

  /** No row after position `i` carries the key of row `i`. */
  predicate LastOfKey(rows: seq<Row>, i: nat)
    requires i < |rows|
  {
    forall j :: i < j < |rows| ==> rows[j].key != rows[i].key
  }

  /** `df[~df.index.duplicated(keep='last')]`: each row that is the last of
      its key, in order. */
  function KeepLast(rows: seq<Row>): (r: seq<Row>)
    ensures forall row <- r :: row in rows
    ensures Distinct(Keys(r))
    ensures SortedBy(rows, RowLe) ==> SortedBy(r, RowLe)
  {
    if rows == [] then []
    else
      var rest := KeepLast(rows[1..]);
      if exists j :: 0 < j < |rows| && rows[j].key == rows[0].key then
        rest
      else
        assert forall row <- rest :: row.key != rows[0].key by {
          forall row <- rest ensures row.key != rows[0].key {
            assert row in rows[1..];
          }
        }
        PrependKeepsSorted(rows, rest);
        [rows[0]] + rest
  }

  /** The first row of a sorted list can go before any selection of the others. */
  lemma PrependKeepsSorted(rows: seq<Row>, rest: seq<Row>)
    requires rows != [] && forall row <- rest :: row in rows[1..]
    ensures SortedBy(rows, RowLe) && SortedBy(rest, RowLe) ==> SortedBy([rows[0]] + rest, RowLe)
  {
    if SortedBy(rows, RowLe) && SortedBy(rest, RowLe) {
      var x := [rows[0]] + rest;
      forall i, j | 0 <= i < j < |x| ensures RowLe(x[i], x[j]) {
        if i == 0 {
          assert x[j] == rest[j - 1] && x[j] in rows[1..];
        } else {
          assert x[i] == rest[i - 1] && x[j] == rest[j - 1];
        }
      }
    }
  }

  /** A row survives exactly when no later row has its key. */
  lemma {:induction false} KeepLastKeepsTheLast(rows: seq<Row>)
    ensures forall i :: 0 <= i < |rows| && LastOfKey(rows, i) ==> rows[i] in KeepLast(rows)
    ensures forall row <- KeepLast(rows) :: exists i :: 0 <= i < |rows| && rows[i] == row && LastOfKey(rows, i)
  {
    if rows != [] {
      KeepLastKeepsTheLast(rows[1..]);
      assert forall i :: 1 <= i < |rows| ==> (LastOfKey(rows, i) <==> LastOfKey(rows[1..], i - 1));
      var r := KeepLast(rows);
      forall row <- r ensures exists i :: 0 <= i < |rows| && rows[i] == row && LastOfKey(rows, i) {
        if row in KeepLast(rows[1..]) {
          var i :| 0 <= i < |rows[1..]| && rows[1..][i] == row && LastOfKey(rows[1..], i);
          assert rows[i + 1] == row && LastOfKey(rows, i + 1);
        } else {
          assert row == rows[0] && LastOfKey(rows, 0);
        }
      }
      forall i | 0 <= i < |rows| && LastOfKey(rows, i) ensures rows[i] in r {
        if i > 0 {
          assert rows[1..][i - 1] in KeepLast(rows[1..]);
        }
      }
    }
  }

  /** Every key of the input still has a row. */
  lemma {:induction false} KeepLastKeepsEveryKey(rows: seq<Row>)
    ensures forall k <- Keys(rows) :: k in Keys(KeepLast(rows))
  {
    forall k <- Keys(rows) ensures k in Keys(KeepLast(rows)) {
      var i :| 0 <= i < |rows| && rows[i].key == k;
      var m := LastIndexOf(rows, i);
      KeepLastKeepsTheLast(rows);
      assert rows[m] in KeepLast(rows);
      var r := KeepLast(rows);
      var p :| 0 <= p < |r| && r[p] == rows[m];
      assert Keys(r)[p] == k;
    }
  }

  /** The last position holding the key of position `i`. */
  ghost function LastIndexOf(rows: seq<Row>, i: nat): (m: nat)
    requires i < |rows|
    ensures i <= m < |rows| && rows[m].key == rows[i].key && LastOfKey(rows, m)
    decreases |rows| - i
  {
    if exists j :: i < j < |rows| && rows[j].key == rows[i].key then
      var j :| i < j < |rows| && rows[j].key == rows[i].key;
      LastIndexOf(rows, j)
    else i
  }

  /** Sorting, then keeping the last row of each key, leaves strictly
      increasing keys, one row per key of the input. */
  lemma SortedDedupIsStrictlyIncreasing(t: Table)
    ensures StrictlyIncreasing(Keys(KeepLast(SortIndex(t).rows)))
    ensures forall k <- Keys(t.rows) :: k in Keys(KeepLast(SortIndex(t).rows))
  {
    var s := SortIndex(t).rows;
    var r := KeepLast(s);
    forall k <- Keys(t.rows) ensures k in Keys(s) {
      var i :| 0 <= i < |t.rows| && t.rows[i].key == k;
      assert t.rows[i] in multiset(s);
      var p :| 0 <= p < |s| && s[p] == t.rows[i];
      assert Keys(s)[p] == k;
    }
    KeepLastKeepsEveryKey(s);
  }

  /** `_remove_index_duplicates` applied after `_sort_timestamp`, on one table. */
  function RemoveIndexDuplicates(t: Table): (r: Table)
    ensures r.columns == t.columns
    ensures forall row <- r.rows :: row in t.rows
    ensures Distinct(Keys(r.rows))
    ensures SortedBy(t.rows, RowLe) ==> StrictlyIncreasing(Keys(r.rows))
    ensures r.rows == KeepLast(t.rows)
  {
    var rows := KeepLast(t.rows);
    Frame(t.columns, rows)
  }
}

=== FILE: reader.dfy ===
/** `FileTypeReader` (dbc_influxdb/filetypereader.py): read one data file,
    bring it into the conventional shape and finish every resulting table.

    `Pipeline` states what `run` computes, stage by stage, as a function of
    the settings, the outcome of reading the file and the two text-to-number
    parsers (of `astype(float)` and of `pd.to_numeric`); the class
    `FileTypeReader` performs the same stages as `run` does, rewriting
    `df_list` one table at a time, and its methods are proved against the
    stage functions. */
module Reader {
  import opened Wrappers
  import opened Seqs
  import opened Text
  import opened Tables
  import opened Config
  import opened RowFilters
  import opened SpecialFormats
  import opened Coercion
  import opened Timestamps
  import opened Ordering
  import opened Schema

  // ------------------------------------------------------------- reading

  datatype Engine = PythonEngine | CEngine

  /** The arguments of `pd.read_csv` that the retries change; the others
      come unchanged from the settings. */
  datatype ReadArgs = ReadArgs(settings: Settings, skiprows: Yaml, engine: Engine)

  /** What one call of `pd.read_csv` does: it loads a table or raises. */
  datatype ReadOutcome = Loaded(table: Table) | RaisedValueError | RaisedCsvError | RaisedOther

  /** The arguments of the first attempt and of the two fallbacks. */
  function FirstAttempt(s: Settings): ReadArgs {
    ReadArgs(s, s.skiprows, PythonEngine)
  }

  function SkipTwoRows(s: Settings): ReadArgs {
    ReadArgs(s, IntList([0, 1]), PythonEngine)
  }

  function WithCEngine(s: Settings): ReadArgs {
    ReadArgs(s, s.skiprows, CEngine)
  }

  /** A read outside any `try`: its exception reaches the caller. */
  function Surfaced(o: ReadOutcome): (r: Result<Table, Fault>)
    ensures r.Ok? <==> o.Loaded?
    ensures r.Ok? ==> r.value == o.table
    ensures r.Err? ==> (r.error == ValueError <==> o.RaisedValueError?)
  {
    match o
    case Loaded(t) => Ok(t)
    case RaisedValueError => Err(ValueError)
    case RaisedCsvError => Err(ReadError)
    case RaisedOther => Err(ReadError)
  }

  /** `_readfile`: the python engine first; a `ValueError` retries once
      skipping rows 0 and 1, a `_csv.Error` retries once with the C engine.
      The two handlers are siblings, so a retry that fails is final. */
  function ReadFile(s: Settings, read: ReadArgs -> ReadOutcome): (r: Result<Table, Fault>)
    ensures r.Ok? <==>
      || read(FirstAttempt(s)).Loaded?
      || (read(FirstAttempt(s)).RaisedValueError? && read(SkipTwoRows(s)).Loaded?)
      || (read(FirstAttempt(s)).RaisedCsvError? && read(WithCEngine(s)).Loaded?)
    ensures r.Ok? ==> exists a <- [FirstAttempt(s), SkipTwoRows(s), WithCEngine(s)] :: read(a) == Loaded(r.value)
    ensures read(FirstAttempt(s)).Loaded? ==> r == Ok(read(FirstAttempt(s)).table)
    ensures r.Err? && r.error == ValueError ==>
      || (read(FirstAttempt(s)).RaisedValueError? && read(SkipTwoRows(s)).RaisedValueError?)
      || (read(FirstAttempt(s)).RaisedCsvError? && read(WithCEngine(s)).RaisedValueError?)
  {
    match read(FirstAttempt(s))
    case Loaded(t) => Ok(t)
    case RaisedValueError => Surfaced(read(SkipTwoRows(s)))
    case RaisedCsvError => Surfaced(read(WithCEngine(s)))
    case RaisedOther => Err(ReadError)
  }

  /** A file whose first read fails with `ValueError` and whose retry hits a
      `_csv.Error` is not read, even when the C engine could read it. */
  lemma RetriesDoNotChain(s: Settings, read: ReadArgs -> ReadOutcome)
    requires read(FirstAttempt(s)).RaisedValueError? && read(SkipTwoRows(s)).RaisedCsvError?
    ensures ReadFile(s, read) == Err(ReadError)
  {
  }

  // -------------------------------------------------- the parsed timestamp

  /** The index key a parsed timestamp cell gives: a timestamp for a
      number, `NaT` for anything else. pandas keeps a column it cannot
      parse as text and indexes by that text; the model does not (see
      `SetParsedIndex` under "Left out" in the README). */
  function CellKey(c: Cell): Key {
    if c.Num? then At(c.n) else NaT
  }

  /** The sequence without its element at position `j`. */
  function Without<T>(s: seq<T>, j: nat): (r: seq<T>)
    requires j < |s|
    ensures |r| == |s| - 1
    ensures forall k :: 0 <= k < |r| ==> r[k] == if k < j then s[k] else s[k + 1]
  {
    s[..j] + s[j + 1..]
  }

  /** `set_index(('TIMESTAMP', '-'))` after `parse_dates` built that column:
      the column becomes the index and leaves the columns. Without the
      column the `KeyError` is swallowed and the table stays as read. */
  function SetParsedIndex(t: Table, s: Settings): (r: Table)
    ensures !s.parseDates.ParseInto? || s.parseDates.target !in t.columns ==> r == t
    ensures s.parseDates.ParseInto? && s.parseDates.target in t.columns ==>
      var j := ColumnIndex(t.columns, s.parseDates.target).value;
      && r.columns == Without(t.columns, j)
      && |r.rows| == |t.rows|
      && forall i :: 0 <= i < |t.rows| ==> r.rows[i].key == CellKey(t.rows[i].cells[j])
  {
    match s.parseDates
    case NoParseDates => t
    case ParseInto(target, _) =>
      match ColumnIndex(t.columns, target)
      case None => t
      case Some(j) =>
        var rows := seq(|t.rows|, i requires 0 <= i < |t.rows| =>
          assert t.rows[i] in t.rows;
          Row(CellKey(t.rows[i].cells[j]), Without(t.rows[i].cells, j)));
        assert forall row <- rows :: exists i :: 0 <= i < |t.rows| && row == rows[i];
        Frame(Without(t.columns, j), rows)
  }

  /** Every other column keeps its cells when the parsed column becomes the index. */
  lemma ParsedIndexKeepsOtherColumns(t: Table, s: Settings, i: nat, l: Label)
    requires s.parseDates.ParseInto? && i < |t.rows| && l != s.parseDates.target
    ensures CellUnder(SetParsedIndex(t, s).rows[i].cells, SetParsedIndex(t, s).columns, l) == CellUnder(t.rows[i].cells, t.columns, l)
  {
    var target := s.parseDates.target;
    if target in t.columns {
      var j := ColumnIndex(t.columns, target).value;
      var r := SetParsedIndex(t, s);
      assert t.rows[i] in t.rows;
      assert r.rows[i].cells == Without(t.rows[i].cells, j);
      CellUnderWithout(t.rows[i].cells, t.columns, j, l);
    }
  }

  lemma CellUnderWithout(cells: seq<Cell>, cols: seq<Label>, j: nat, l: Label)
    requires |cells| == |cols| && j < |cols| && cols[j] != l
    ensures CellUnder(Without(cells, j), Without(cols, j), l) == CellUnder(cells, cols, l)
  {
    if l in cols {
      CellUnderWithoutPresent(cells, cols, j, l, ColumnIndex(cols, l).value);
    } else {
      AbsentWithout(cols, j, l);
    }
  }

  lemma CellUnderWithoutPresent(cells: seq<Cell>, cols: seq<Label>, j: nat, l: Label, k: nat)
    requires |cells| == |cols| && j < |cols| && cols[j] != l && ColumnIndex(cols, l) == Some(k)
    ensures CellUnder(Without(cells, j), Without(cols, j), l) == cells[k]
  {
    FirstWithout(cols, j, l, k);
    var p := if k < j then k else k - 1;
    WithoutAt(cells, j, p);
    assert p < j <==> k < j;
    assert CellUnder(Without(cells, j), Without(cols, j), l) == Without(cells, j)[p];
  }

  /** What position `m` of a sequence holds once position `j` is removed. */
  lemma WithoutAt<T>(s: seq<T>, j: nat, m: nat)
    requires j < |s| && m < |s| - 1
    ensures Without(s, j)[m] == if m < j then s[m] else s[m + 1]
  {
  }

  /** A label absent from the columns stays absent when one is removed. */
  lemma AbsentWithout(cols: seq<Label>, j: nat, l: Label)
    requires j < |cols| && l !in cols
    ensures ColumnIndex(Without(cols, j), l) == None
  {
    var w := Without(cols, j);
    forall m | 0 <= m < |w| ensures w[m] != l {
      assert w[m] == cols[if m < j then m else m + 1];
    }
  }

  /** Removing a column with another label moves that label's first
      position down by one when it lay after the removed column. */
  lemma FirstWithout(cols: seq<Label>, j: nat, l: Label, k: nat)
    requires j < |cols| && cols[j] != l && ColumnIndex(cols, l) == Some(k)
    ensures ColumnIndex(Without(cols, j), l) == Some(if k < j then k else k - 1)
  {
    var w := Without(cols, j);
    var p := if k < j then k else k - 1;
    assert w[p] == l;
    forall m | 0 <= m < p ensures w[m] != l {
      assert w[m] == cols[if m < j then m else m + 1];
    }
    FirstOccurrence(w, l, p);
  }

  /** The first position holding `l` is the one `ColumnIndex` finds. */
  lemma FirstOccurrence(cols: seq<Label>, l: Label, p: nat)
    requires p < |cols| && cols[p] == l && forall m :: 0 <= m < p ==> cols[m] != l
    ensures ColumnIndex(cols, l) == Some(p)
  {
  }

  // ----------------------------------------------------- special formats

  /** The tables and the missed-ID diagnostic `run` carries forward. */
  datatype Output = Output(tables: seq<Table>, missedIds: MissedIds)

  /** `_special_data_formats`. For `-ICOSSEQ-` the reshape runs, but
      `missed_ids` is bound only on the `-ALTERNATING-` branch, so returning
      it raises `UnboundLocalError`. */
  function SpecialFormatOutput(t: Table, filetype: string, s: Settings): (r: Result<Output, Fault>)
    requires s.specialFormat != NoSpecialFormat
    ensures s.specialFormat == IcosSeq ==> r.Err?
    ensures s.specialFormat == IcosSeq ==>
      r.error == if IcosSeqReshape(t, filetype).Err? then IcosSeqReshape(t, filetype).error else UnboundLocalError
    ensures r.Ok? ==>
      && AlternatingSplit(t, s.goodrowsCol, s.goodrowsIds, s.dataVars, s.dataVars2) == Ok(r.value.tables)
      && CheckMissedIds(t, s.goodrowsIds) == Ok(r.value.missedIds)
  {
    match s.specialFormat
    case IcosSeq =>
      var reshaped :- IcosSeqReshape(t, filetype);
      Err(UnboundLocalError)
    case Alternating =>
      var ts :- AlternatingSplit(t, s.goodrowsCol, s.goodrowsIds, s.dataVars, s.dataVars2);
      var missed :- CheckMissedIds(t, s.goodrowsIds);
      Ok(Output(ts, missed))
  }

  /** The `-ALTERNATING-` output, outcome by outcome of its two steps. */
  lemma AlternatingOutput(t: Table, filetype: string, s: Settings)
    requires s.specialFormat == Alternating
    ensures var split := AlternatingSplit(t, s.goodrowsCol, s.goodrowsIds, s.dataVars, s.dataVars2);
      var missed := CheckMissedIds(t, s.goodrowsIds);
      SpecialFormatOutput(t, filetype, s) ==
        if split.Err? then Err(split.error)
        else if missed.Err? then Err(missed.error)
        else Ok(Output(split.value, missed.value))
  {
  }

  /** `run` up to the list of tables: read, index, special format. */
  function Front(filetype: string, s: Settings, read: ReadArgs -> ReadOutcome): (r: Result<Output, Fault>)
    ensures r.Ok? ==> (r.value.missedIds == NotSpecialFormat <==> s.specialFormat == NoSpecialFormat)
    ensures r.Ok? && s.specialFormat == NoSpecialFormat ==> |r.value.tables| == 1
    ensures r.Ok? && s.specialFormat != NoSpecialFormat ==>
      s.specialFormat == Alternating && 1 <= |r.value.tables| <= 2
  {
    var raw :- ReadFile(s, read);
    var data := SetParsedIndex(raw, s);
    if s.specialFormat == NoSpecialFormat then Ok(Output([data], NotSpecialFormat))
    else SpecialFormatOutput(data, filetype, s)
  }

  // ------------------------------------------------------------- filters

  /** A truthy ID list: `if self.goodrows_ids:` in `run`. */
  predicate HasIds(ids: Option<seq<int>>) {
    ids.Some? && ids.value != []
  }

  /** One of the positional filters over the list; the column position is
      set whenever the IDs are (both come from the same configuration list). */
  function FilterIds(ts: seq<Table>, col: Option<int>, ids: seq<int>, keep: bool): (r: Result<seq<Table>, Fault>)
    ensures col.None? ==> r == Err(TypeError)
    ensures col.Some? ==> r == FilterPaired(ts, col.value, ids, keep)
  {
    if col.None? then Err(TypeError) else FilterPaired(ts, col.value, ids, keep)
  }

  /** The keep filter, then the remove filter, each only when it has IDs
      (an empty list is falsy, so it filters nothing). Each table keeps its
      labels and some of its rows; the i-th table's rows all carry the i-th
      good ID and none carries the i-th bad ID. */
  function Filtered(ts: seq<Table>, s: Settings): (r: Result<seq<Table>, Fault>)
    ensures !HasIds(s.goodrowsIds) && !HasIds(s.badrowsIds) ==> r == Ok(ts)
    ensures r.Err? ==> r.error == TypeError || r.error == IndexError
    ensures r.Ok? ==> |r.value| == |ts| && forall i :: 0 <= i < |ts| ==>
      r.value[i].columns == ts[i].columns && multiset(r.value[i].rows) <= multiset(ts[i].rows)
    ensures r.Ok? && HasIds(s.goodrowsIds) ==>
      && s.goodrowsCol.Some? && |s.goodrowsIds.value| <= |r.value|
      && forall i :: 0 <= i < |s.goodrowsIds.value| ==> AllSelected(r.value[i], s.goodrowsCol.value, s.goodrowsIds.value[i], true)
    ensures r.Ok? && HasIds(s.badrowsIds) ==>
      && s.badrowsCol.Some? && |s.badrowsIds.value| <= |r.value|
      && forall i :: 0 <= i < |s.badrowsIds.value| ==> AllSelected(r.value[i], s.badrowsCol.value, s.badrowsIds.value[i], false)
  {
    var kept :- if HasIds(s.goodrowsIds) then FilterIds(ts, s.goodrowsCol, s.goodrowsIds.value, true) else Ok(ts);
    var r := if HasIds(s.badrowsIds) then FilterIds(kept, s.badrowsCol, s.badrowsIds.value, false) else Ok(kept);
    if r.Ok? && HasIds(s.goodrowsIds) then
      forall i | 0 <= i < |s.goodrowsIds.value|
        ensures AllSelected(r.value[i], s.goodrowsCol.value, s.goodrowsIds.value[i], true)
      {
        AllSelectedFewerRows(kept[i], r.value[i], s.goodrowsCol.value, s.goodrowsIds.value[i], true);
      }
      r
    else
      r
  }

  // --------------------------------------------------- per-table stages

  function CoerceWith(parsers: Parsers): Table -> Table {
    (t: Table) => ToNumeric(t, parsers)
  }

  function StampWith(recipe: string): Table -> Result<Table, Fault> {
    (t: Table) => BuildTimestamp(t, recipe)
  }

  /** `if self.build_timestamp:` — a recipe that is set and not empty. */
  predicate BuildsTimestamp(s: Settings) {
    s.buildTimestamp.Some? && s.buildTimestamp.value != ""
  }

  /** Numbers, sanitised, and the timestamp when a recipe is set. */
  function Cleaned(ts: seq<Table>, s: Settings, parsers: Parsers): (r: Result<seq<Table>, Fault>)
    ensures r.Ok? ==> |r.value| == |ts| && forall i :: 0 <= i < |r.value| ==> Numeric(r.value[i])
  {
    var numeric := MapTables(MapTables(ts, CoerceWith(parsers)), ReplaceInfinities);
    CleanedIsNumeric(ts, parsers);
    if BuildsTimestamp(s) then TryMapTables(numeric, StampWith(s.buildTimestamp.value)) else Ok(numeric)
  }

  lemma CleanedIsNumeric(ts: seq<Table>, parsers: Parsers)
    ensures forall t <- MapTables(MapTables(ts, CoerceWith(parsers)), ReplaceInfinities) :: Numeric(t)
  {
    var numeric := MapTables(MapTables(ts, CoerceWith(parsers)), ReplaceInfinities);
    forall i | 0 <= i < |ts| ensures Numeric(numeric[i]) {
      SanitisedIsNumeric(ts[i], parsers);
    }
  }

  /** `_sort_timestamp`, then `_remove_index_duplicates`. */
  function Ordered(ts: seq<Table>): (r: seq<Table>)
    ensures |r| == |ts|
    ensures forall i :: 0 <= i < |ts| ==> StrictlyIncreasing(Keys(r[i].rows))
    ensures forall i :: 0 <= i < |ts| ==> r[i].columns == ts[i].columns
    ensures forall i :: 0 <= i < |ts| && Numeric(ts[i]) ==> Numeric(r[i])
  {
    var r := MapTables(MapTables(ts, SortIndex), RemoveIndexDuplicates);
    forall i | 0 <= i < |ts| ensures Numeric(ts[i]) ==> Numeric(r[i]) {
      assert forall row <- r[i].rows :: row in SortIndex(ts[i]).rows;
    }
    r
  }

  /** `_add_units_row`, `_rename_unnamed_units`, `_remove_unnamed_cols`,
      each over the whole list before the next: this finishes each table as
      running all three on that table alone would, so every table leaves
      with a two-level header without repeated labels and keeps its keys. */
  function Finished(ts: seq<Table>): (r: Result<seq<Table>, Fault>)
    ensures r.Ok? <==> forall i :: 0 <= i < |ts| ==> FinaliseColumns(ts[i]).Ok?
    ensures r.Ok? ==> |r.value| == |ts| && forall i :: 0 <= i < |ts| ==> r.value[i] == FinaliseColumns(ts[i]).value
    ensures r.Ok? ==> forall i :: 0 <= i < |ts| ==>
      IsMultiIndex(r.value[i].columns) && Distinct(r.value[i].columns) && Keys(r.value[i].rows) == Keys(ts[i].rows)
  {
    match TryMapTables(ts, AddUnitsRow)
    case Err(e) => Err(e)
    case Ok(units) =>
      match TryMapTables(units, RenameUnnamedUnits)
      case Err(e) => Err(e)
      case Ok(renamed) => TryMapTables(renamed, RemoveUnnamedCols)
  }

  // -------------------------------------------------------------- run

  /** `run` after the list exists: filters, numbers, timestamp, order,
      columns. Every table it produces is finished: its index strictly
      increases (sorted, one row per key), its cells are finite numbers or
      missing, and its labels are distinct (variable, unit) pairs free of
      "Unnamed". */
  function Finish(ts: seq<Table>, s: Settings, parsers: Parsers): (r: Result<seq<Table>, Fault>)
    ensures r.Ok? ==> |r.value| == |ts|
    ensures r.Ok? ==> forall t <- r.value ::
      && StrictlyIncreasing(Keys(t.rows))
      && Numeric(t)
      && Distinct(t.columns)
      && forall l <- t.columns :: l.Pair? && !IsSubstring("Unnamed", l.variable) && !IsSubstring("Unnamed", l.unit)
  {
    var kept :- Filtered(ts, s);
    var cleaned :- Cleaned(kept, s, parsers);
    var ordered := Ordered(cleaned);
    var done :- Finished(ordered);
    FinishedGuarantees(ordered);
    Ok(done)
  }

  /** `run`: the list of finished tables and the missed-ID diagnostic, or
      the exception that ends it. */
  function Pipeline(filetype: string, s: Settings, read: ReadArgs -> ReadOutcome,
                    parsers: Parsers): (r: Result<Output, Fault>)
    ensures r.Ok? ==> Front(filetype, s, read).Ok? && r.value.missedIds == Front(filetype, s, read).value.missedIds
  {
    var front :- Front(filetype, s, read);
    var tables :- Finish(front.tables, s, parsers);
    Ok(Output(tables, front.missedIds))
  }

  /** Once `Front` has produced its list, `run` is `Finish` on that list. */
  lemma PipelineAfterFront(filetype: string, s: Settings, read: ReadArgs -> ReadOutcome,
                           parsers: Parsers, front: Output)
    requires Front(filetype, s, read) == Ok(front)
    ensures Pipeline(filetype, s, read, parsers) ==
      match Finish(front.tables, s, parsers)
      case Err(e) => Err(e)
      case Ok(ts) => Ok(Output(ts, front.missedIds))
  {
  }

  /** `run`'s outcome from what the stages after the list report: their
      exception, or the tables they leave with the list's diagnostic. */
  lemma PipelineOutcome(filetype: string, s: Settings, read: ReadArgs -> ReadOutcome,
                        parsers: Parsers, front: Output, e: Option<Fault>, ts: seq<Table>)
    requires Front(filetype, s, read) == Ok(front)
    requires Reports(e, Finish(front.tables, s, parsers))
    requires e.None? ==> Finish(front.tables, s, parsers) == Ok(ts)
    ensures e.Some? ==> Pipeline(filetype, s, read, parsers) == Err(e.value)
    ensures e.None? ==> Pipeline(filetype, s, read, parsers) == Ok(Output(ts, front.missedIds))
  {
    PipelineAfterFront(filetype, s, read, parsers, front);
  }

  /** An exception before the list exists ends `run` with it. */
  lemma PipelineStopsAtFront(filetype: string, s: Settings, read: ReadArgs -> ReadOutcome,
                             parsers: Parsers, e: Fault)
    requires Front(filetype, s, read) == Err(e)
    ensures Pipeline(filetype, s, read, parsers) == Err(e)
  {
  }

  /** `-ICOSSEQ-` files never get through `run`. */
  lemma IcosSeqNeverCompletes(filetype: string, s: Settings, read: ReadArgs -> ReadOutcome, parsers: Parsers)
    requires s.specialFormat == IcosSeq
    ensures Pipeline(filetype, s, read, parsers).Err?
  {
  }

  /** What a completed `run` promises of every table: an index that strictly
      increases (sorted, one row per key), only finite numbers or missing
      cells, and distinct (variable, unit) labels free of "Unnamed". The diagnostic
      says "not special format" exactly for files without a special format. */
  lemma PipelineGuarantees(filetype: string, s: Settings, read: ReadArgs -> ReadOutcome, parsers: Parsers)
    requires Pipeline(filetype, s, read, parsers).Ok?
    ensures var out := Pipeline(filetype, s, read, parsers).value;
      forall t <- out.tables ::
        && StrictlyIncreasing(Keys(t.rows))
        && Numeric(t)
        && Distinct(t.columns)
        && forall l <- t.columns :: l.Pair? && !IsSubstring("Unnamed", l.variable) && !IsSubstring("Unnamed", l.unit)
    ensures var out := Pipeline(filetype, s, read, parsers).value;
      out.missedIds == NotSpecialFormat <==> s.specialFormat == NoSpecialFormat
  {
    var front := Front(filetype, s, read).value;
    PipelineAfterFront(filetype, s, read, parsers, front);
  }

  /** The column stages on sorted, numeric tables leave finished tables. */
  lemma FinishedGuarantees(ordered: seq<Table>)
    requires Finished(ordered).Ok?
    requires forall i :: 0 <= i < |ordered| ==> StrictlyIncreasing(Keys(ordered[i].rows)) && Numeric(ordered[i])
    ensures forall t <- Finished(ordered).value ::
      && StrictlyIncreasing(Keys(t.rows))
      && Numeric(t)
      && Distinct(t.columns)
      && forall l <- t.columns :: l.Pair? && !IsSubstring("Unnamed", l.variable) && !IsSubstring("Unnamed", l.unit)
  {
    var out := Finished(ordered).value;
    forall t <- out
      ensures StrictlyIncreasing(Keys(t.rows)) && Numeric(t) && Distinct(t.columns)
      ensures forall l <- t.columns :: l.Pair? && !IsSubstring("Unnamed", l.variable) && !IsSubstring("Unnamed", l.unit)
    {
      var i :| 0 <= i < |out| && out[i] == t;
      FinalisedTable(ordered[i]);
    }
  }

  /** One table through the column stages keeps its keys and its cells'
      kinds and leaves only labels free of "Unnamed". */
  lemma FinalisedTable(t: Table)
    requires FinaliseColumns(t).Ok?
    ensures Keys(FinaliseColumns(t).value.rows) == Keys(t.rows)
    ensures Numeric(t) ==> Numeric(FinaliseColumns(t).value)
    ensures forall l <- FinaliseColumns(t).value.columns ::
      l.Pair? && !IsSubstring("Unnamed", l.variable) && !IsSubstring("Unnamed", l.unit)
  {
    FinaliseColumnsSurvivors(t);
  }

  // ------------------------------------------------------ FileTypeReader

  /** `file_info`: where the data came from and its special format. */
  datatype FileInfo = FileInfo(filepath: string, filetype: string, specialFormat: SpecialFormat)

  /** Relates a stage method's reported exception to the stage function's result. */
  predicate Reports<T>(e: Option<Fault>, r: Result<T, Fault>) {
    (e.None? <==> r.Ok?) && (e.Some? ==> r == Err(e.value))
  }

  class FileTypeReader {
    const filepath: string
    const filetype: string
    /** The attributes `__init__` derives from the configuration before `run`. */
    const settings: Settings
    var dataDf: Option<Table>
    var dfList: seq<Table>
    var missedIds: MissedIds
    /** The exception `run` raised, if any (the constructor then raises it). */
    var fault: Option<Fault>

    /** The reader's state is the outcome `r` of `run`. */
    predicate Holds(r: Result<Output, Fault>)
      reads this
    {
      match r
      case Ok(out) => fault.None? && dfList == out.tables && missedIds == out.missedIds
      case Err(e) => fault == Some(e)
    }

    function FileInformation(): (info: FileInfo)
      reads this
      ensures info.specialFormat == settings.specialFormat
    {
      FileInfo(filepath, filetype, settings.specialFormat)
    }

    /** `__init__`: store the settings, then `run`. */
    constructor(filepath: string, filetype: string, settings: Settings,
                read: ReadArgs -> ReadOutcome, parsers: Parsers)
      ensures this.filepath == filepath && this.filetype == filetype && this.settings == settings
      ensures Holds(Pipeline(filetype, settings, read, parsers))
    {
      this.filepath := filepath;
      this.filetype := filetype;
      this.settings := settings;
      dataDf := Some(Frame([], []));
      dfList := [];
      missedIds := Unset;
      fault := None;
      new;
      Run(read, parsers);
    }

    /** `run`: every stage in order; the first exception ends it. */
    method Run(read: ReadArgs -> ReadOutcome, parsers: Parsers)
      modifies this
      ensures Holds(Pipeline(filetype, settings, read, parsers))
    {
      fault := None;
      var e := Load(read);
      if e.Some? {
        fault := e;
        PipelineStopsAtFront(filetype, settings, read, parsers, e.value);
        return;
      }
      dataDf := None;
      RunOnList(read, parsers);
    }

    /** `run` once `Load` has built the list: the remaining stages, and the
        exception of the first that raises. */
    method RunOnList(read: ReadArgs -> ReadOutcome, parsers: Parsers)
      requires Front(filetype, settings, read) == Ok(Output(dfList, missedIds))
      modifies this`dfList, this`fault
      ensures Holds(Pipeline(filetype, settings, read, parsers))
    {
      ghost var front := Output(dfList, missedIds);
      var e := ProcessList(parsers);
      fault := e;
      PipelineOutcome(filetype, settings, read, parsers, front, e, dfList);
    }

    /** `run` once the list exists: filters, numbers, timestamp, order and
        columns, each stage on the list the previous one left. */
    method ProcessList(parsers: Parsers) returns (e: Option<Fault>)
      modifies this`dfList
      ensures Reports(e, Finish(old(dfList), settings, parsers))
      ensures e.None? ==> Finish(old(dfList), settings, parsers) == Ok(dfList)
    {
      e := FilterDataRows();
      if e.Some? {
        return;
      }
      e := CleanValues(parsers);
      if e.Some? {
        return;
      }
      OrderIndex();
      e := FinishColumns();
    }

    /** `run` up to the list: `_readfile`, the parsed index, the special
        format or the one-table list. */
    method Load(read: ReadArgs -> ReadOutcome) returns (e: Option<Fault>)
      modifies this`dataDf, this`dfList, this`missedIds
      ensures Reports(e, Front(filetype, settings, read))
      ensures e.None? ==> Front(filetype, settings, read) == Ok(Output(dfList, missedIds))
    {
      var raw := ReadFile(settings, read);
      if raw.Err? {
        return Some(raw.error);
      }
      dataDf := Some(SetParsedIndex(raw.value, settings));
      if settings.specialFormat != NoSpecialFormat {
        e := SpecialDataFormats();
      } else {
        missedIds := NotSpecialFormat;
        dfList := [dataDf.value];
        e := None;
      }
    }

    /** `if self.goodrows_ids: ...` and `if self.badrows_ids: ...` in `run`. */
    method FilterDataRows() returns (e: Option<Fault>)
      modifies this`dfList
      ensures Reports(e, Filtered(old(dfList), settings))
      ensures e.None? ==> Filtered(old(dfList), settings) == Ok(dfList)
    {
      e := None;
      if HasIds(settings.goodrowsIds) {
        e := KeepGoodDataRows();
        if e.Some? {
          return;
        }
      }
      if HasIds(settings.badrowsIds) {
        e := RemoveBadDataRows();
      }
    }

    /** `_to_numeric`, the ±inf replacement and, with a recipe, `_build_timestamp`. */
    method CleanValues(parsers: Parsers) returns (e: Option<Fault>)
      modifies this`dfList
      ensures Reports(e, Cleaned(old(dfList), settings, parsers))
      ensures e.None? ==> Cleaned(old(dfList), settings, parsers) == Ok(dfList)
    {
      UpdateEach(CoerceWith(parsers));
      UpdateEach(ReplaceInfinities);
      e := None;
      if BuildsTimestamp(settings) {
        e := TryUpdateEach(StampWith(settings.buildTimestamp.value));
      }
    }

    /** `_sort_timestamp`, then `_remove_index_duplicates`. */
    method OrderIndex()
      modifies this`dfList
      ensures dfList == Ordered(old(dfList))
    {
      UpdateEach(SortIndex);
      UpdateEach(RemoveIndexDuplicates);
    }

    /** `_add_units_row`, `_rename_unnamed_units`, `_remove_unnamed_cols`. */
    method FinishColumns() returns (e: Option<Fault>)
      modifies this`dfList
      ensures Reports(e, Finished(old(dfList)))
      ensures e.None? ==> Finished(old(dfList)) == Ok(dfList)
    {
      e := TryUpdateEach(AddUnitsRow);
      if e.Some? {
        return;
      }
      e := TryUpdateEach(RenameUnnamedUnits);
      if e.Some? {
        return;
      }
      e := TryUpdateEach(RemoveUnnamedCols);
    }

    /** `_special_data_formats`. */
    method SpecialDataFormats() returns (e: Option<Fault>)
      requires dataDf.Some? && settings.specialFormat != NoSpecialFormat
      modifies this`dfList, this`missedIds
      ensures Reports(e, SpecialFormatOutput(dataDf.value, filetype, settings))
      ensures e.None? ==> SpecialFormatOutput(dataDf.value, filetype, settings) == Ok(Output(dfList, missedIds))
    {
      if settings.specialFormat == IcosSeq {
        var reshaped := SpecialFormatIcosseq();
        if reshaped.Err? {
          return Some(reshaped.error);
        }
        return Some(UnboundLocalError);
      }
      e := SpecialFormatAlternating();
    }

    /** The `-ALTERNATING-` branch of `_special_data_formats`:
        `_special_format_alternating`, then the check for missed IDs. */
    method SpecialFormatAlternating() returns (e: Option<Fault>)
      requires dataDf.Some? && settings.specialFormat == Alternating
      modifies this`dfList, this`missedIds
      ensures Reports(e, SpecialFormatOutput(dataDf.value, filetype, settings))
      ensures e.None? ==> SpecialFormatOutput(dataDf.value, filetype, settings) == Ok(Output(dfList, missedIds))
    {
      AlternatingOutput(dataDf.value, filetype, settings);
      var split := AlternatingSplit(dataDf.value, settings.goodrowsCol, settings.goodrowsIds, settings.dataVars, settings.dataVars2);
      if split.Err? {
        return Some(split.error);
      }
      var missed := CheckMissedIds(dataDf.value, settings.goodrowsIds);
      if missed.Err? {
        return Some(missed.error);
      }
      dfList := split.value;
      missedIds := missed.value;
      return None;
    }

    /** `_special_format_icosseq`: find the location column and the sorted
        locations, stack the renamed slices, drop the location columns. */
    method SpecialFormatIcosseq() returns (r: Result<Table, Fault>)
      requires dataDf.Some?
      ensures r == IcosSeqReshape(dataDf.value, filetype)
    {
      var t := dataDf.value;
      var sub := DetectSubformat(filetype);
      var found := LocationColumn(t.columns);
      if found.None? {
        return Err(KeyError("False"));
      }
      var locCol := found.value;
      if exists l <- t.columns :: l.Pair? {
        if exists l <- t.columns :: l.Pair? && l.variable == locCol {
          return Err(AttributeError);
        }
        return Err(KeyError(locCol));
      }
      var column := Lookup(t, locCol);
      if column.Err? {
        return Err(column.error);
      }
      var located := Locations(t, column.value);
      if located.Err? {
        return Err(located.error);
      }
      var stacked := StackLocations(t, column.value, sub, located.value);
      if stacked.Err? {
        return Err(stacked.error);
      }
      return Ok(WithoutLocationColumns(stacked.value, locCol));
    }

    /** `_keep_good_data_rows`. */
    method KeepGoodDataRows() returns (e: Option<Fault>)
      requires HasIds(settings.goodrowsIds)
      modifies this`dfList
      ensures Reports(e, FilterIds(old(dfList), settings.goodrowsCol, settings.goodrowsIds.value, true))
      ensures e.None? ==> FilterIds(old(dfList), settings.goodrowsCol, settings.goodrowsIds.value, true) == Ok(dfList)
    {
      if settings.goodrowsCol.None? {
        return Some(TypeError);
      }
      e := FilterEachById(settings.goodrowsCol.value, settings.goodrowsIds.value, true);
    }

    /** `_remove_bad_data_rows`. */
    method RemoveBadDataRows() returns (e: Option<Fault>)
      requires HasIds(settings.badrowsIds)
      modifies this`dfList
      ensures Reports(e, FilterIds(old(dfList), settings.badrowsCol, settings.badrowsIds.value, false))
      ensures e.None? ==> FilterIds(old(dfList), settings.badrowsCol, settings.badrowsIds.value, false) == Ok(dfList)
    {
      if settings.badrowsCol.None? {
        return Some(TypeError);
      }
      e := FilterEachById(settings.badrowsCol.value, settings.badrowsIds.value, false);
    }

    /** The loop both filters share: the i-th ID filters `df_list[i]` in place. */
    method FilterEachById(col: int, ids: seq<int>, keep: bool) returns (e: Option<Fault>)
      modifies this`dfList
      ensures Reports(e, FilterPaired(old(dfList), col, ids, keep))
      ensures e.None? ==> FilterPaired(old(dfList), col, ids, keep) == Ok(dfList)
    {
      ghost var start := dfList;
      for ix := 0 to |ids|
        invariant |dfList| == |start|
        invariant ix <= |start|
        invariant forall k :: 0 <= k < ix ==> FilterOnColumn(start[k], col, ids[k], keep) == Ok(dfList[k])
        invariant forall k :: ix <= k < |start| ==> dfList[k] == start[k]
      {
        if ix >= |dfList| {
          return Some(IndexError);
        }
        var filtered := FilterOnColumn(dfList[ix], col, ids[ix], keep);
        if filtered.Err? {
          return Some(filtered.error);
        }
        dfList := dfList[ix := filtered.value];
      }
      assert FilterPaired(start, col, ids, keep).Ok?;
      assert FilterPaired(start, col, ids, keep).value == dfList;
      return None;
    }

    /** A stage that cannot raise, applied to `df_list[ix]` for each `ix`. */
    method UpdateEach(f: Table -> Table)
      modifies this`dfList
      ensures dfList == MapTables(old(dfList), f)
    {
      for ix := 0 to |dfList|
        invariant |dfList| == |old(dfList)|
        invariant forall k :: 0 <= k < ix ==> dfList[k] == f(old(dfList)[k])
        invariant forall k :: ix <= k < |dfList| ==> dfList[k] == old(dfList)[k]
      {
        dfList := dfList[ix := f(dfList[ix])];
      }
    }

    /** A stage that may raise, applied to `df_list[ix]` for each `ix`; the
        first exception ends the loop. */
    method TryUpdateEach(f: Table -> Result<Table, Fault>) returns (e: Option<Fault>)
      modifies this`dfList
      ensures Reports(e, TryMapTables(old(dfList), f))
      ensures e.None? ==> TryMapTables(old(dfList), f) == Ok(dfList)
    {
      ghost var start := dfList;
      for ix := 0 to |dfList|
        invariant |dfList| == |start|
        invariant forall k :: 0 <= k < ix ==> f(start[k]).Ok? && dfList[k] == f(start[k]).value
        invariant forall k :: ix <= k < |dfList| ==> dfList[k] == start[k]
      {
        var r := f(dfList[ix]);
        if r.Err? {
          TryMapTablesFirstFault(start, f, ix);
          return Some(r.error);
        }
        dfList := dfList[ix := r.value];
      }
      assert TryMapTables(start, f).Ok?;
      assert TryMapTables(start, f).value == dfList;
      return None;
    }
  }
}

=== FILE: row_filters.dfy ===
/** The positional row filters `_keep_good_data_rows` and
    `_remove_bad_data_rows` (dbc_influxdb/filetypereader.py).

    After `convert_dtypes` the columns hold pandas' nullable types, so
    comparing a missing cell with an ID gives `NA`, and a row whose mask entry
    is `NA` is not selected: a missing cell drops the row under both filters. */
module RowFilters {
  import opened Wrappers
  import opened Seqs
  import opened Tables

  /** The mask entry of one cell: `cell == id` for the keep filter,
      `cell != id` for the remove filter, `NA` (not selected) for a missing cell. */
  predicate Selects(c: Cell, id: int, keep: bool) {
    if keep then c == Num(id) else c != Missing && c != Num(id)
  }

  /** The rows whose cell at position `j` the mask selects, in their order:
      each selected row as often as it occurs, no other row (see also
      `RowsMatchingAppend` for the order). */
  function RowsMatching(rows: seq<Row>, j: nat, id: int, keep: bool): (r: seq<Row>)
    ensures |r| <= |rows|
    ensures forall row :: row in r <==> row in rows && j < |row.cells| && Selects(row.cells[j], id, keep)
    ensures forall row :: multiset(r)[row] == (if j < |row.cells| && Selects(row.cells[j], id, keep) then multiset(rows)[row] else 0)
  {
    FilterCounts(rows, (row: Row) => j < |row.cells| && Selects(row.cells[j], id, keep));
    Filter(rows, (row: Row) => j < |row.cells| && Selects(row.cells[j], id, keep))
  }

  /** The mask keeps the order of the rows: selecting from two blocks of
      rows is selecting from each block, the first block's rows first. */
  lemma RowsMatchingAppend(a: seq<Row>, b: seq<Row>, j: nat, id: int, keep: bool)
    ensures RowsMatching(a + b, j, id, keep) == RowsMatching(a, j, id, keep) + RowsMatching(b, j, id, keep)
  {
    FilterAppend(a, b, (row: Row) => j < |row.cells| && Selects(row.cells[j], id, keep));
  }

  /** Every row of the table passes the mask on the column at position `col`. */
  predicate AllSelected(t: Table, col: int, id: int, keep: bool) {
    match ResolvePosition(col, |t.columns|)
    case None => false
    case Some(j) => forall row <- t.rows :: j < |row.cells| && Selects(row.cells[j], id, keep)
  }

  /** A table with the same labels and some of the rows of a table whose
      rows all pass a mask passes it too. */
  lemma AllSelectedFewerRows(t: Table, u: Table, col: int, id: int, keep: bool)
    requires AllSelected(t, col, id, keep)
    requires u.columns == t.columns && multiset(u.rows) <= multiset(t.rows)
    ensures AllSelected(u, col, id, keep)
  {
    forall row <- u.rows ensures row in t.rows {
      assert row in multiset(u.rows);
    }
  }

  /** `df[df.iloc[:, col] == id]` (or `!=`): positions count from the end
      when negative; one outside the table raises `IndexError`. */
  function FilterOnColumn(t: Table, col: int, id: int, keep: bool): (r: Result<Table, Fault>)
    ensures r.Ok? <==> ResolvePosition(col, |t.columns|).Some?
    ensures r.Err? ==> r.error == IndexError
    ensures r.Ok? ==> r.value.columns == t.columns
    ensures r.Ok? ==> var j := ResolvePosition(col, |t.columns|).value;
      && r.value.rows == RowsMatching(t.rows, j, id, keep)
      && forall row :: multiset(r.value.rows)[row] == (if j < |row.cells| && Selects(row.cells[j], id, keep) then multiset(t.rows)[row] else 0)
    ensures r.Ok? ==> AllSelected(r.value, col, id, keep) && multiset(r.value.rows) <= multiset(t.rows)
  {
    match ResolvePosition(col, |t.columns|)
    case None => Err(IndexError)
    case Some(j) =>
      var rows := RowsMatching(t.rows, j, id, keep);
      Ok(Frame(t.columns, rows))
  }

  /** Both filters over the list of tables: the i-th ID filters the i-th
      table, tables beyond the IDs are left alone, and an ID without a table
      raises `IndexError`. */
  function FilterPaired(ts: seq<Table>, col: int, ids: seq<int>, keep: bool): (r: Result<seq<Table>, Fault>)
    ensures r.Ok? <==> |ids| <= |ts| && forall i :: 0 <= i < |ids| ==> ResolvePosition(col, |ts[i].columns|).Some?
    ensures r.Err? ==> r.error == IndexError
    ensures r.Ok? ==> |r.value| == |ts|
    ensures r.Ok? ==> forall i :: 0 <= i < |ids| ==> FilterOnColumn(ts[i], col, ids[i], keep) == Ok(r.value[i])
    ensures r.Ok? ==> forall i :: |ids| <= i < |ts| ==> r.value[i] == ts[i]
    ensures r.Ok? ==> forall i :: 0 <= i < |ids| ==> AllSelected(r.value[i], col, ids[i], keep)
    ensures r.Ok? ==> forall i :: 0 <= i < |ts| ==>
      r.value[i].columns == ts[i].columns && multiset(r.value[i].rows) <= multiset(ts[i].rows)
  {
    if |ids| > |ts| || exists i :: 0 <= i < |ids| && ResolvePosition(col, |ts[i].columns|).None? then
      Err(IndexError)
    else
      Ok(seq(|ts|, i requires 0 <= i < |ts| =>
        if i < |ids| then FilterOnColumn(ts[i], col, ids[i], keep).value else ts[i]))
  }

  /** Filtering is idempotent: a second pass with the same IDs removes nothing more. */
  lemma FilterPairedIdempotent(ts: seq<Table>, col: int, ids: seq<int>, keep: bool)
    requires FilterPaired(ts, col, ids, keep).Ok?
    ensures FilterPaired(FilterPaired(ts, col, ids, keep).value, col, ids, keep) == FilterPaired(ts, col, ids, keep)
  {
    var once := FilterPaired(ts, col, ids, keep).value;
    forall i | 0 <= i < |ids| ensures FilterOnColumn(once[i], col, ids[i], keep) == Ok(once[i]) {
      var j := ResolvePosition(col, |ts[i].columns|).value;
      RowsMatchingIdempotent(ts[i].rows, j, ids[i], keep);
    }
    assert FilterPaired(once, col, ids, keep).value == once;
  }

  lemma {:induction false} RowsMatchingIdempotent(rows: seq<Row>, j: nat, id: int, keep: bool)
    ensures RowsMatching(RowsMatching(rows, j, id, keep), j, id, keep) == RowsMatching(rows, j, id, keep)
  {
    var once := RowsMatching(rows, j, id, keep);
    FilterAll(once, (row: Row) => j < |row.cells| && Selects(row.cells[j], id, keep));
  }
}

=== FILE: schema.dfy ===
/** Column-schema finalisation at the end of `run`
    (dbc_influxdb/filetypereader.py): `_add_units_row`,
    `_rename_unnamed_units` and `_remove_unnamed_cols`. Every table leaves
    with (variable, unit) labels. */
module Schema {
  import opened Wrappers
  import opened Seqs
  import opened Text
  import opened Tables

  /** The unit given to columns whose file has no units row. */
  const NotGiven: string := "-not-given-"

  /** `any('Unnamed' in value for value in col)`: a part of a pair label
      contains "Unnamed". Iterating a plain string label visits single
      characters, which never contain the seven-letter word. */
  predicate HasUnnamed(l: Label) {
    match l
    case Name(_) => false
    case Pair(v, u) => IsSubstring("Unnamed", v) || IsSubstring("Unnamed", u)
  }

  /** The labels `_remove_unnamed_cols` keeps. */
  predicate Named(l: Label) {
    !HasUnnamed(l)
  }

  function WithUnit(l: Label): Label {
    match l
    case Name(n) => Pair(n, NotGiven)
    case Pair(_, _) => l
  }

  /** The header after `_add_units_row`: plain labels get the unit
      "-not-given-"; a two-level header is left alone. */
  function UnitsHeader(cols: seq<Label>): (r: seq<Label>)
    ensures |r| == |cols|
    ensures IsMultiIndex(cols) ==> r == cols
    ensures !IsMultiIndex(cols) ==> forall k :: 0 <= k < |cols| ==> r[k] == WithUnit(cols[k])
  {
    if IsMultiIndex(cols) then cols
    else seq(|cols|, k requires 0 <= k < |cols| => WithUnit(cols[k]))
  }

  /** `_add_units_row` on one table: `MultiIndex.from_tuples([])` raises
      `TypeError` for a table without columns. */
  function AddUnitsRow(t: Table): (r: Result<Table, Fault>)
    ensures r.Ok? <==> t.columns != []
    ensures r.Err? ==> r.error == TypeError
    ensures r.Ok? ==> r.value.rows == t.rows && r.value.columns == UnitsHeader(t.columns)
    ensures r.Ok? && (forall l <- t.columns :: l.Name?) ==> IsMultiIndex(r.value.columns)
  {
    if t.columns == [] then Err(TypeError)
    else Ok(Frame(UnitsHeader(t.columns), t.rows))
  }

  /** "-not-given-" does not contain "Unnamed". */
  lemma NotGivenIsNamed()
    ensures !IsSubstring("Unnamed", NotGiven)
  {
    assert "Unnamed"[0] == 'U';
    MissingFirstCharNoSubstring("Unnamed", NotGiven);
  }

  function RenamedUnit(l: Label): (r: Label)
    ensures !HasUnnamed(r) <==> !l.Pair? || !IsSubstring("Unnamed", l.variable)
  {
    MissingFirstCharNoSubstring("Unnamed", NotGiven);
    if HasUnnamed(l) then Pair(l.variable, NotGiven) else l
  }

  /** `_rename_unnamed_units` on one table: a pair with "Unnamed" in either
      part keeps its variable and gets the unit "-not-given-". The new
      header goes through `MultiIndex.from_tuples`, which raises on an empty
      list. */
  function RenameUnnamedUnits(t: Table): (r: Result<Table, Fault>)
    ensures r.Ok? <==> t.columns != []
    ensures r.Err? ==> r.error == TypeError
    ensures r.Ok? ==> r.value.rows == t.rows && |r.value.columns| == |t.columns|
    ensures r.Ok? ==> forall k :: 0 <= k < |t.columns| ==>
      r.value.columns[k] == (if HasUnnamed(t.columns[k]) then Pair(t.columns[k].variable, NotGiven) else t.columns[k])
  {
    if t.columns == [] then Err(TypeError)
    else Ok(Frame(seq(|t.columns|, k requires 0 <= k < |t.columns| => RenamedUnit(t.columns[k])), t.rows))
  }

  /** `_remove_unnamed_cols` on one table: the columns without "Unnamed",
      in order, each row keeping its cells under them. None left makes
      `MultiIndex.from_tuples([])` raise `TypeError`. A surviving label
      that occurs c > 1 times makes `df[newcols]` select it c * c times, so
      the new header of the surviving length raises `ValueError`. */
  function RemoveUnnamedCols(t: Table): (r: Result<Table, Fault>)
    ensures r.Ok? <==> && (exists l <- t.columns :: !HasUnnamed(l))
                       && Distinct(Filter(t.columns, Named))
    ensures r.Err? ==> r.error == if exists l <- t.columns :: !HasUnnamed(l) then ValueError else TypeError
    ensures r.Ok? ==> r.value.columns == Filter(t.columns, Named)
    ensures r.Ok? ==> Distinct(r.value.columns) && Keys(r.value.rows) == Keys(t.rows)
    ensures r.Ok? && Numeric(t) ==> Numeric(r.value)
  {
    var s := SelectColumns(t, Named);
    SelectColumnsNumeric(t, Named);
    if s.columns == [] then
      assert forall l <- t.columns :: HasUnnamed(l) by {
        forall l <- t.columns ensures HasUnnamed(l) {
          assert l !in s.columns;
        }
      }
      Err(TypeError)
    else
      assert s.columns[0] in t.columns;
      if !Distinct(s.columns) then Err(ValueError) else Ok(s)
  }

  /** Each row keeps its cells under the labels `_remove_unnamed_cols` keeps. */
  lemma RemoveUnnamedColsKeepsCells(t: Table)
    requires RemoveUnnamedCols(t).Ok?
    ensures forall i, l :: 0 <= i < |t.rows| && Named(l) ==>
      && RemoveUnnamedCols(t).value.rows[i].key == t.rows[i].key
      && CellUnder(RemoveUnnamedCols(t).value.rows[i].cells, RemoveUnnamedCols(t).value.columns, l)
         == CellUnder(t.rows[i].cells, t.columns, l)
  {
    SelectColumnsKeepsCells(t, Named);
  }

  /** The three steps in `run`'s order, on one table: every table that
      passes leaves with a two-level header whose labels do not repeat,
      and with its rows' keys. */
  function FinaliseColumns(t: Table): (r: Result<Table, Fault>)
    ensures r.Err? ==> r.error == TypeError || r.error == ValueError
    ensures r.Ok? ==> IsMultiIndex(r.value.columns) && Distinct(r.value.columns)
    ensures r.Ok? ==> Keys(r.value.rows) == Keys(t.rows)
  {
    var u :- AddUnitsRow(t);
    var n :- RenameUnnamedUnits(u);
    if t.columns != [] then
      SurvivorsArePairs(t.columns);
      assert n.columns == FinalHeader(t.columns);
      RemoveUnnamedCols(n)
    else
      RemoveUnnamedCols(n)
  }

  /** What the three steps leave of one original label. */
  function Finalised(l: Label, multi: bool): Label {
    RenamedUnit(if multi then l else WithUnit(l))
  }

  /** The header after the units row and the renaming. */
  function FinalHeader(cols: seq<Label>): (r: seq<Label>)
    ensures |r| == |cols|
    ensures forall k :: 0 <= k < |cols| ==> r[k] == Finalised(cols[k], IsMultiIndex(cols))
  {
    seq(|cols|, k requires 0 <= k < |cols| => Finalised(cols[k], IsMultiIndex(cols)))
  }

  /** The surviving labels of a plain (or two-level) header: the labels
      after the units row and the renaming that are free of "Unnamed", in
      order; so an original label survives exactly when its variable lacks
      "Unnamed". Every survivor is a pair whose parts are free of "Unnamed",
      and its unit is not empty (the CSV reader never yields an empty header
      cell: a blank one is read as "Unnamed: ..."). A header whose every
      variable says "Unnamed" raises. */
  lemma FinaliseColumnsSurvivors(t: Table)
    requires t.columns != []
    ensures FinaliseColumns(t).Ok? <==>
      && (exists l <- t.columns :: !HasUnnamed(Finalised(l, IsMultiIndex(t.columns))))
      && Distinct(Filter(FinalHeader(t.columns), Named))
    ensures FinaliseColumns(t).Ok? ==>
      FinaliseColumns(t).value.columns == Filter(FinalHeader(t.columns), Named)
    ensures FinaliseColumns(t).Ok? ==> forall l <- FinaliseColumns(t).value.columns ::
      l.Pair? && !IsSubstring("Unnamed", l.variable) && !IsSubstring("Unnamed", l.unit)
    ensures FinaliseColumns(t).Ok? && (forall o <- t.columns :: o.Pair? ==> o.unit != "") ==>
      forall l <- FinaliseColumns(t).value.columns :: l.unit != ""
  {
    var n := Renamed(t);
    HeaderSurvivors(t.columns);
  }

  /** Two columns of one variable whose units both say "Unnamed" (as
      `("TA", "Unnamed: 1_level_1")` and `("TA", "Unnamed: 2_level_1")`)
      both end up as `(v, "-not-given-")`, and removing the unnamed columns
      raises `ValueError`. */
  lemma RepeatedUnitsRaise(t: Table, v: string, u1: string, u2: string)
    requires t.columns == [Pair(v, u1), Pair(v, u2)]
    requires !IsSubstring("Unnamed", v) && IsSubstring("Unnamed", u1) && IsSubstring("Unnamed", u2)
    ensures FinaliseColumns(t) == Err(ValueError)
  {
    UnnamedUnitsHeader(v, u1, u2);
    NotGivenIsNamed();
    var n := Renamed(t);
    RepeatedSurvivorRaises(n, Pair(v, NotGiven));
  }

  /** A label that survives twice makes `_remove_unnamed_cols` raise. */
  lemma RepeatedSurvivorRaises(t: Table, c: Label)
    requires t.columns == [c, c] && Named(c)
    ensures RemoveUnnamedCols(t) == Err(ValueError)
  {
    FilterAll(t.columns, Named);
    assert Filter(t.columns, Named)[0] == Filter(t.columns, Named)[1];
  }

  /** Two units with "Unnamed" under one variable both become "-not-given-". */
  lemma UnnamedUnitsHeader(v: string, u1: string, u2: string)
    requires HasUnnamed(Pair(v, u1)) && HasUnnamed(Pair(v, u2))
    ensures FinalHeader([Pair(v, u1), Pair(v, u2)]) == [Pair(v, NotGiven), Pair(v, NotGiven)]
  {
    var h := FinalHeader([Pair(v, u1), Pair(v, u2)]);
    assert IsMultiIndex([Pair(v, u1), Pair(v, u2)]);
    assert h[0] == Pair(v, NotGiven) && h[1] == Pair(v, NotGiven);
  }

  /** The table after the units row and the renaming, which cannot fail on
      a table with columns. */
  function Renamed(t: Table): (n: Table)
    requires t.columns != []
    ensures n.columns == FinalHeader(t.columns)
    ensures FinaliseColumns(t) == RemoveUnnamedCols(n)
  {
    var u := AddUnitsRow(t).value;
    var n := RenameUnnamedUnits(u).value;
    assert |n.columns| == |FinalHeader(t.columns)|;
    n
  }

  /** Which labels of the final header are free of "Unnamed". */
  lemma HeaderSurvivors(cols: seq<Label>)
    ensures (exists l <- FinalHeader(cols) :: !HasUnnamed(l)) <==> exists l <- cols :: !HasUnnamed(Finalised(l, IsMultiIndex(cols)))
    ensures forall l <- FinalHeader(cols) :: !HasUnnamed(l) ==>
      l.Pair? && !IsSubstring("Unnamed", l.variable) && !IsSubstring("Unnamed", l.unit)
    ensures (forall o <- cols :: o.Pair? ==> o.unit != "") ==>
      forall l <- FinalHeader(cols) :: l.unit != "" || HasUnnamed(l)
  {
    var h := FinalHeader(cols);
    var multi := IsMultiIndex(cols);
    forall l <- cols ensures Finalised(l, multi) in h {
      var k :| 0 <= k < |cols| && cols[k] == l;
      assert h[k] == Finalised(l, multi);
    }
    SurvivorsArePairs(cols);
    if forall o <- cols :: o.Pair? ==> o.unit != "" {
      SurvivorsHaveUnits(cols);
    }
  }

  /** Each label of the final header comes from one original label. */
  lemma FromOriginal(cols: seq<Label>, l: Label) returns (k: nat)
    requires l in FinalHeader(cols)
    ensures k < |cols| && l == Finalised(cols[k], IsMultiIndex(cols))
  {
    var h := FinalHeader(cols);
    k :| 0 <= k < |h| && h[k] == l;
  }

  /** A label of the final header free of "Unnamed" is a pair. */
  lemma SurvivorsArePairs(cols: seq<Label>)
    ensures forall l <- FinalHeader(cols) :: !HasUnnamed(l) ==> l.Pair?
  {
    forall l <- FinalHeader(cols) | !HasUnnamed(l) ensures l.Pair? {
      var k := FromOriginal(cols, l);
      assert IsMultiIndex(cols) ==> cols[k] in cols;
    }
  }

  /** Without empty units in the input, a surviving label has a unit. */
  lemma SurvivorsHaveUnits(cols: seq<Label>)
    requires forall o <- cols :: o.Pair? ==> o.unit != ""
    ensures forall l <- FinalHeader(cols) :: l.unit != "" || HasUnnamed(l)
  {
    forall l <- FinalHeader(cols) ensures l.unit != "" || HasUnnamed(l) {
      var k := FromOriginal(cols, l);
      assert cols[k] in cols;
    }
  }
}

=== FILE: seqs.dfy ===
/** Sequence helpers shared by the model: order-preserving selection (Python
    list comprehensions with an `if`, boolean row masks), `unique()` and the
    sorting of `list.sort` / `sort_index`. */
module Seqs {

  function Filter<T(!new)>(s: seq<T>, p: T -> bool): (r: seq<T>)
    ensures |r| <= |s|
    ensures forall x :: x in r <==> x in s && p(x)
  {
    if s == [] then [] else (if p(s[0]) then [s[0]] else []) + Filter(s[1..], p)
  }

  /** Filtering distributes over concatenation: the survivors keep their order. */
  lemma {:induction false} FilterAppend<T(!new)>(a: seq<T>, b: seq<T>, p: T -> bool)
    ensures Filter(a + b, p) == Filter(a, p) + Filter(b, p)
  {
    if a == [] {
      assert a + b == b;
    } else {
      assert (a + b)[1..] == a[1..] + b;
      FilterAppend(a[1..], b, p);
    }
  }

  /** Filtering keeps every selected element as often as it occurred, and
      no other element. */
  lemma {:induction false} FilterCounts<T(!new)>(s: seq<T>, p: T -> bool)
    ensures forall x :: multiset(Filter(s, p))[x] == if p(x) then multiset(s)[x] else 0
  {
    if s != [] {
      FilterCounts(s[1..], p);
      assert s == [s[0]] + s[1..];
    }
  }

  /** A filter that rejects nothing is the identity. */
  lemma {:induction false} FilterAll<T(!new)>(s: seq<T>, p: T -> bool)
    requires forall x :: x in s ==> p(x)
    ensures Filter(s, p) == s
  {
    if s != [] {
      FilterAll(s[1..], p);
    }
  }

  // --------------------------------------------------------------- distinct

  predicate Distinct<T(==)>(s: seq<T>) {
    forall i, j :: 0 <= i < j < |s| ==> s[i] != s[j]
  }

  /** No element occurs twice in a sequence without repetitions. */
  lemma {:induction false} DistinctCountsOne<T>(s: seq<T>, x: T)
    requires Distinct(s)
    ensures multiset(s)[x] <= 1
  {
    if s != [] {
      assert s == [s[0]] + s[1..];
      DistinctCountsOne(s[1..], x);
      if x == s[0] {
        assert x !in s[1..] by {
          forall k | 0 <= k < |s[1..]| ensures s[1..][k] != x {
            assert s[1..][k] == s[k + 1];
          }
        }
      }
    }
  }

  /** A selection from a sequence without repetitions has none either. */
  lemma {:induction false} FilterDistinct<T(!new)>(s: seq<T>, p: T -> bool)
    requires Distinct(s)
    ensures Distinct(Filter(s, p))
  {
    if s != [] {
      assert Distinct(s[1..]) by {
        forall a, b | 0 <= a < b < |s[1..]| ensures s[1..][a] != s[1..][b] {
          assert s[1..][a] == s[a + 1] && s[1..][b] == s[b + 1];
        }
      }
      FilterDistinct(s[1..], p);
      assert s[0] !in s[1..] by {
        forall k | 0 <= k < |s[1..]| ensures s[1..][k] != s[0] {
          assert s[1..][k] == s[k + 1];
        }
      }
      DistinctAppend(if p(s[0]) then [s[0]] else [], Filter(s[1..], p));
    }
  }

  /** Two sequences without repetitions and without a common element
      concatenate to one without repetitions. */
  lemma DistinctAppend<T>(a: seq<T>, b: seq<T>)
    requires Distinct(a) && Distinct(b) && forall x <- b :: x !in a
    ensures Distinct(a + b)
  {
    forall i, k | 0 <= i < k < |a + b| ensures (a + b)[i] != (a + b)[k] {
      if k < |a| {
        assert (a + b)[i] == a[i] && (a + b)[k] == a[k];
      } else if i < |a| {
        assert (a + b)[i] == a[i] && a[i] in a;
        assert (a + b)[k] == b[k - |a|] && b[k - |a|] in b;
      } else {
        assert (a + b)[i] == b[i - |a|] && (a + b)[k] == b[k - |a|];
      }
    }
  }

  /** Reordering keeps a sequence free of repetitions. */
  lemma DistinctPermutation<T>(a: seq<T>, b: seq<T>)
    requires Distinct(a) && multiset(a) == multiset(b)
    ensures Distinct(b)
  {
    forall i, j | 0 <= i < j < |b| ensures b[i] != b[j] {
      if b[i] == b[j] {
        var x := b[i];
        assert b == b[..j] + [b[j]] + b[j + 1..];
        assert x in b[..j];
        assert multiset(b)[x] >= 2;
        DistinctCountsOne(a, x);
        assert false;
      }
    }
  }

  /** The distinct values of `s`, first occurrences first (`unique()`). */
  function Unique<T(==,!new)>(s: seq<T>): (r: seq<T>)
    ensures Distinct(r)
    ensures forall x :: x in r <==> x in s
    decreases |s|
  {
    if s == [] then []
    else
      var rest := Filter(s[1..], x => x != s[0]);
      var u := Unique(rest);
      assert s[0] !in u;
      assert forall k :: 0 <= k < |u| ==> ([s[0]] + u)[k + 1] == u[k];
      [s[0]] + u
  }

  // ---------------------------------------------------------------- sorting

  /** `le` is a total preorder: any two elements compare, and it chains. */
  ghost predicate TotalPreorder<T(!new)>(le: (T, T) -> bool) {
    && (forall a, b :: le(a, b) || le(b, a))
    && (forall a, b, c :: le(a, b) && le(b, c) ==> le(a, c))
  }

  predicate SortedBy<T>(s: seq<T>, le: (T, T) -> bool) {
    forall i, j :: 0 <= i < j < |s| ==> le(s[i], s[j])
  }

  /** Inserting `x` into `s` after every element that is not above it. */
  function InsertBy<T>(x: T, s: seq<T>, le: (T, T) -> bool): (r: seq<T>)
    ensures multiset(r) == multiset(s) + multiset{x}
  {
    if s == [] || !le(s[0], x) then [x] + s
    else
      assert s == [s[0]] + s[1..];
      [s[0]] + InsertBy(x, s[1..], le)
  }

  /** Insertion sort: each element in turn is inserted into the sorted prefix. */
  function SortBy<T>(s: seq<T>, le: (T, T) -> bool): (r: seq<T>)
    ensures multiset(r) == multiset(s) && |r| == |s|
  {
    if s == [] then []
    else
      assert s == s[..|s| - 1] + [s[|s| - 1]];
      var r := InsertBy(s[|s| - 1], SortBy(s[..|s| - 1], le), le);
      assert |r| == |multiset(r)| == |multiset(s)| == |s|;
      r
  }

  lemma {:induction false} InsertBySorted<T(!new)>(x: T, s: seq<T>, le: (T, T) -> bool)
    requires TotalPreorder(le) && SortedBy(s, le)
    ensures SortedBy(InsertBy(x, s, le), le)
  {
    if s == [] || !le(s[0], x) {
      var r := [x] + s;
      forall i, j | 0 <= i < j < |r| ensures le(r[i], r[j]) {
        if i == 0 {
          assert le(x, s[0]);
          if j > 1 {
            assert le(s[0], s[j - 1]);
          }
        } else {
          assert r[i] == s[i - 1] && r[j] == s[j - 1];
        }
      }
    } else {
      var rest := InsertBy(x, s[1..], le);
      InsertBySorted(x, s[1..], le);
      var r := [s[0]] + rest;
      forall i, j | 0 <= i < j < |r| ensures le(r[i], r[j]) {
        if i == 0 {
          var y := rest[j - 1];
          assert y in multiset(rest);
          if y != x {
            assert y in multiset(s[1..]);
            var k :| 0 <= k < |s[1..]| && s[1..][k] == y;
            assert s[k + 1] == y;
          }
        } else {
          assert r[i] == rest[i - 1] && r[j] == rest[j - 1];
        }
      }
    }
  }

  /** The insertion sort returns its input in order. */
  lemma {:induction false} SortBySorted<T(!new)>(s: seq<T>, le: (T, T) -> bool)
    requires TotalPreorder(le)
    ensures SortedBy(SortBy(s, le), le)
  {
    if s != [] {
      SortBySorted(s[..|s| - 1], le);
      InsertBySorted(s[|s| - 1], SortBy(s[..|s| - 1], le), le);
    }
  }
}

=== FILE: special_formats.dfy ===
/** The special file formats of dbc_influxdb/filetypereader.py:
    `-ALTERNATING-` (rows of two loggers interleaved in one file, told apart
    by an ID column), its missed-ID diagnostic, and `-ICOSSEQ-` (one row per
    measurement location, reshaped into one column per variable and location). */
module SpecialFormats {
  import opened Wrappers
  import opened Seqs
  import opened Text
  import opened Tables
  import opened RowFilters

  // ------------------------------------------------------------ alternating

  /** `df.iloc[:, 0:n]`: the first `n` columns, or all of them when there are fewer. */
  function FirstColumns(t: Table, n: nat): (r: Table)
    ensures |r.columns| == if n < |t.columns| then n else |t.columns|
    ensures r.columns == t.columns[..|r.columns|]
    ensures |r.rows| == |t.rows|
    ensures forall i :: 0 <= i < |t.rows| ==>
      r.rows[i] == Row(t.rows[i].key, t.rows[i].cells[..|r.columns|])
  {
    var m := if n < |t.columns| then n else |t.columns|;
    var rows := seq(|t.rows|, i requires 0 <= i < |t.rows| =>
      assert t.rows[i] in t.rows;
      Row(t.rows[i].key, t.rows[i].cells[..m]));
    assert forall row <- rows :: exists i :: 0 <= i < |t.rows| && row == rows[i];
    Frame(t.columns[..m], rows)
  }

  /** `df.columns = names`: a length mismatch raises `ValueError`. */
  function Relabel(t: Table, names: seq<string>): (r: Result<Table, Fault>)
    ensures r.Ok? <==> |names| == |t.columns|
    ensures r.Err? ==> r.error == ValueError
    ensures r.Ok? ==> r.value.columns == Names(names) && r.value.rows == t.rows
  {
    if |names| == |t.columns| then Ok(Frame(Names(names), t.rows)) else Err(ValueError)
  }

  /** One table of the split: the rows carrying `id` at position `col`, cut
      to as many columns as `vars` names and labelled with `vars`. */
  function SplitOne(t: Table, col: int, id: int, vars: seq<string>): (r: Result<Table, Fault>)
    ensures r.Ok? <==> ResolvePosition(col, |t.columns|).Some? && |vars| <= |t.columns|
    ensures r.Ok? ==> r.value.columns == Names(vars)
    ensures r.Ok? ==>
      var kept := RowsMatching(t.rows, ResolvePosition(col, |t.columns|).value, id, true);
      && |r.value.rows| == |kept|
      && forall i :: 0 <= i < |kept| ==> r.value.rows[i] == Row(kept[i].key, kept[i].cells[..|vars|])
  {
    var kept :- FilterOnColumn(t, col, id, true);
    Relabel(FirstColumns(kept, |vars|), vars)
  }

  /** `_special_format_alternating`: one table per configured ID, at most two.
      The IDs come from `data_keep_good_rows`; without them the method raises
      (`None[0]`, or `[][0]`). A second table needs `data_vars2`. Without a
      column position, `iloc[:, None]` raises an indexing error whose class
      depends on the pandas version (`TypeError` or `ValueError`); the model
      reports `TypeError`. */
  function AlternatingSplit(t: Table, col: Option<int>, ids: Option<seq<int>>,
                            vars: seq<string>, vars2: Option<seq<string>>): (r: Result<seq<Table>, Fault>)
    ensures r.Ok? ==> col.Some? && ids.Some? && |ids.value| >= 1
    ensures r.Ok? ==> |r.value| == if |ids.value| == 1 then 1 else 2
    ensures r.Ok? ==> SplitOne(t, col.value, ids.value[0], vars) == Ok(r.value[0])
    ensures r.Ok? && |ids.value| >= 2 ==>
      vars2.Some? && SplitOne(t, col.value, ids.value[1], vars2.value) == Ok(r.value[1])
  {
    if col.None? || ids.None? then Err(TypeError)
    else if ids.value == [] then Err(IndexError)
    else
      var first :- SplitOne(t, col.value, ids.value[0], vars);
      if |ids.value| == 1 then Ok([first])
      else if vars2.None? then Err(KeyError("data_vars2"))
      else
        var second :- SplitOne(t, col.value, ids.value[1], vars2.value);
        Ok([first, second])
  }

  /** IDs after the second one play no part in the split. */
  lemma AlternatingIgnoresLaterIds(t: Table, col: Option<int>, ids: seq<int>,
                                   vars: seq<string>, vars2: Option<seq<string>>)
    requires |ids| >= 2
    ensures AlternatingSplit(t, col, Some(ids), vars, vars2) == AlternatingSplit(t, col, Some(ids[..2]), vars, vars2)
  {
  }

  /** Every row of table k carries the k-th ID at the split position, and
      its cells are the first cells of a row of the original table. */
  lemma {:induction false} SplitOneRowsCarryId(t: Table, col: int, id: int, vars: seq<string>)
    requires SplitOne(t, col, id, vars).Ok?
    ensures var j := ResolvePosition(col, |t.columns|).value;
      forall row <- SplitOne(t, col, id, vars).value.rows ::
        exists src <- t.rows :: src.cells[j] == Num(id) && row == Row(src.key, src.cells[..|vars|])
  {
    var j := ResolvePosition(col, |t.columns|).value;
    var kept := RowsMatching(t.rows, j, id, true);
    var out := SplitOne(t, col, id, vars).value;
    forall row <- out.rows
      ensures exists src <- t.rows :: src.cells[j] == Num(id) && row == Row(src.key, src.cells[..|vars|])
    {
      var i :| 0 <= i < |out.rows| && out.rows[i] == row;
      assert kept[i] in kept;
      assert kept[i] in t.rows && kept[i].cells[j] == Num(id);
    }
  }

  // ------------------------------------------------------------- missed IDs

  /** The `missed_ids` diagnostic: unset, the two fixed strings, or a list. */
  datatype MissedIds = Unset | NotSpecialFormat | AllIdsDefined | Missed(ids: seq<int>)

  /** The non-missing values of the column at position `j`. */
  function PresentValues(t: Table, j: nat): (r: seq<Cell>)
    requires j < |t.columns|
    ensures forall c :: c in r <==> c != Missing && exists row <- t.rows :: row.cells[j] == c
  {
    var column := seq(|t.rows|, i requires 0 <= i < |t.rows| => assert t.rows[i] in t.rows; t.rows[i].cells[j]);
    assert forall c <- column :: exists row <- t.rows :: row.cells[j] == c;
    assert forall row <- t.rows :: row.cells[j] in column by {
      forall row <- t.rows ensures row.cells[j] in column {
        var i :| 0 <= i < |t.rows| && t.rows[i] == row;
        assert column[i] == row.cells[j];
      }
    }
    Filter(column, (c: Cell) => c != Missing)
  }

  /** `_check_special_format_alternating_missed_ids`: the configured IDs, in
      order, that never occur in the column named "ID". The column is found by
      name, not by the position the split uses. */
  function CheckMissedIds(t: Table, ids: Option<seq<int>>): (r: Result<MissedIds, Fault>)
    ensures r.Ok? <==> Name("ID") in t.columns && ids.Some?
    ensures r.Ok? ==> r.value == AllIdsDefined || r.value.Missed?
    ensures r.Ok? ==> var j := Lookup(t, "ID").value;
      (r.value == AllIdsDefined <==> forall x <- ids.value :: exists row <- t.rows :: row.cells[j] == Num(x))
    ensures r.Ok? && r.value.Missed? ==> var j := Lookup(t, "ID").value;
      && r.value.ids != []
      && r.value.ids == MissedAmong(t, j, ids.value)
      && forall x :: x in r.value.ids <==> x in ids.value && !Occurs(t, j, x)
  {
    var j :- Lookup(t, "ID");
    if ids.None? then Err(TypeError)
    else
      var missed := MissedAmong(t, j, ids.value);
      if missed == [] then Ok(AllIdsDefined)
      else
        assert missed[0] in missed;
        Ok(Missed(missed))
  }

  /** Some row holds the value `x` at position `j`. */
  predicate Occurs(t: Table, j: nat, x: int)
    requires j < |t.columns|
  {
    exists row <- t.rows :: row.cells[j] == Num(x)
  }

  /** `[x for x in ids if x not in available_ids]`: the IDs absent from
      column `j`, in the configured order and with their repeats. */
  function MissedAmong(t: Table, j: nat, ids: seq<int>): (r: seq<int>)
    requires j < |t.columns|
    ensures forall x :: x in r <==> x in ids && !Occurs(t, j, x)
  {
    var present := PresentValues(t, j);
    Filter(ids, (x: int) => Num(x) !in present)
  }

  /** The comprehension keeps the order of the configured IDs: the missed
      IDs of two lists are those of the first list, then those of the second. */
  lemma MissedAmongAppend(t: Table, j: nat, a: seq<int>, b: seq<int>)
    requires j < |t.columns|
    ensures MissedAmong(t, j, a + b) == MissedAmong(t, j, a) + MissedAmong(t, j, b)
  {
    var present := PresentValues(t, j);
    FilterAppend(a, b, (x: int) => Num(x) !in present);
  }

  /** One configured ID is reported once if it never occurs, else not at all. */
  lemma MissedAmongOne(t: Table, j: nat, x: int)
    requires j < |t.columns|
    ensures MissedAmong(t, j, [x]) == if Occurs(t, j, x) then [] else [x]
  {
    var present := PresentValues(t, j);
    assert Filter([x], (y: int) => Num(y) !in present) == (if Num(x) !in present then [x] else []) + Filter([x][1..], (y: int) => Num(y) !in present);
  }

  // ---------------------------------------------------------------- ICOSSEQ

  datatype Subformat = NoSubformat | Prf | Cmb

  function SubformatName(s: Subformat): string {
    match s
    case NoSubformat => "None"
    case Prf => "PRF"
    case Cmb => "CMB"
  }

  /** Profile or chamber data; "-CMB-" is tested last and so wins. */
  function DetectSubformat(filetype: string): (r: Subformat)
    ensures r == Cmb <==> IsSubstring("-CMB-", filetype)
    ensures r == Prf <==> IsSubstring("-PRF-", filetype) && !IsSubstring("-CMB-", filetype)
  {
    if IsSubstring("-CMB-", filetype) then Cmb
    else if IsSubstring("-PRF-", filetype) then Prf
    else NoSubformat
  }

  /** `s in col`: a substring test for a plain label, an element test for a tuple. */
  predicate Mentions(l: Label, s: string) {
    match l
    case Name(n) => IsSubstring(s, n)
    case Pair(v, u) => v == s || u == s
  }

  /** The column holding the location: "LOCATION" when some label mentions it,
      else "INLET" when some label mentions that, else none (`False`). */
  function LocationColumn(cols: seq<Label>): (r: Option<string>)
    ensures r == Some("LOCATION") <==> exists l <- cols :: Mentions(l, "LOCATION")
    ensures r == Some("INLET") <==>
      (!exists l <- cols :: Mentions(l, "LOCATION")) && exists l <- cols :: Mentions(l, "INLET")
    ensures r.None? || r == Some("LOCATION") || r == Some("INLET")
  {
    if exists l <- cols :: Mentions(l, "LOCATION") then Some("LOCATION")
    else if exists l <- cols :: Mentions(l, "INLET") then Some("INLET")
    else None
  }

  /** Position of a cell kind in the order `list.sort` gives comparable cells. */
  function CellRank(c: Cell): nat {
    match c
    case Missing => 0
    case NegInf => 1
    case Num(_) => 2
    case PosInf => 3
    case Str(_) => 4
  }

  /** Python's `<=` among numbers and among strings; numbers never meet
      strings here because mixing them raises before sorting. */
  predicate CellLe(a: Cell, b: Cell) {
    if CellRank(a) != CellRank(b) then CellRank(a) < CellRank(b)
    else if a.Num? && b.Num? then a.n <= b.n
    else if a.Str? && b.Str? then a.s == b.s || StrLess(a.s, b.s)
    else true
  }

  lemma CellLeTotalPreorder()
    ensures TotalPreorder(CellLe)
  {
    forall a: Cell, b: Cell ensures CellLe(a, b) || CellLe(b, a) {
      if a.Str? && b.Str? {
        StrLessTotal(a.s, b.s);
      }
    }
    forall a: Cell, b: Cell, c: Cell | CellLe(a, b) && CellLe(b, c) ensures CellLe(a, c) {
      if a.Str? && b.Str? && c.Str? && a.s != b.s && b.s != c.s && a.s != c.s {
        StrLessTransitive(a.s, b.s, c.s);
      }
      if a.Str? && b.Str? && c.Str? && a.s == c.s && a.s != b.s {
        StrLessAsymmetric(a.s, b.s);
      }
    }
  }

  /** `sorted(df[locs_col].dropna().unique())`; sorting a mix of strings and
      numbers raises `TypeError`. */
  function Locations(t: Table, j: nat): (r: Result<seq<Cell>, Fault>)
    requires j < |t.columns|
    ensures r.Ok? <==> !((exists c <- PresentValues(t, j) :: c.Str?) && (exists c <- PresentValues(t, j) :: !c.Str?))
    ensures r.Ok? ==> forall c :: c in r.value <==> c != Missing && exists row <- t.rows :: row.cells[j] == c
    ensures r.Ok? ==> Distinct(r.value) && SortedBy(r.value, CellLe)
  {
    var present := PresentValues(t, j);
    if (exists c <- present :: c.Str?) && (exists c <- present :: !c.Str?) then Err(TypeError)
    else
      SortedUniqueValues(present);
      Ok(SortBy(Unique(present), CellLe))
  }

  /** The distinct values, sorted, are the values of the column. */
  lemma SortedUniqueValues(present: seq<Cell>)
    ensures var r := SortBy(Unique(present), CellLe);
      Distinct(r) && SortedBy(r, CellLe) && forall c :: c in r <==> c in present
  {
    var u := Unique(present);
    var sorted := SortBy(u, CellLe);
    CellLeTotalPreorder();
    SortBySorted(u, CellLe);
    DistinctPermutation(u, sorted);
    assert forall c :: c in sorted <==> c in multiset(u);
  }

  /** `f"{loc}"` for a location value: a number is a float once the frame
      holds nullable floats, so 5 prints as "5.0". */
  function LocationText(c: Cell): (r: string)
    ensures c.Str? ==> r == c.s
    ensures c.Num? ==> |r| >= 3 && r[..|r| - 2] == IntToStr(c.n) && r[|r| - 2..] == ".0"
  {
    match c
    case Str(s) => s
    case Num(n) => IntToStr(n) + ".0"
    case PosInf => "inf"
    case NegInf => "-inf"
    case Missing => "nan"
  }

  /** The location part of the new names: chambers get the height suffix "_0". */
  function LocationTag(c: Cell, sub: Subformat): (r: string)
    ensures |r| == |LocationText(c)| + (if sub == Cmb then 2 else 0)
    ensures r[..|LocationText(c)|] == LocationText(c)
    ensures sub == Cmb ==> r[|r| - 2..] == "_0"
  {
    if sub == Cmb then LocationText(c) + "_0" else LocationText(c)
  }

  /** Two different locations of one kind (numbers, or strings) give
      different tags, so no two locations share a column name part. */
  lemma LocationTagsDiffer(a: Cell, b: Cell, sub: Subformat)
    requires a != b && ((a.Num? && b.Num?) || (a.Str? && b.Str?))
    ensures LocationTag(a, sub) != LocationTag(b, sub)
  {
    var ta, tb := LocationText(a), LocationText(b);
    if LocationTag(a, sub) == LocationTag(b, sub) {
      assert |ta| == |tb|;
      assert ta == LocationTag(a, sub)[..|ta|] == LocationTag(b, sub)[..|tb|] == tb;
      if a.Num? {
        assert IntToStr(a.n) == ta[..|ta| - 2] == tb[..|tb| - 2] == IntToStr(b.n);
        IntToStrInjective(a.n, b.n);
      }
    }
  }

  /** `f"{col}_{addsuffix}_{loc}_1".replace("__", "_")`, where `addsuffix` is
      empty when the subformat name already occurs in `col`. */
  function NewName(col: string, sub: Subformat, loc: string): string {
    var addsuffix := if IsSubstring(SubformatName(sub), col) then "" else SubformatName(sub);
    CollapseDoubleUnderscores(col + "_" + addsuffix + "_" + loc + "_1")
  }

  /** For clean parts the formula reads as intended: "CO2", "CMB", "FF1_0"
      give "CO2_CMB_FF1_0_1", and a column already naming the subformat
      gets no second copy. */
  lemma NewNameOfCleanParts(col: string, sub: Subformat, loc: string)
    requires sub != NoSubformat && CleanPart(col) && CleanPart(loc) && |loc| > 0
    ensures !IsSubstring(SubformatName(sub), col) ==>
      NewName(col, sub, loc) == col + "_" + SubformatName(sub) + "_" + loc + "_1"
    ensures IsSubstring(SubformatName(sub), col) ==>
      NewName(col, sub, loc) == col + "_" + loc + "_1"
  {
    var name := SubformatName(sub);
    if IsSubstring(name, col) {
      JoinWithoutSuffix(col, loc);
    } else {
      assert name == "PRF" || name == "CMB";
      NoUnderscoreNoDouble(name);
      JoinWithSuffix(col, name, loc);
    }
  }

  /** For clean parts, different location tags give different new names. */
  lemma NewNamesSeparateLocations(col: string, sub: Subformat, a: string, b: string)
    requires sub != NoSubformat && CleanPart(col) && CleanPart(a) && |a| > 0 && CleanPart(b) && |b| > 0
    requires a != b
    ensures NewName(col, sub, a) != NewName(col, sub, b)
  {
    NewNameOfCleanParts(col, sub, a);
    NewNameOfCleanParts(col, sub, b);
    var p := if IsSubstring(SubformatName(sub), col) then col + "_" else col + "_" + SubformatName(sub) + "_";
    assert NewName(col, sub, a) == p + a + "_1";
    assert NewName(col, sub, b) == p + b + "_1";
    var na, nb := p + a + "_1", p + b + "_1";
    assert na[|p|..|p| + |a|] == a;
    assert nb[|p|..|p| + |b|] == b;
  }

  /** Without the subformat: `col + "__" + loc + "_1"` loses one '_'. */
  lemma JoinWithoutSuffix(col: string, loc: string)
    requires CleanPart(col) && CleanPart(loc) && |loc| > 0
    ensures CollapseDoubleUnderscores(col + "_" + "" + "_" + loc + "_1") == col + "_" + loc + "_1"
  {
    RegroupWithoutSuffix(col, loc);
    CollapseAfterCleanPart(col, "__" + (loc + "_1"));
    CollapseDoubleThenLocation(loc);
    RegroupTail(col, loc);
  }

  /** With the subformat: every piece is clean, so nothing collapses. */
  lemma JoinWithSuffix(col: string, name: string, loc: string)
    requires CleanPart(col) && CleanPart(name) && |name| > 0 && CleanPart(loc) && |loc| > 0
    ensures CollapseDoubleUnderscores(col + "_" + name + "_" + loc + "_1") == col + "_" + name + "_" + loc + "_1"
  {
    RegroupWithSuffix(col, name, loc);
    CollapseAfterCleanPart(col, "_" + (name + ("_" + (loc + "_1"))));
    CollapseSuffixThenLocation(name, loc);
  }

  lemma RegroupWithoutSuffix(col: string, loc: string)
    ensures col + "_" + "" + "_" + loc + "_1" == col + ("__" + (loc + "_1"))
  {
  }

  lemma RegroupTail(col: string, loc: string)
    ensures col + ("_" + (loc + "_1")) == col + "_" + loc + "_1"
  {
  }

  lemma RegroupWithSuffix(col: string, name: string, loc: string)
    ensures col + "_" + name + "_" + loc + "_1" == col + ("_" + (name + ("_" + (loc + "_1"))))
  {
  }

  lemma CollapseDoubleThenLocation(loc: string)
    requires CleanPart(loc) && |loc| > 0
    ensures CollapseDoubleUnderscores("__" + (loc + "_1")) == "_" + (loc + "_1")
  {
    CollapseUnderscorePair(loc + "_1");
    CollapseCleanPartThenOne(loc);
  }

  lemma CollapseSingleThenLocation(loc: string)
    requires CleanPart(loc) && |loc| > 0
    ensures CollapseDoubleUnderscores("_" + (loc + "_1")) == "_" + (loc + "_1")
  {
    CollapseLeadingUnderscore(loc + "_1");
    CollapseCleanPartThenOne(loc);
  }

  lemma CollapseSuffixThenLocation(name: string, loc: string)
    requires CleanPart(name) && |name| > 0 && CleanPart(loc) && |loc| > 0
    ensures CollapseDoubleUnderscores("_" + (name + ("_" + (loc + "_1")))) == "_" + (name + ("_" + (loc + "_1")))
  {
    CollapseLeadingUnderscore(name + ("_" + (loc + "_1")));
    CollapseAfterCleanPart(name, "_" + (loc + "_1"));
    CollapseSingleThenLocation(loc);
  }

  lemma CollapseAfterCleanPart(a: string, b: string)
    requires CleanPart(a)
    ensures CollapseDoubleUnderscores(a + b) == a + CollapseDoubleUnderscores(b)
  {
    CollapseKeepsPrefix(a, b);
  }

  lemma CollapseCleanPartThenOne(a: string)
    requires CleanPart(a)
    ensures CollapseDoubleUnderscores(a + "_1") == a + "_1"
  {
    CollapseKeepsPrefix(a, "_1");
    assert CollapseDoubleUnderscores("_1") == "_1";
  }

  /** A string without '_' holds no "__". */
  lemma {:induction false} NoUnderscoreNoDouble(s: string)
    requires forall i :: 0 <= i < |s| ==> s[i] != '_'
    ensures !IsSubstring("__", s)
  {
    if s != [] {
      assert forall i :: 0 <= i < |s[1..]| ==> s[1..][i] == s[i + 1];
      NoUnderscoreNoDouble(s[1..]);
      if |s| >= 2 {
        assert s[..2][0] == s[0];
      }
    }
  }

  /** "__" followed by a part that starts with a letter collapses to "_". */
  lemma CollapseUnderscorePair(rest: string)
    requires |rest| > 0 && rest[0] != '_'
    ensures CollapseDoubleUnderscores("__" + rest) == "_" + CollapseDoubleUnderscores(rest)
  {
    assert ("__" + rest)[2..] == rest;
  }

  /** A single '_' before a part that starts with another character is copied. */
  lemma CollapseLeadingUnderscore(rest: string)
    requires |rest| > 0 && rest[0] != '_'
    ensures CollapseDoubleUnderscores("_" + rest) == "_" + CollapseDoubleUnderscores(rest)
  {
    assert ("_" + rest)[1..] == rest;
  }

  // ----------------------------------------------------- ICOSSEQ reshaping

  /** `df.loc[df[locs_col] == loc, :]`: the rows at one location, in order. */
  function RowsAtLocation(rows: seq<Row>, j: nat, loc: Cell): (r: seq<Row>)
    ensures forall row :: row in r <==> row in rows && j < |row.cells| && row.cells[j] == loc
  {
    Filter(rows, (row: Row) => j < |row.cells| && row.cells[j] == loc)
  }

  /** The labels of one location's slice: every column renamed for that location. */
  function RenamedColumns(cols: seq<Label>, sub: Subformat, loc: string): (r: seq<Label>)
    ensures |r| == |cols|
    ensures forall k :: 0 <= k < |cols| ==> r[k] == Name(NewName(LabelText(cols[k]), sub, loc))
  {
    seq(|cols|, k requires 0 <= k < |cols| => Name(NewName(LabelText(cols[k]), sub, loc)))
  }

  /** The text of a single-level label (a pair never reaches the renaming). */
  function LabelText(l: Label): string {
    match l
    case Name(n) => n
    case Pair(v, _) => v
  }

  /** One location's rows under that location's column names. */
  function LocationSlice(t: Table, j: nat, sub: Subformat, loc: Cell): (r: Table)
    requires j < |t.columns|
    ensures r.columns == RenamedColumns(t.columns, sub, LocationTag(loc, sub))
    ensures forall row :: row in r.rows <==> row in t.rows && row.cells[j] == loc
  {
    Frame(RenamedColumns(t.columns, sub, LocationTag(loc, sub)), RowsAtLocation(t.rows, j, loc))
  }

  /** The rows re-laid onto the labels `to`: each keeps its cell under every
      label it has and gets `Missing` under the others. */
  function Reindexed(rows: seq<Row>, from: seq<Label>, to: seq<Label>): (r: seq<Row>)
    requires forall row <- rows :: |row.cells| == |from|
    ensures |r| == |rows| && Keys(r) == Keys(rows)
    ensures forall i :: 0 <= i < |rows| ==> |r[i].cells| == |to|
    ensures forall i, k :: 0 <= i < |rows| && 0 <= k < |to| ==>
      r[i].cells[k] == CellUnder(rows[i].cells, from, to[k])
  {
    seq(|rows|, i requires 0 <= i < |rows| =>
      assert rows[i] in rows;
      Row(rows[i].key, seq(|to|, k requires 0 <= k < |to| => CellUnder(rows[i].cells, from, to[k]))))
  }

  /** A row re-laid onto `to` holds, under each label of `to`, what it held before. */
  lemma ReindexedKeepsCells(rows: seq<Row>, from: seq<Label>, to: seq<Label>, i: nat, l: Label)
    requires forall row <- rows :: |row.cells| == |from|
    requires i < |rows| && l in to
    ensures CellUnder(Reindexed(rows, from, to)[i].cells, to, l) == CellUnder(rows[i].cells, from, l)
  {
  }

  /** `pd.concat([a, b], axis=0)`: the labels of `a` followed by the new labels
      of `b`; rows of `a`, then rows of `b`, each with `Missing` under the
      labels it lacks. Repeated labels cannot be aligned and raise. */
  function ConcatRows(a: Table, b: Table): (r: Result<Table, Fault>)
    ensures r.Ok? <==> a.columns == b.columns || (Distinct(a.columns) && Distinct(b.columns))
    ensures r.Ok? ==> |a.columns| <= |r.value.columns| && r.value.columns[..|a.columns|] == a.columns
    ensures r.Ok? ==> forall l :: l in r.value.columns <==> l in a.columns || l in b.columns
    ensures r.Ok? ==> Keys(r.value.rows) == Keys(a.rows) + Keys(b.rows)
    ensures r.Ok? && Distinct(a.columns) ==> Distinct(r.value.columns)
    ensures r.Ok? ==> forall i, l {:trigger CellUnder(r.value.rows[i].cells, r.value.columns, l)}
                                  {:trigger CellUnder(a.rows[i].cells, a.columns, l)} ::
      0 <= i < |a.rows| && l in r.value.columns ==>
      CellUnder(r.value.rows[i].cells, r.value.columns, l) == CellUnder(a.rows[i].cells, a.columns, l)
    ensures r.Ok? ==> forall i, l {:trigger CellUnder(b.rows[i].cells, b.columns, l)} ::
      0 <= i < |b.rows| && l in r.value.columns ==>
      CellUnder(r.value.rows[|a.rows| + i].cells, r.value.columns, l) == CellUnder(b.rows[i].cells, b.columns, l)
  {
    if a.columns == b.columns then
      assert forall i :: 0 <= i < |b.rows| ==> (a.rows + b.rows)[|a.rows| + i] == b.rows[i];
      KeysAppend(a.rows, b.rows);
      Ok(Frame(a.columns, a.rows + b.rows))
    else if !Distinct(a.columns) || !Distinct(b.columns) then Err(InvalidIndexError)
    else
      AlignedKeepsFirst(a, b);
      AlignedKeepsSecond(a, b);
      Ok(Aligned(a, b))
  }

  /** The concatenation of frames with distinct labels: both re-laid onto
      the labels of `a` followed by the new labels of `b`. */
  function Aligned(a: Table, b: Table): (r: Table)
    ensures |a.columns| <= |r.columns| && r.columns[..|a.columns|] == a.columns
    ensures forall l :: l in r.columns <==> l in a.columns || l in b.columns
    ensures Keys(r.rows) == Keys(a.rows) + Keys(b.rows)
    ensures Distinct(a.columns) && Distinct(b.columns) ==> Distinct(r.columns)
  {
    var cols := UnionLabels(a.columns, b.columns);
    var ra := Reindexed(a.rows, a.columns, cols);
    var rb := Reindexed(b.rows, b.columns, cols);
    KeysAppend(ra, rb);
    RectangularAppend(ra, rb, |cols|);
    Frame(cols, ra + rb)
  }

  /** The rows of `a` keep their cells under every label of the aligned frame. */
  lemma AlignedKeepsFirst(a: Table, b: Table)
    ensures var r := Aligned(a, b);
      forall i, l :: 0 <= i < |a.rows| && l in r.columns ==>
        CellUnder(r.rows[i].cells, r.columns, l) == CellUnder(a.rows[i].cells, a.columns, l)
  {
    var cols := UnionLabels(a.columns, b.columns);
    CellsOfFirst(Reindexed(a.rows, a.columns, cols), Reindexed(b.rows, b.columns, cols), a.rows, a.columns, cols);
  }

  /** The rows of `b` keep their cells under every label of the aligned frame. */
  lemma AlignedKeepsSecond(a: Table, b: Table)
    ensures var r := Aligned(a, b);
      forall i, l :: 0 <= i < |b.rows| && l in r.columns ==>
        CellUnder(r.rows[|a.rows| + i].cells, r.columns, l) == CellUnder(b.rows[i].cells, b.columns, l)
  {
    var cols := UnionLabels(a.columns, b.columns);
    var ra := Reindexed(a.rows, a.columns, cols);
    var rb := Reindexed(b.rows, b.columns, cols);
    assert Aligned(a, b) == Frame(cols, ra + rb) && |ra| == |a.rows|;
    CellsOfSecond(ra, rb, |a.rows|, b.rows, b.columns, cols);
  }

  /** The labels of `x` followed by those of `y` that `x` lacks. */
  function UnionLabels(x: seq<Label>, y: seq<Label>): (cols: seq<Label>)
    ensures |x| <= |cols| && cols[..|x|] == x
    ensures forall l :: l in cols <==> l in x || l in y
    ensures Distinct(x) && Distinct(y) ==> Distinct(cols)
  {
    var cols := x + Filter(y, (l: Label) => l !in x);
    assert cols[..|x|] == x;
    if Distinct(x) && Distinct(y) then
      FilterDistinct(y, (l: Label) => l !in x);
      DistinctAppend(x, Filter(y, (l: Label) => l !in x));
      cols
    else cols
  }

  lemma RectangularAppend(ra: seq<Row>, rb: seq<Row>, n: nat)
    requires forall i :: 0 <= i < |ra| ==> |ra[i].cells| == n
    requires forall i :: 0 <= i < |rb| ==> |rb[i].cells| == n
    ensures forall row <- ra + rb :: |row.cells| == n
  {
    forall row <- ra + rb ensures |row.cells| == n {
      var i :| 0 <= i < |ra + rb| && (ra + rb)[i] == row;
      if i >= |ra| {
        assert row == rb[i - |ra|];
      }
    }
  }

  /** Rows re-laid in front of others keep their cells under every label. */
  lemma CellsOfFirst(ra: seq<Row>, rb: seq<Row>, rows: seq<Row>, from: seq<Label>, cols: seq<Label>)
    requires forall row <- rows :: |row.cells| == |from|
    requires ra == Reindexed(rows, from, cols)
    ensures forall i, l :: 0 <= i < |rows| && l in cols ==>
      CellUnder((ra + rb)[i].cells, cols, l) == CellUnder(rows[i].cells, from, l)
  {
    forall i, l | 0 <= i < |rows| && l in cols
      ensures CellUnder((ra + rb)[i].cells, cols, l) == CellUnder(rows[i].cells, from, l)
    {
      assert (ra + rb)[i] == ra[i];
      ReindexedKeepsCells(rows, from, cols, i, l);
    }
  }

  /** Rows re-laid behind others keep their cells under every label. */
  lemma CellsOfSecond(ra: seq<Row>, rb: seq<Row>, n: nat, rows: seq<Row>, from: seq<Label>, cols: seq<Label>)
    requires forall row <- rows :: |row.cells| == |from|
    requires |ra| == n && rb == Reindexed(rows, from, cols)
    ensures forall i, l :: 0 <= i < |rows| && l in cols ==>
      CellUnder((ra + rb)[n + i].cells, cols, l) == CellUnder(rows[i].cells, from, l)
  {
    forall i, l | 0 <= i < |rows| && l in cols
      ensures CellUnder((ra + rb)[n + i].cells, cols, l) == CellUnder(rows[i].cells, from, l)
    {
      assert (ra + rb)[n + i] == rb[i];
      ReindexedKeepsCells(rows, from, cols, i, l);
    }
  }

  lemma KeysAppend(a: seq<Row>, b: seq<Row>)
    ensures Keys(a + b) == Keys(a) + Keys(b)
  {
  }

  /** The frame the loop over the locations has built after `locs`. */
  function Stacked(t: Table, j: nat, sub: Subformat, locs: seq<Cell>): (r: Result<Table, Fault>)
    requires j < |t.columns|
    ensures r.Ok? ==> Keys(r.value.rows) == StackedKeys(t.rows, j, locs)
    ensures r.Ok? ==> forall l <- r.value.columns :: l.Name?
    decreases |locs|
  {
    if locs == [] then Ok(Frame([], []))
    else
      var acc :- Stacked(t, j, sub, locs[..|locs| - 1]);
      ConcatRows(acc, LocationSlice(t, j, sub, locs[|locs| - 1]))
  }

  /** The index keys of the stacked frame: each location's rows in turn. */
  function StackedKeys(rows: seq<Row>, j: nat, locs: seq<Cell>): seq<Key>
    decreases |locs|
  {
    if locs == [] then []
    else StackedKeys(rows, j, locs[..|locs| - 1]) + Keys(RowsAtLocation(rows, j, locs[|locs| - 1]))
  }

  /** `_special_format_icosseq`: one column per variable and location. */
  function IcosSeqReshape(t: Table, filetype: string): (r: Result<Table, Fault>)
    ensures r.Ok? ==> LocationColumn(t.columns).Some? && forall l <- t.columns :: l.Name?
    ensures r.Ok? ==> Lookup(t, LocationColumn(t.columns).value).Ok?
    ensures r.Ok? ==> forall l <- r.value.columns :: l.Name? && !IsSubstring(LocationColumn(t.columns).value, l.name)
    ensures r.Ok? && DetectSubformat(filetype) == NoSubformat ==>
      var j := Lookup(t, LocationColumn(t.columns).value).value;
      forall row <- t.rows :: row.cells[j] == Missing
  {
    var sub := DetectSubformat(filetype);
    match LocationColumn(t.columns)
    case None => Err(KeyError("False"))
    case Some(locCol) =>
      if exists l <- t.columns :: l.Pair? then
        Err(if exists l <- t.columns :: l.Pair? && l.variable == locCol then AttributeError else KeyError(locCol))
      else
        var j :- Lookup(t, locCol);
        var locs :- Locations(t, j);
        if locs != [] && sub == NoSubformat then Err(TypeError)
        else
          var stacked :- Stacked(t, j, sub, locs);
          LocationsCoverPresentValues(t, j, locs);
          Ok(WithoutLocationColumns(stacked, locCol))
  }

  /** `locations_df[[col for col in locations_df if locs_col not in col]]`. */
  function WithoutLocationColumns(t: Table, locCol: string): (r: Table)
    ensures r.columns == Filter(t.columns, (l: Label) => !Mentions(l, locCol))
    ensures forall l :: l in r.columns <==> l in t.columns && !Mentions(l, locCol)
    ensures Keys(r.rows) == Keys(t.rows)
    ensures forall i, l :: 0 <= i < |t.rows| && !Mentions(l, locCol) ==>
      CellUnder(r.rows[i].cells, r.columns, l) == CellUnder(t.rows[i].cells, t.columns, l)
  {
    var r := SelectColumns(t, (l: Label) => !Mentions(l, locCol));
    SelectColumnsKeepsCells(t, (l: Label) => !Mentions(l, locCol));
    assert Keys(r.rows) == Keys(t.rows);
    r
  }

  /** Every present location value is among the locations. */
  lemma LocationsCoverPresentValues(t: Table, j: nat, locs: seq<Cell>)
    requires j < |t.columns| && Locations(t, j) == Ok(locs)
    ensures forall row <- t.rows :: row.cells[j] == Missing || row.cells[j] in locs
  {
    forall row <- t.rows ensures row.cells[j] == Missing || row.cells[j] in locs {
      assert row.cells[j] == Missing || exists r <- t.rows :: r.cells[j] == row.cells[j];
    }
  }

  // ------------------------------------------ which rows the reshape keeps

  /** The rows that carry a location at all. */
  function RowsWithLocation(rows: seq<Row>, j: nat): (r: seq<Row>)
    ensures forall row :: row in r <==> row in rows && j < |row.cells| && row.cells[j] != Missing
  {
    Filter(rows, (row: Row) => j < |row.cells| && row.cells[j] != Missing)
  }

  /** The keys of the rows whose location cell lies in `vals`, in row order. */
  function KeysWhere(rows: seq<Row>, j: nat, vals: set<Cell>): seq<Key> {
    if rows == [] then []
    else (if j < |rows[0].cells| && rows[0].cells[j] in vals then [rows[0].key] else []) + KeysWhere(rows[1..], j, vals)
  }

  lemma KeysAtLocation(rows: seq<Row>, j: nat, loc: Cell)
    ensures Keys(RowsAtLocation(rows, j, loc)) == KeysWhere(rows, j, {loc})
  {
    KeysOfFilter(rows, j, {loc}, (row: Row) => j < |row.cells| && row.cells[j] == loc);
  }

  /** Selecting the rows whose location cell lies in `vals` selects their keys. */
  lemma {:induction false} KeysOfFilter(rows: seq<Row>, j: nat, vals: set<Cell>, p: Row -> bool)
    requires forall row :: p(row) == (j < |row.cells| && row.cells[j] in vals)
    ensures Keys(Filter(rows, p)) == KeysWhere(rows, j, vals)
  {
    if rows != [] {
      KeysOfFilter(rows[1..], j, vals, p);
      var head := if p(rows[0]) then [rows[0]] else [];
      assert Filter(rows, p) == head + Filter(rows[1..], p);
      KeysAppend(head, Filter(rows[1..], p));
    }
  }

  lemma {:induction false} KeysWithLocation(rows: seq<Row>, j: nat, vals: set<Cell>)
    requires forall row <- rows :: j < |row.cells| && (row.cells[j] in vals <==> row.cells[j] != Missing)
    ensures KeysWhere(rows, j, vals) == Keys(RowsWithLocation(rows, j))
  {
    if rows != [] {
      KeysWithLocation(rows[1..], j, vals);
      var head := if rows[0].cells[j] != Missing then [rows[0]] else [];
      assert RowsWithLocation(rows, j) == head + RowsWithLocation(rows[1..], j);
      KeysAppend(head, RowsWithLocation(rows[1..], j));
    }
  }

  lemma {:induction false} KeysWhereNone(rows: seq<Row>, j: nat)
    ensures KeysWhere(rows, j, {}) == []
  {
    if rows != [] {
      KeysWhereNone(rows[1..], j);
    }
  }

  /** Splitting the chosen values in two splits the chosen keys in two. */
  lemma {:induction false} KeysWhereUnion(rows: seq<Row>, j: nat, a: set<Cell>, b: set<Cell>)
    requires a !! b
    ensures multiset(KeysWhere(rows, j, a + b)) == multiset(KeysWhere(rows, j, a)) + multiset(KeysWhere(rows, j, b))
  {
    if rows != [] {
      KeysWhereUnion(rows[1..], j, a, b);
    }
  }

  /** Stacking the slices of distinct locations keeps each row at one of
      them exactly once. */
  lemma {:induction false} StackedKeysAreLocated(rows: seq<Row>, j: nat, locs: seq<Cell>)
    requires Distinct(locs)
    ensures multiset(StackedKeys(rows, j, locs)) == multiset(KeysWhere(rows, j, set c | c in locs))
    decreases |locs|
  {
    if locs != [] {
      var init, last := locs[..|locs| - 1], locs[|locs| - 1];
      StackedKeysAreLocated(rows, j, init);
      KeysAtLocation(rows, j, last);
      assert (set c | c in init) !! {last};
      KeysWhereUnion(rows, j, set c | c in init, {last});
      assert (set c | c in locs) == (set c | c in init) + {last};
    } else {
      assert (set c | c in locs) == {};
      KeysWhereNone(rows, j);
    }
  }

  /** The reshape keeps exactly the rows that have a location, each once:
      rows with a missing location disappear. */
  lemma IcosSeqKeepsLocatedRows(t: Table, filetype: string)
    requires IcosSeqReshape(t, filetype).Ok?
    ensures var j := Lookup(t, LocationColumn(t.columns).value).value;
      multiset(Keys(IcosSeqReshape(t, filetype).value.rows)) == multiset(Keys(RowsWithLocation(t.rows, j)))
  {
    var locCol := LocationColumn(t.columns).value;
    var j := Lookup(t, locCol).value;
    var locs := Locations(t, j).value;
    var stacked := Stacked(t, j, DetectSubformat(filetype), locs).value;
    var r := IcosSeqReshape(t, filetype).value;
    assert r == WithoutLocationColumns(stacked, locCol);
    StackedKeysAreLocated(t.rows, j, locs);
    LocationsCoverPresentValues(t, j, locs);
    KeysWithLocation(t.rows, j, set c | c in locs);
  }

  /** Every input column renamed for every location, location by location. */
  function AllRenamed(cols: seq<Label>, sub: Subformat, locs: seq<Cell>): seq<Label>
    decreases |locs|
  {
    if locs == [] then []
    else AllRenamed(cols, sub, locs[..|locs| - 1]) + RenamedColumns(cols, sub, LocationTag(locs[|locs| - 1], sub))
  }

  /** The labels of the stacked frame are exactly the input columns renamed
      for each of the locations. */
  lemma {:induction false} StackedColumnsAreRenamed(t: Table, j: nat, sub: Subformat, locs: seq<Cell>)
    requires j < |t.columns| && Stacked(t, j, sub, locs).Ok?
    ensures forall l :: l in Stacked(t, j, sub, locs).value.columns <==> l in AllRenamed(t.columns, sub, locs)
    decreases |locs|
  {
    if locs != [] {
      var init := locs[..|locs| - 1];
      StackedColumnsAreRenamed(t, j, sub, init);
      StackedStep(t, j, sub, locs);
    }
  }

  /** The last location's slice is stacked under what the earlier ones built. */
  lemma StackedStep(t: Table, j: nat, sub: Subformat, locs: seq<Cell>)
    requires j < |t.columns| && locs != [] && Stacked(t, j, sub, locs).Ok?
    ensures Stacked(t, j, sub, locs[..|locs| - 1]).Ok?
    ensures forall l :: l in Stacked(t, j, sub, locs).value.columns <==>
      l in Stacked(t, j, sub, locs[..|locs| - 1]).value.columns || l in LocationSlice(t, j, sub, locs[|locs| - 1]).columns
  {
  }

  /** The loop over the locations in `_special_format_icosseq`: each
      location's rows, renamed, are concatenated below the frame so far. */
  method StackLocations(t: Table, j: nat, sub: Subformat, locs: seq<Cell>) returns (r: Result<Table, Fault>)
    requires j < |t.columns|
    ensures locs != [] && sub == NoSubformat ==> r == Err(TypeError)
    ensures locs == [] || sub != NoSubformat ==> r == Stacked(t, j, sub, locs)
  {
    var acc: Table := Frame([], []);
    for i := 0 to |locs|
      invariant Stacked(t, j, sub, locs[..i]) == Ok(acc)
      invariant i > 0 ==> sub != NoSubformat
    {
      var next := AddLocation(t, j, sub, acc, locs[i]);
      if sub != NoSubformat {
        StackedAppend(t, j, sub, locs, i);
      }
      if next.Err? {
        if sub != NoSubformat {
          StackedFailsFrom(t, j, sub, locs, i + 1, next.error);
        }
        return next;
      }
      acc := next.value;
    }
    assert locs[..|locs|] == locs;
    return Ok(acc);
  }

  /** One pass of the loop over the locations: the location's rows, under
      their new names, concatenated below the frame so far. */
  method AddLocation(t: Table, j: nat, sub: Subformat, acc: Table, loc: Cell) returns (r: Result<Table, Fault>)
    requires j < |t.columns|
    ensures sub == NoSubformat ==> r == Err(TypeError)
    ensures sub != NoSubformat ==> r == ConcatRows(acc, LocationSlice(t, j, sub, loc))
  {
    var renamed := RenameForLocation(t.columns, sub, LocationTag(loc, sub));
    if renamed.Err? {
      return Err(renamed.error);
    }
    var slice: Table := Frame(renamed.value, RowsAtLocation(t.rows, j, loc));
    r := ConcatRows(acc, slice);
  }

  /** One more location: its slice is concatenated below the frame so far. */
  lemma StackedAppend(t: Table, j: nat, sub: Subformat, locs: seq<Cell>, i: nat)
    requires j < |t.columns| && i < |locs|
    ensures Stacked(t, j, sub, locs[..i + 1]) ==
      match Stacked(t, j, sub, locs[..i])
      case Err(e) => Err(e)
      case Ok(acc) => ConcatRows(acc, LocationSlice(t, j, sub, locs[i]))
  {
    assert locs[..i + 1][..i] == locs[..i];
  }

  /** The inner loop of `_special_format_icosseq`: the new name of every
      column for one location. Without a subformat, `None in col` raises. */
  method RenameForLocation(cols: seq<Label>, sub: Subformat, tag: string) returns (r: Result<seq<Label>, Fault>)
    ensures sub == NoSubformat && cols != [] ==> r == Err(TypeError)
    ensures sub != NoSubformat || cols == [] ==> r == Ok(RenamedColumns(cols, sub, tag))
  {
    var renamed: seq<Label> := [];
    for k := 0 to |cols|
      invariant renamed == RenamedColumns(cols, sub, tag)[..k]
      invariant sub == NoSubformat ==> k == 0
    {
      if sub == NoSubformat {
        return Err(TypeError);
      }
      renamed := renamed + [Name(NewName(LabelText(cols[k]), sub, tag))];
    }
    assert renamed == RenamedColumns(cols, sub, tag);
    return Ok(renamed);
  }

  /** Once stacking fails, it fails for every longer list of locations. */
  lemma {:induction false} StackedFailsFrom(t: Table, j: nat, sub: Subformat, locs: seq<Cell>, n: nat, e: Fault)
    requires j < |t.columns| && n <= |locs| && Stacked(t, j, sub, locs[..n]) == Err(e)
    ensures Stacked(t, j, sub, locs) == Err(e)
    decreases |locs|
  {
    if n == |locs| {
      assert locs[..n] == locs;
    } else {
      var init := locs[..|locs| - 1];
      assert init[..n] == locs[..n];
      StackedFailsFrom(t, j, sub, init, n, e);
    }
  }

  // ---------------------------------------- where the reshape puts each cell

  /** The stacked frame's labels never repeat. */
  lemma {:induction false} StackedColumnsDistinct(t: Table, j: nat, sub: Subformat, locs: seq<Cell>)
    requires j < |t.columns| && Stacked(t, j, sub, locs).Ok?
    ensures Distinct(Stacked(t, j, sub, locs).value.columns)
    decreases |locs|
  {
    if locs != [] {
      StackedColumnsDistinct(t, j, sub, locs[..|locs| - 1]);
    }
  }

  /** A stacking that succeeds succeeded on every shorter prefix of the locations. */
  lemma {:induction false} StackedPrefixOk(t: Table, j: nat, sub: Subformat, locs: seq<Cell>, n: nat)
    requires j < |t.columns| && n <= |locs| && Stacked(t, j, sub, locs).Ok?
    ensures Stacked(t, j, sub, locs[..n]).Ok?
    decreases |locs|
  {
    if n == |locs| {
      assert locs[..n] == locs;
    } else {
      var init := locs[..|locs| - 1];
      assert init[..n] == locs[..n];
      StackedPrefixOk(t, j, sub, init, n);
    }
  }

  /** Each location's renamed labels are distinct once stacking succeeds:
      `pd.concat` raises on labels that repeat. */
  lemma {:induction false} SliceColumnsDistinct(t: Table, j: nat, sub: Subformat, locs: seq<Cell>, k: nat)
    requires j < |t.columns| && k < |locs| && Stacked(t, j, sub, locs).Ok?
    ensures Distinct(RenamedColumns(t.columns, sub, LocationTag(locs[k], sub)))
  {
    StackedPrefixOk(t, j, sub, locs, k + 1);
    StackedAppend(t, j, sub, locs, k);
    StackedColumnsDistinct(t, j, sub, locs[..k]);
  }

  /** Row `off` of `s` holds `cells` as laid out under `cols`: every label of
      `cols` is a label of `s`, and under each label of `s` the row holds what
      `cells` holds under it (`Missing` for a label `cols` lacks). */
  predicate Placed(s: Table, off: nat, cells: seq<Cell>, cols: seq<Label>) {
    |cells| == |cols| && off < |s.rows| && (forall l <- cols :: l in s.columns)
    && forall l <- s.columns :: CellUnder(s.rows[off].cells, s.columns, l) == CellUnder(cells, cols, l)
  }

  /** The rows of the frame `pd.concat` puts second come after those of the first. */
  lemma {:induction false} ConcatPlacesSecond(acc: Table, next: Table, s: Table, i: nat, off: nat, cells: seq<Cell>, cols: seq<Label>)
    requires ConcatRows(acc, next) == Ok(s) && i < |next.rows|
    requires off == |acc.rows| + i && cells == next.rows[i].cells && cols == next.columns
    ensures Placed(s, off, cells, cols)
  {
    assert next.rows[i] in next.rows;
  }

  /** A row of the frame `pd.concat` puts first keeps its place, and what it
      holds under each label: under a label only the second frame has, it
      was `Missing` already. */
  lemma {:induction false} ConcatPlacesFirst(acc: Table, next: Table, s: Table, off: nat, cells: seq<Cell>, cols: seq<Label>)
    requires ConcatRows(acc, next) == Ok(s) && Placed(acc, off, cells, cols)
    ensures Placed(s, off, cells, cols)
  {
    forall l <- s.columns ensures CellUnder(s.rows[off].cells, s.columns, l) == CellUnder(cells, cols, l) {
      if l !in acc.columns {
        assert l !in cols;
      }
    }
  }

  /** The i-th row of the k-th location's slice sits after the rows of the
      earlier locations, holds its own cells under that location's labels,
      and is `Missing` under every other label of the stacked frame. */
  lemma {:induction false} StackedPlacesCells(t: Table, j: nat, sub: Subformat, locs: seq<Cell>, k: nat, i: nat, s: Table,
                                              off: nat, cells: seq<Cell>, cols: seq<Label>)
    requires j < |t.columns| && k < |locs| && Stacked(t, j, sub, locs) == Ok(s)
    requires i < |RowsAtLocation(t.rows, j, locs[k])|
    requires off == |StackedKeys(t.rows, j, locs[..k])| + i && cells == RowsAtLocation(t.rows, j, locs[k])[i].cells
    requires cols == RenamedColumns(t.columns, sub, LocationTag(locs[k], sub))
    ensures Placed(s, off, cells, cols)
  {
    StackedAsStack(t, j, sub, locs, k);
    var before := Stacked(t, j, sub, locs[..k]).value;
    var slices := Slices(t, j, sub, locs);
    assert slices[k].rows == RowsAtLocation(t.rows, j, locs[k]);
    assert |before.rows| == |Keys(before.rows)|;
    StackPlaces(slices, |locs|, k, i, s, before, off, cells, cols);
  }

  /** The stacked frame, and the frame stacked from the first k locations,
      are stacks of the location slices. */
  lemma {:induction false} StackedAsStack(t: Table, j: nat, sub: Subformat, locs: seq<Cell>, k: nat)
    requires j < |t.columns| && k < |locs| && Stacked(t, j, sub, locs).Ok?
    ensures Stacked(t, j, sub, locs[..k]).Ok?
    ensures Stack(Slices(t, j, sub, locs), |locs|) == Stacked(t, j, sub, locs)
    ensures Stack(Slices(t, j, sub, locs), k) == Stacked(t, j, sub, locs[..k])
  {
    StackedPrefixOk(t, j, sub, locs, k);
    StackedIsStack(t, j, sub, locs, |locs|);
    assert locs[..|locs|] == locs;
    StackedIsStack(t, j, sub, locs, k);
  }

  /** The slice of each location, in the order of the locations. */
  function Slices(t: Table, j: nat, sub: Subformat, locs: seq<Cell>): (r: seq<Table>)
    requires j < |t.columns|
    ensures |r| == |locs| && forall k :: 0 <= k < |locs| ==> r[k] == LocationSlice(t, j, sub, locs[k])
  {
    seq(|locs|, k requires 0 <= k < |locs| => LocationSlice(t, j, sub, locs[k]))
  }

  /** `pd.concat` frame by frame over the first n of a list of frames,
      starting from the empty frame, as the location loop does with the slices. */
  function Stack(slices: seq<Table>, n: nat): Result<Table, Fault>
    requires n <= |slices|
  {
    if n == 0 then Ok(Frame([], []))
    else
      var acc :- Stack(slices, n - 1);
      ConcatRows(acc, slices[n - 1])
  }

  /** The location loop over the first n locations stacks exactly their slices. */
  lemma {:induction false} StackedIsStack(t: Table, j: nat, sub: Subformat, locs: seq<Cell>, n: nat)
    requires j < |t.columns| && n <= |locs|
    ensures Stacked(t, j, sub, locs[..n]) == Stack(Slices(t, j, sub, locs), n)
  {
    if n > 0 {
      StackedAppend(t, j, sub, locs, n - 1);
      StackedIsStack(t, j, sub, locs, n - 1);
    }
  }

  /** In a stack of frames, the i-th row of frame k follows all rows of the
      frames before it and holds its cells under frame k's labels. */
  lemma {:induction false} StackPlaces(slices: seq<Table>, n: nat, k: nat, i: nat, s: Table, before: Table,
                                       off: nat, cells: seq<Cell>, cols: seq<Label>)
    requires k < n <= |slices| && i < |slices[k].rows|
    requires Stack(slices, n) == Ok(s) && Stack(slices, k) == Ok(before)
    requires off == |before.rows| + i && cells == slices[k].rows[i].cells && cols == slices[k].columns
    ensures Placed(s, off, cells, cols)
    decreases n, 1
  {
    var acc := StackLast(slices, n, s);
    if k == n - 1 {
      ConcatPlacesSecond(before, slices[k], s, i, off, cells, cols);
    } else {
      StackPlacesEarlier(slices, n, k, i, s, acc, before, off, cells, cols);
    }
  }

  /** `StackPlaces` for a frame before the last: its row is placed in the
      stack without the last frame, and the last concatenation keeps it. */
  lemma {:induction false} StackPlacesEarlier(slices: seq<Table>, n: nat, k: nat, i: nat, s: Table, acc: Table, before: Table,
                                              off: nat, cells: seq<Cell>, cols: seq<Label>)
    requires k < n - 1 && n <= |slices| && i < |slices[k].rows|
    requires Stack(slices, n - 1) == Ok(acc) && ConcatRows(acc, slices[n - 1]) == Ok(s) && Stack(slices, k) == Ok(before)
    requires off == |before.rows| + i && cells == slices[k].rows[i].cells && cols == slices[k].columns
    ensures Placed(s, off, cells, cols)
    decreases n, 0
  {
    StackPlaces(slices, n - 1, k, i, acc, before, off, cells, cols);
    ConcatPlacesFirst(acc, slices[n - 1], s, off, cells, cols);
  }

  /** A stack of n frames is the stack of the first n - 1 with the last
      concatenated below. */
  function StackLast(slices: seq<Table>, n: nat, s: Table): (acc: Table)
    requires 0 < n <= |slices| && Stack(slices, n) == Ok(s)
    ensures Stack(slices, n - 1) == Ok(acc) && ConcatRows(acc, slices[n - 1]) == Ok(s)
  {
    Stack(slices, n - 1).value
  }

  /** `_special_format_icosseq` ends with the stacked frame minus the labels
      that mention the location column. */
  lemma {:induction false} IcosSeqIsStacked(t: Table, filetype: string, j: nat, locs: seq<Cell>)
    requires IcosSeqReshape(t, filetype).Ok?
    requires Lookup(t, LocationColumn(t.columns).value) == Ok(j)
    requires Locations(t, j) == Ok(locs) && locs != []
    ensures Stacked(t, j, DetectSubformat(filetype), locs).Ok?
    ensures IcosSeqReshape(t, filetype).value ==
      WithoutLocationColumns(Stacked(t, j, DetectSubformat(filetype), locs).value, LocationColumn(t.columns).value)
  {
    var locCol := LocationColumn(t.columns).value;
    assert Lookup(t, locCol).value == j && Locations(t, j).value == locs;
    assert Stacked(t, j, DetectSubformat(filetype), locs).Ok?;
    var stacked := Stacked(t, j, DetectSubformat(filetype), locs).value;
    assert IcosSeqReshape(t, filetype).value == WithoutLocationColumns(stacked, locCol);
  }

  /** Dropping the labels that mention the location column keeps a row's
      cell under each label it does not drop. */
  lemma {:induction false} DroppedPlacesCells(s: Table, locCol: string, off: nat, cells: seq<Cell>, cols: seq<Label>)
    requires Placed(s, off, cells, cols) && Distinct(cols)
    ensures var r := WithoutLocationColumns(s, locCol);
      off < |r.rows|
      && (forall m :: 0 <= m < |cols| && !Mentions(cols[m], locCol) ==>
            cols[m] in r.columns && CellUnder(r.rows[off].cells, r.columns, cols[m]) == cells[m])
      && forall l <- r.columns :: l !in cols ==> CellUnder(r.rows[off].cells, r.columns, l) == Missing
  {
    var r := WithoutLocationColumns(s, locCol);
    assert |r.rows| == |Keys(r.rows)| == |Keys(s.rows)|;
    forall m | 0 <= m < |cols| && !Mentions(cols[m], locCol)
      ensures cols[m] in r.columns && CellUnder(r.rows[off].cells, r.columns, cols[m]) == cells[m]
    {
      CellUnderDistinct(cells, cols, m);
    }
  }

  /** Where `_special_format_icosseq` puts each cell: the i-th row at the
      k-th location comes after the rows of the earlier locations, keeps its
      key, holds its value for the m-th column under that column's new name
      for its location (unless the new name mentions the location column and
      is dropped), and is `Missing` under the columns of every other location. */
  lemma {:induction false} IcosSeqPlacesCells(t: Table, filetype: string, r: Table, j: nat, locs: seq<Cell>, k: nat, i: nat,
                                              sub: Subformat, row: Row, off: nat)
    requires IcosSeqReshape(t, filetype) == Ok(r) && sub == DetectSubformat(filetype)
    requires Lookup(t, LocationColumn(t.columns).value) == Ok(j) && Locations(t, j) == Ok(locs)
    requires k < |locs| && i < |RowsAtLocation(t.rows, j, locs[k])|
    requires row == RowsAtLocation(t.rows, j, locs[k])[i] && off == |StackedKeys(t.rows, j, locs[..k])| + i
    ensures off < |r.rows| && r.rows[off].key == row.key
    ensures forall m :: 0 <= m < |t.columns| && !Mentions(Name(NewName(LabelText(t.columns[m]), sub, LocationTag(locs[k], sub))), LocationColumn(t.columns).value) ==>
      Name(NewName(LabelText(t.columns[m]), sub, LocationTag(locs[k], sub))) in r.columns
      && CellUnder(r.rows[off].cells, r.columns, Name(NewName(LabelText(t.columns[m]), sub, LocationTag(locs[k], sub)))) == row.cells[m]
    ensures forall l <- r.columns :: l !in RenamedColumns(t.columns, sub, LocationTag(locs[k], sub)) ==>
      CellUnder(r.rows[off].cells, r.columns, l) == Missing
  {
    IcosSeqIsStacked(t, filetype, j, locs);
    var s := Stacked(t, j, sub, locs).value;
    StackedDropPlacesCells(t, j, sub, locs, k, i, s, LocationColumn(t.columns).value, r, row, off, LocationTag(locs[k], sub));
  }

  /** The stacked frame, with the labels mentioning `locCol` dropped, holds
      the i-th row at the k-th location as `IcosSeqPlacesCells` states. */
  lemma {:induction false} StackedDropPlacesCells(t: Table, j: nat, sub: Subformat, locs: seq<Cell>, k: nat, i: nat, s: Table,
                                                  locCol: string, r: Table, row: Row, off: nat, tag: string)
    requires j < |t.columns| && Stacked(t, j, sub, locs) == Ok(s) && r == WithoutLocationColumns(s, locCol)
    requires k < |locs| && i < |RowsAtLocation(t.rows, j, locs[k])|
    requires row == RowsAtLocation(t.rows, j, locs[k])[i] && off == |StackedKeys(t.rows, j, locs[..k])| + i
    requires tag == LocationTag(locs[k], sub)
    ensures off < |r.rows| && r.rows[off].key == row.key
    ensures forall m :: 0 <= m < |t.columns| && !Mentions(Name(NewName(LabelText(t.columns[m]), sub, tag)), locCol) ==>
      Name(NewName(LabelText(t.columns[m]), sub, tag)) in r.columns
      && CellUnder(r.rows[off].cells, r.columns, Name(NewName(LabelText(t.columns[m]), sub, tag))) == row.cells[m]
    ensures forall l <- r.columns :: l !in RenamedColumns(t.columns, sub, tag) ==> CellUnder(r.rows[off].cells, r.columns, l) == Missing
  {
    StackedPlacesCells(t, j, sub, locs, k, i, s, off, row.cells, RenamedColumns(t.columns, sub, tag));
    SliceColumnsDistinct(t, j, sub, locs, k);
    RenamedDropPlacesCells(s, locCol, r, off, row, t.columns, sub, tag);
    StackedRowKey(t.rows, j, locs, k, i, s.rows, off, row.key);
    DroppedKeyAt(s, locCol, r, off, row.key);
  }

  /** The key at the i-th row of the k-th location's slice in the stacked
      frame is that row's own key. */
  lemma {:induction false} StackedRowKey(rows: seq<Row>, j: nat, locs: seq<Cell>, k: nat, i: nat, srows: seq<Row>, off: nat, key: Key)
    requires Keys(srows) == StackedKeys(rows, j, locs)
    requires k < |locs| && i < |RowsAtLocation(rows, j, locs[k])| && off == |StackedKeys(rows, j, locs[..k])| + i
    requires key == RowsAtLocation(rows, j, locs[k])[i].key
    ensures off < |srows| && srows[off].key == key
  {
    StackedKeyAt(rows, j, locs, k, i, off, key);
    KeyAt(srows, StackedKeys(rows, j, locs), off, key);
  }

  /** Dropping labels keeps every row's key in its place. */
  lemma {:induction false} DroppedKeyAt(s: Table, locCol: string, r: Table, off: nat, key: Key)
    requires r == WithoutLocationColumns(s, locCol) && off < |s.rows| && s.rows[off].key == key
    ensures off < |r.rows| && r.rows[off].key == key
  {
    KeyAt(r.rows, Keys(s.rows), off, key);
  }

  /** In the stacked index, the key at the i-th row of the k-th location is
      that row's own key. */
  lemma {:induction false} StackedKeyAt(rows: seq<Row>, j: nat, locs: seq<Cell>, k: nat, i: nat, off: nat, key: Key)
    requires k < |locs| && i < |RowsAtLocation(rows, j, locs[k])| && off == |StackedKeys(rows, j, locs[..k])| + i
    requires key == RowsAtLocation(rows, j, locs[k])[i].key
    ensures off < |StackedKeys(rows, j, locs)| && StackedKeys(rows, j, locs)[off] == key
    decreases |locs|
  {
    var init := locs[..|locs| - 1];
    if k == |locs| - 1 {
      assert locs[..k] == init;
    } else {
      assert init[..k] == locs[..k] && init[k] == locs[k];
      StackedKeyAt(rows, j, init, k, i, off, key);
    }
  }

  /** A key read off the index keys is the key of the row at that position. */
  lemma KeyAt(rows: seq<Row>, ks: seq<Key>, off: nat, key: Key)
    requires Keys(rows) == ks && off < |ks| && ks[off] == key
    ensures off < |rows| && rows[off].key == key
  {
  }

  /** `DroppedPlacesCells` for the labels of one location's slice, named by
      the column they rename. */
  lemma {:induction false} RenamedDropPlacesCells(s: Table, locCol: string, r: Table, off: nat, row: Row, cols: seq<Label>, sub: Subformat, tag: string)
    requires Placed(s, off, row.cells, RenamedColumns(cols, sub, tag)) && r == WithoutLocationColumns(s, locCol)
    requires Distinct(RenamedColumns(cols, sub, tag))
    ensures off < |r.rows|
    ensures forall m :: 0 <= m < |cols| && !Mentions(Name(NewName(LabelText(cols[m]), sub, tag)), locCol) ==>
      Name(NewName(LabelText(cols[m]), sub, tag)) in r.columns
      && CellUnder(r.rows[off].cells, r.columns, Name(NewName(LabelText(cols[m]), sub, tag))) == row.cells[m]
    ensures forall l <- r.columns :: l !in RenamedColumns(cols, sub, tag) ==> CellUnder(r.rows[off].cells, r.columns, l) == Missing
  {
    DroppedPlacesCells(s, locCol, off, row.cells, RenamedColumns(cols, sub, tag));
  }

}

=== FILE: tables.dfy ===
/** The abstract data frame the reader works on.

    A table is a list of column labels and a list of rows; every row carries
    an index key and one cell per column. Labels are a single string (a plain
    header) or a (variable, unit) pair (a two-level header). Timestamps are
    integer minutes; `NaT` is pandas' missing timestamp. */
module Tables {
  import opened Wrappers
  import opened Seqs

  datatype Cell = Missing | Num(n: int) | Str(s: string) | PosInf | NegInf

  datatype Key = At(minutes: int) | NaT

  datatype Label = Name(name: string) | Pair(variable: string, unit: string)

  datatype Row = Row(key: Key, cells: seq<Cell>)

  datatype Frame = Frame(columns: seq<Label>, rows: seq<Row>)

  predicate Rectangular(f: Frame) {
    forall r <- f.rows :: |r.cells| == |f.columns|
  }

  /** A data frame: every row has exactly one cell per column. */
  type Table = f: Frame | Rectangular(f) witness Frame([], [])

  /** The Python exceptions the reader can raise, by class. */
  datatype Fault =
    | ReadError          // the read failed after the retries
    | IndexError         // a list index or a column position out of range
    | KeyError(key: string)  // a column or a configuration key that is not there
    | TypeError          // an operation on a value of the wrong type
    | ValueError         // a length mismatch or an impossible date
    | UnboundLocalError  // a local variable read before it was bound
    | AttributeError     // a method a value does not have
    | InvalidIndexError  // reindexing against column labels that repeat
    | OverflowError      // an int64 nanosecond sum outside the 64-bit range

  /** pandas' `isinstance(columns, MultiIndex)`: a MultiIndex is never empty
      here because `MultiIndex.from_tuples([])` raises. */
  predicate IsMultiIndex(cols: seq<Label>) {
    |cols| > 0 && forall c <- cols :: c.Pair?
  }

  /** Position of the first column labelled `l`. */
  function ColumnIndex(cols: seq<Label>, l: Label): (r: Option<nat>)
    ensures r.Some? ==> r.value < |cols| && cols[r.value] == l
    ensures r.Some? ==> forall k :: 0 <= k < r.value ==> cols[k] != l
    ensures r.None? <==> l !in cols
  {
    if cols == [] then None
    else if cols[0] == l then Some(0)
    else match ColumnIndex(cols[1..], l)
      case None => None
      case Some(k) => Some(k + 1)
  }

  /** Single-level labels for a list of names, as `df.columns = names` sets them. */
  function Names(names: seq<string>): (r: seq<Label>)
    ensures |r| == |names| && forall k :: 0 <= k < |names| ==> r[k] == Name(names[k])
  {
    seq(|names|, k requires 0 <= k < |names| => Name(names[k]))
  }

  /** The cell a row holds under label `l` (its first column so labelled),
      or `Missing` when the table has no such column. */
  function CellUnder(cells: seq<Cell>, cols: seq<Label>, l: Label): Cell
    requires |cells| == |cols|
  {
    match ColumnIndex(cols, l)
    case None => Missing
    case Some(k) => cells[k]
  }

  /** `df[name]`, the column looked up by its label; a missing label raises `KeyError`. */
  function Lookup(t: Table, name: string): (r: Result<nat, Fault>)
    ensures r.Ok? <==> Name(name) in t.columns
    ensures r.Ok? ==> r.value < |t.columns| && t.columns[r.value] == Name(name)
    ensures r.Err? ==> r.error == KeyError(name)
  {
    match ColumnIndex(t.columns, Name(name))
    case None => Err(KeyError(name))
    case Some(j) => Ok(j)
  }

  /** `df.iloc[:, p]` on `n` columns: negative positions count from the end;
      anything outside `-n <= p < n` raises `IndexError`. */
  function ResolvePosition(p: int, n: nat): (r: Option<nat>)
    ensures r.Some? <==> 0 <= n + p && p < n
    ensures r.Some? ==> r.value < n && r.value == (if p >= 0 then p else n + p)
  {
    if 0 <= p < n then Some(p) else if p < 0 && 0 <= n + p then Some(n + p) else None
  }

  function Keys(rows: seq<Row>): (ks: seq<Key>)
    ensures |ks| == |rows| && forall i :: 0 <= i < |rows| ==> ks[i] == rows[i].key
  {
    seq(|rows|, i requires 0 <= i < |rows| => rows[i].key)
  }

  /** Boolean-mask row selection `df[mask]`: the columns stay, the chosen rows
      keep their order and their index keys. */
  function FilterRows(t: Table, keep: Row -> bool): (r: Table)
    ensures r.columns == t.columns && r.rows == Filter(t.rows, keep)
  {
    Frame(t.columns, Filter(t.rows, keep))
  }

  /** The cells of a row at the columns whose label satisfies `keep`. */
  function SelectCells(cells: seq<Cell>, cols: seq<Label>, keep: Label -> bool): (r: seq<Cell>)
    requires |cells| == |cols|
    ensures |r| == |Filter(cols, keep)|
  {
    if cols == [] then []
    else (if keep(cols[0]) then [cells[0]] else []) + SelectCells(cells[1..], cols[1..], keep)
  }

  /** Every cell `SelectCells` keeps was a cell of the row. */
  lemma {:induction false} SelectCellsFrom(cells: seq<Cell>, cols: seq<Label>, keep: Label -> bool)
    requires |cells| == |cols|
    ensures forall c <- SelectCells(cells, cols, keep) :: c in cells
  {
    if cols != [] {
      SelectCellsFrom(cells[1..], cols[1..], keep);
    }
  }

  /** A label the selection keeps holds, in every row, the cell it held
      before: its first column stays its first column. */
  lemma {:induction false} SelectCellsUnder(cells: seq<Cell>, cols: seq<Label>, keep: Label -> bool, l: Label)
    requires |cells| == |cols| && keep(l)
    ensures CellUnder(SelectCells(cells, cols, keep), Filter(cols, keep), l) == CellUnder(cells, cols, l)
  {
    if cols != [] {
      SelectCellsUnder(cells[1..], cols[1..], keep, l);
      if keep(cols[0]) {
        SelectCellsUnderKept(cells, cols, keep, l);
      } else {
        SelectCellsUnderDropped(cells, cols, keep, l);
      }
    }
  }

  /** The inductive step of `SelectCellsUnder` when the first column is kept. */
  lemma {:induction false} SelectCellsUnderKept(cells: seq<Cell>, cols: seq<Label>, keep: Label -> bool, l: Label)
    requires |cells| == |cols| && cols != [] && keep(cols[0])
    requires CellUnder(SelectCells(cells[1..], cols[1..], keep), Filter(cols[1..], keep), l) == CellUnder(cells[1..], cols[1..], l)
    ensures CellUnder(SelectCells(cells, cols, keep), Filter(cols, keep), l) == CellUnder(cells, cols, l)
  {
    var sc, fc := SelectCells(cells[1..], cols[1..], keep), Filter(cols[1..], keep);
    assert cells == [cells[0]] + cells[1..] && cols == [cols[0]] + cols[1..];
    assert SelectCells(cells, cols, keep) == [cells[0]] + sc;
    assert Filter(cols, keep) == [cols[0]] + fc;
    if cols[0] == l {
      CellUnderFront(cells[0], sc, l, fc);
      CellUnderFront(cells[0], cells[1..], l, cols[1..]);
    } else {
      CellUnderBehind(cells[0], sc, cols[0], fc, l);
      CellUnderBehind(cells[0], cells[1..], cols[0], cols[1..], l);
    }
  }

  /** The inductive step of `SelectCellsUnder` when the first column is dropped. */
  lemma {:induction false} SelectCellsUnderDropped(cells: seq<Cell>, cols: seq<Label>, keep: Label -> bool, l: Label)
    requires |cells| == |cols| && cols != [] && !keep(cols[0]) && keep(l)
    requires CellUnder(SelectCells(cells[1..], cols[1..], keep), Filter(cols[1..], keep), l) == CellUnder(cells[1..], cols[1..], l)
    ensures CellUnder(SelectCells(cells, cols, keep), Filter(cols, keep), l) == CellUnder(cells, cols, l)
  {
    assert SelectCells(cells, cols, keep) == SelectCells(cells[1..], cols[1..], keep);
    assert Filter(cols, keep) == Filter(cols[1..], keep);
    CellUnderRest(cells, cols, l);
  }

  /** Past a first column with another label, the cell under `l` is the
      one the remaining columns hold. */
  lemma CellUnderRest(cells: seq<Cell>, cols: seq<Label>, l: Label)
    requires |cells| == |cols| && cols != [] && cols[0] != l
    ensures CellUnder(cells, cols, l) == CellUnder(cells[1..], cols[1..], l)
  {
  }

  /** With labels that do not repeat, the cell under the k-th label is the k-th cell. */
  lemma CellUnderDistinct(cells: seq<Cell>, cols: seq<Label>, k: nat)
    requires |cells| == |cols| && Distinct(cols) && k < |cols|
    ensures CellUnder(cells, cols, cols[k]) == cells[k]
  {
    assert ColumnIndex(cols, cols[k]).Some?;
  }

  /** A leading column labelled `l` holds the cell under `l`. */
  lemma CellUnderFront(c: Cell, cells: seq<Cell>, l: Label, cols: seq<Label>)
    requires |cells| == |cols|
    ensures CellUnder([c] + cells, [l] + cols, l) == c
  {
  }

  /** A leading column with another label does not change the cell under `l`. */
  lemma CellUnderBehind(c: Cell, cells: seq<Cell>, h: Label, cols: seq<Label>, l: Label)
    requires |cells| == |cols| && h != l
    ensures CellUnder([c] + cells, [h] + cols, l) == CellUnder(cells, cols, l)
  {
    assert ([h] + cols)[1..] == cols;
  }

  /** Column selection by label, e.g. `df.drop(columns, axis=1)` or `df[cols]`. */
  function SelectColumns(t: Table, keep: Label -> bool): (r: Table)
    ensures r.columns == Filter(t.columns, keep)
    ensures |r.rows| == |t.rows|
    ensures forall i :: 0 <= i < |t.rows| ==>
      r.rows[i] == Row(t.rows[i].key, SelectCells(t.rows[i].cells, t.columns, keep))
  {
    var rows := seq(|t.rows|, i requires 0 <= i < |t.rows| =>
      assert t.rows[i] in t.rows;
      Row(t.rows[i].key, SelectCells(t.rows[i].cells, t.columns, keep)));
    Frame(Filter(t.columns, keep), rows)
  }

  /** Selecting columns keeps every row's key and, under each kept label,
      the cell the row held there. */
  lemma SelectColumnsKeepsCells(t: Table, keep: Label -> bool)
    ensures forall i, l :: 0 <= i < |t.rows| && keep(l) ==>
      && SelectColumns(t, keep).rows[i].key == t.rows[i].key
      && CellUnder(SelectColumns(t, keep).rows[i].cells, SelectColumns(t, keep).columns, l)
         == CellUnder(t.rows[i].cells, t.columns, l)
  {
    var r := SelectColumns(t, keep);
    forall i, l | 0 <= i < |t.rows| && keep(l)
      ensures CellUnder(r.rows[i].cells, r.columns, l) == CellUnder(t.rows[i].cells, t.columns, l)
    {
      assert t.rows[i] in t.rows;
      SelectCellsUnder(t.rows[i].cells, t.columns, keep, l);
    }
  }

  /** A cell-wise rewrite that leaves labels, keys and shape alone. */
  function MapCells(t: Table, f: Cell -> Cell): (r: Table)
    ensures r.columns == t.columns && |r.rows| == |t.rows|
    ensures forall i :: 0 <= i < |t.rows| ==>
      && r.rows[i].key == t.rows[i].key
      && |r.rows[i].cells| == |t.rows[i].cells|
      && forall j :: 0 <= j < |t.rows[i].cells| ==> r.rows[i].cells[j] == f(t.rows[i].cells[j])
  {
    var rows := seq(|t.rows|, i requires 0 <= i < |t.rows| =>
      Row(t.rows[i].key, seq(|t.rows[i].cells|, j requires 0 <= j < |t.rows[i].cells| => f(t.rows[i].cells[j]))));
    assert forall r <- rows :: exists i :: 0 <= i < |t.rows| && r == rows[i];
    Frame(t.columns, rows)
  }

  /** Applying one stage to every table of the list. */
  function MapTables(ts: seq<Table>, f: Table -> Table): (r: seq<Table>)
    ensures |r| == |ts| && forall i :: 0 <= i < |ts| ==> r[i] == f(ts[i])
  {
    seq(|ts|, i requires 0 <= i < |ts| => f(ts[i]))
  }

  /** Applying a stage that may raise to every table; the first failure propagates. */
  function TryMapTables(ts: seq<Table>, f: Table -> Result<Table, Fault>): (r: Result<seq<Table>, Fault>)
    ensures r.Ok? <==> forall i :: 0 <= i < |ts| ==> f(ts[i]).Ok?
    ensures r.Ok? ==> |r.value| == |ts| && forall i :: 0 <= i < |ts| ==> r.value[i] == f(ts[i]).value
  {
    if ts == [] then Ok([])
    else
      match f(ts[0])
      case Err(e) => Err(e)
      case Ok(t) =>
        match TryMapTables(ts[1..], f)
        case Err(e) => Err(e)
        case Ok(rest) =>
          assert forall i :: 1 <= i < |ts| ==> ts[i] == ts[1..][i - 1];
          Ok([t] + rest)
  }

  /** The failure `TryMapTables` reports is that of the first table that fails. */
  lemma {:induction false} TryMapTablesFirstFault(ts: seq<Table>, f: Table -> Result<Table, Fault>, i: nat)
    requires i < |ts| && f(ts[i]).Err? && forall k :: 0 <= k < i ==> f(ts[k]).Ok?
    ensures TryMapTables(ts, f) == Err(f(ts[i]).error)
  {
    if i > 0 {
      assert forall k :: 0 <= k < i - 1 ==> ts[1..][k] == ts[k + 1];
      TryMapTablesFirstFault(ts[1..], f, i - 1);
    }
  }

  /** Selecting columns keeps a numeric table numeric. */
  lemma SelectColumnsNumeric(t: Table, keep: Label -> bool)
    ensures Numeric(t) ==> Numeric(SelectColumns(t, keep))
  {
    var r := SelectColumns(t, keep);
    if Numeric(t) {
      forall i | 0 <= i < |t.rows| ensures forall c <- r.rows[i].cells :: NumericCell(c) {
        assert t.rows[i] in t.rows;
        SelectCellsFrom(t.rows[i].cells, t.columns, keep);
      }
    }
  }

  /** Cells of a fully numeric table: `astype(float)` leaves only numbers and NaN. */
  predicate NumericCell(c: Cell) {
    c.Missing? || c.Num?
  }

  predicate Numeric(t: Table) {
    forall r <- t.rows :: forall c <- r.cells :: NumericCell(c)
  }
}

=== FILE: text.dfy ===
/** The handful of Python string operations the reader and the database
    helpers rely on: `in` between strings, `startswith`, `str(int)`,
    `str.zfill`, `str.replace("__", "_")` and the ordering `<` of `str`. */
module Text {

  /** `s.startswith(p)`. */
  predicate StartsWith(s: string, p: string) {
    |p| <= |s| && s[..|p|] == p
  }

  /** Python's `sub in s` for two strings; the empty string occurs everywhere. */
  predicate IsSubstring(sub: string, s: string)
    decreases |s|
  {
    StartsWith(s, sub) || (|s| > 0 && IsSubstring(sub, s[1..]))
  }

  /** An occurrence of `sub` inside a part of `s` is an occurrence in `s`. */
  lemma {:induction false} SubstringOfSuffix(sub: string, s: string, k: nat)
    requires k <= |s| && IsSubstring(sub, s[k..])
    ensures IsSubstring(sub, s)
    decreases k
  {
    if k > 0 {
      assert s[1..][k - 1..] == s[k..];
      SubstringOfSuffix(sub, s[1..], k - 1);
    }
  }

  lemma {:induction false} SubstringOfPrefix(sub: string, s: string, k: nat)
    requires k <= |s| && IsSubstring(sub, s[..k])
    ensures IsSubstring(sub, s)
    decreases k
  {
    if StartsWith(s[..k], sub) {
      assert s[..|sub|] == s[..k][..|sub|];
    } else {
      assert s[..k][1..] == s[1..][..k - 1];
      SubstringOfPrefix(sub, s[1..], k - 1);
    }
  }

  /** A text that lacks the first character of `sub` does not contain `sub`. */
  lemma {:induction false} MissingFirstCharNoSubstring(sub: string, s: string)
    requires |sub| > 0 && sub[0] !in s
    ensures !IsSubstring(sub, s)
    decreases |s|
  {
    if |s| > 0 {
      assert s[0] in s;
      assert |sub| <= |s| ==> s[..|sub|][0] == s[0];
      MissingFirstCharNoSubstring(sub, s[1..]);
    }
  }

  // ---------------------------------------------------------------- str(int)

  function DigitChar(d: nat): (c: char)
    requires d < 10
    ensures '0' <= c <= '9' && DigitValue(c) == d
  {
    ('0' as int + d) as char
  }

  predicate IsDigit(c: char) {
    '0' <= c <= '9'
  }

  function DigitValue(c: char): nat
    requires IsDigit(c)
  {
    (c as int - '0' as int) as nat
  }

  /** Decimal notation of a natural number, without leading zeros. */
  function NatToStr(n: nat): (r: string)
    ensures 1 <= |r|
    ensures forall i :: 0 <= i < |r| ==> IsDigit(r[i])
    ensures |r| == 1 <==> n < 10
  {
    if n < 10 then [DigitChar(n)] else NatToStr(n / 10) + [DigitChar(n % 10)]
  }

  /** The value a string of decimal digits denotes. */
  function DecimalValue(s: string): nat
    requires forall i :: 0 <= i < |s| ==> IsDigit(s[i])
  {
    if s == [] then 0 else 10 * DecimalValue(s[..|s| - 1]) + DigitValue(s[|s| - 1])
  }

  /** Reading back the digits `NatToStr` writes gives the number again. */
  lemma {:induction false} NatToStrRoundTrip(n: nat)
    ensures DecimalValue(NatToStr(n)) == n
  {
    if n >= 10 {
      var r := NatToStr(n);
      assert r[..|r| - 1] == NatToStr(n / 10);
      NatToStrRoundTrip(n / 10);
    }
  }

  /** Python's `str(i)` for an `int`. */
  function IntToStr(i: int): (r: string)
    ensures 1 <= |r|
    ensures i < 0 <==> r[0] == '-'
  {
    if i < 0 then "-" + NatToStr(-i) else NatToStr(i)
  }

  /** Different integers print differently. */
  lemma IntToStrInjective(a: int, b: int)
    requires IntToStr(a) == IntToStr(b)
    ensures a == b
  {
    IntToStrReadBack(a);
    IntToStrReadBack(b);
  }

  /** The digits of `str(i)`, after its sign, read back as `|i|`. */
  lemma IntToStrReadBack(i: int)
    ensures var r := IntToStr(i);
      && (i < 0 ==> r[0] == '-' && r[1..] == NatToStr(-i) && DecimalValue(r[1..]) == -i)
      && (i >= 0 ==> r[0] != '-' && DecimalValue(r) == i)
  {
    if i < 0 {
      NatToStrRoundTrip(-i);
      assert IntToStr(i)[1..] == NatToStr(-i);
    } else {
      NatToStrRoundTrip(i);
    }
  }

  function Zeros(n: nat): (r: string)
    ensures |r| == n && forall i :: 0 <= i < n ==> r[i] == '0'
  {
    if n == 0 then "" else "0" + Zeros(n - 1)
  }

  /** Python's `s.zfill(width)`: left-pads with '0' up to `width` characters,
      keeping a leading sign in front of the padding. */
  function ZFill(s: string, width: nat): (r: string)
    ensures |r| == if |s| >= width then |s| else width
    ensures |s| >= width ==> r == s
    ensures |s| < width && |s| > 0 && (s[0] == '+' || s[0] == '-') ==>
      && r[0] == s[0]
      && (forall i :: 1 <= i <= width - |s| ==> r[i] == '0')
      && r[width - |s| + 1..] == s[1..]
    ensures |s| < width && (|s| == 0 || (s[0] != '+' && s[0] != '-')) ==>
      && (forall i :: 0 <= i < width - |s| ==> r[i] == '0')
      && r[width - |s|..] == s
  {
    if |s| >= width then s
    else if |s| > 0 && (s[0] == '+' || s[0] == '-') then [s[0]] + Zeros(width - |s|) + s[1..]
    else Zeros(width - |s|) + s
  }

  // ------------------------------------------------ str.replace("__", "_")

  /** `s.replace("__", "_")`: one left-to-right pass over non-overlapping
      occurrences, so "___" becomes "__". */
  function CollapseDoubleUnderscores(s: string): (r: string)
    ensures |r| <= |s|
  {
    if |s| < 2 then s
    else if s[0] == '_' && s[1] == '_' then "_" + CollapseDoubleUnderscores(s[2..])
    else [s[0]] + CollapseDoubleUnderscores(s[1..])
  }

  /** A name part that `replace("__", "_")` passes through untouched and that
      cannot form "__" with an underscore written next to it. */
  predicate CleanPart(s: string) {
    !IsSubstring("__", s) && (|s| > 0 ==> s[0] != '_' && s[|s| - 1] != '_')
  }

  /** The pass copies a prefix without "__" that does not end in '_'. */
  lemma {:induction false} CollapseKeepsPrefix(a: string, b: string)
    requires !IsSubstring("__", a)
    requires |a| > 0 ==> a[|a| - 1] != '_'
    ensures CollapseDoubleUnderscores(a + b) == a + CollapseDoubleUnderscores(b)
  {
    if |a| > 0 {
      var s := a + b;
      assert s[1..] == a[1..] + b;
      if |a| >= 2 {
        assert a[..2] == [a[0], a[1]];
        assert !(a[0] == '_' && a[1] == '_');
        CollapseKeepsPrefix(a[1..], b);
        assert CollapseDoubleUnderscores(s) == [a[0]] + CollapseDoubleUnderscores(a[1..] + b);
        assert a == [a[0]] + a[1..];
        calc {
          CollapseDoubleUnderscores(s);
          [a[0]] + (a[1..] + CollapseDoubleUnderscores(b));
          ([a[0]] + a[1..]) + CollapseDoubleUnderscores(b);
        }
      } else {
        assert a == [a[0]] && a[0] != '_';
        assert s[1..] == b;
        if |s| >= 2 {
          assert CollapseDoubleUnderscores(s) == [a[0]] + CollapseDoubleUnderscores(b);
        } else {
          assert b == [] && s == a;
        }
      }
    } else {
      assert a + b == b;
    }
  }

  // ------------------------------------------------------------ str ordering

  /** Python's `<` on `str`: lexicographic by code point. */
  predicate StrLess(a: string, b: string) {
    if a == [] then b != []
    else if b == [] then false
    else if a[0] != b[0] then a[0] < b[0]
    else StrLess(a[1..], b[1..])
  }

  lemma {:induction false} StrLessIrreflexive(a: string)
    ensures !StrLess(a, a)
  {
    if a != [] {
      StrLessIrreflexive(a[1..]);
    }
  }

  lemma {:induction false} StrLessTotal(a: string, b: string)
    ensures a == b || StrLess(a, b) || StrLess(b, a)
  {
    if a != [] && b != [] && a[0] == b[0] {
      StrLessTotal(a[1..], b[1..]);
      if a[1..] == b[1..] {
        assert a == [a[0]] + a[1..] && b == [b[0]] + b[1..];
      }
    }
  }

  lemma {:induction false} StrLessAsymmetric(a: string, b: string)
    requires StrLess(a, b)
    ensures !StrLess(b, a)
  {
    if a != [] && b != [] && a[0] == b[0] {
      StrLessAsymmetric(a[1..], b[1..]);
    }
  }

  lemma {:induction false} StrLessTransitive(a: string, b: string, c: string)
    requires StrLess(a, b) && StrLess(b, c)
    ensures StrLess(a, c)
  {
    if a != [] && b != [] && c != [] && a[0] == b[0] && b[0] == c[0] {
      StrLessTransitive(a[1..], b[1..], c[1..]);
    }
  }
}

=== FILE: timestamps.dfy ===
/** `_build_timestamp` (dbc_influxdb/filetypereader.py): the two recipes that
    assemble a timestamp index from date and time columns.

    Timestamps are minutes since 0001-01-01 00:00 in the proleptic Gregorian
    calendar. pandas stores them as signed 64-bit counts of nanoseconds since
    1970-01-01, so dates run from 1677-09-21 to 2262-04-11; conversions out of
    that range raise `ValueError`, and the overflow-checked additions of
    datetimes and timedeltas raise `OverflowError` (pandas 2). */
module Timestamps {
  import opened Wrappers
  import opened Seqs
  import opened Text
  import opened Tables

  // --------------------------------------------------------------- calendar

  predicate Leap(y: int) {
    y % 4 == 0 && (y % 100 != 0 || y % 400 == 0)
  }

  function DaysInMonth(y: int, m: int): int
    requires 1 <= m <= 12
  {
    if m == 2 then (if Leap(y) then 29 else 28)
    else if m == 4 || m == 6 || m == 9 || m == 11 then 30
    else 31
  }

  predicate ValidDate(y: int, m: int, d: int) {
    1 <= y && 1 <= m <= 12 && 1 <= d <= DaysInMonth(y, m)
  }

  /** Days from 0001-01-01 to the first day of year `y`. */
  function DaysBeforeYear(y: int): int
    requires y >= 1
  {
    365 * (y - 1) + (y - 1) / 4 - (y - 1) / 100 + (y - 1) / 400
  }

  /** Days from the first of the year to the first of month `m`. */
  function DaysBeforeMonth(y: int, m: int): int
    requires 1 <= m <= 12
  {
    [0, 31, 59, 90, 120, 151, 181, 212, 243, 273, 304, 334][m - 1] + (if m > 2 && Leap(y) then 1 else 0)
  }

  function DayNumber(y: int, m: int, d: int): int
    requires ValidDate(y, m, d)
  {
    DaysBeforeYear(y) + DaysBeforeMonth(y, m) + d - 1
  }

  /** Each year is as long as the calendar says: the count of days before a
      year grows by 366 after a leap year and by 365 otherwise. */
  lemma YearLength(y: int)
    requires y >= 1
    ensures DaysBeforeYear(y + 1) == DaysBeforeYear(y) + (if Leap(y) then 366 else 365)
  {
    NextQuotient(y - 1, 4);
    NextQuotient(y - 1, 100);
    NextQuotient(y - 1, 400);
    if y % 100 == 0 {
      DivUnique(y, 4, 25 * (y / 100), 0);
    }
    if y % 400 == 0 {
      DivUnique(y, 100, 4 * (y / 400), 0);
    }
    var extra := (if y % 4 == 0 then 1 else 0) - (if y % 100 == 0 then 1 else 0) + (if y % 400 == 0 then 1 else 0);
    assert extra == (if Leap(y) then 1 else 0);
  }

  /** Stepping past a multiple of `d` raises the quotient by one. */
  lemma NextQuotient(k: int, d: int)
    requires k >= 0 && d > 0
    ensures (k + 1) / d == k / d + (if (k + 1) % d == 0 then 1 else 0)
  {
    var q, r := k / d, k % d;
    if r == d - 1 {
      DivUnique(k + 1, d, q + 1, 0);
    } else {
      DivUnique(k + 1, d, q, r + 1);
    }
  }

  /** Quotient and remainder are the only ones with `x == q * d + r`. */
  lemma DivUnique(x: int, d: int, q: int, r: int)
    requires d > 0 && x == q * d + r && 0 <= r < d
    ensures x / d == q && x % d == r
  {
    var q' := x / d;
    assert (q' - q) * d == r - x % d;
    MultipleSign(q' - q, d);
  }

  lemma MultipleSign(a: int, d: int)
    requires d > 0
    ensures a >= 1 ==> a * d >= d
    ensures a <= -1 ==> a * d <= -d
  {
    if a >= 1 {
      assert a * d == (a - 1) * d + d;
      assert (a - 1) * d >= 0;
    } else if a <= -1 {
      assert a * d == (a + 1) * d - d;
      assert (a + 1) * d <= 0;
    }
  }

  /** December ends where the next year begins. */
  lemma DecemberEndsTheYear(y: int)
    requires y >= 1
    ensures DayNumber(y, 12, 31) + 1 == DayNumber(y + 1, 1, 1)
  {
    YearLength(y);
  }

  /** Days before a later year grow by at least 365 a year. */
  lemma {:induction false} DaysBeforeYearGrows(a: int, b: int)
    requires 1 <= a <= b
    ensures DaysBeforeYear(a) + 365 * (b - a) <= DaysBeforeYear(b)
    decreases b - a
  {
    if a < b {
      DaysBeforeYearGrows(a, b - 1);
      YearLength(b - 1);
    }
  }

  /** A date lies within its year. */
  lemma DayWithinYear(y: int, m: int, d: int)
    requires ValidDate(y, m, d)
    ensures DaysBeforeMonth(y, m) + d <= if Leap(y) then 366 else 365
  {
  }

  /** Dates from 1678-01-01 to 2262-04-10 lie between those two day numbers. */
  lemma DayNumberBounds(y: int, m: int, d: int)
    requires ValidDate(y, m, d) && 1678 <= y
    requires y < 2262 || (y == 2262 && (m < 4 || (m == 4 && d <= 10)))
    ensures 612512 <= DayNumber(y, m, d) <= 825912
  {
    DaysBeforeYearGrows(1678, y);
    assert DaysBeforeYear(1678) == 612512;
    if y < 2262 {
      DayWithinYear(y, m, d);
      YearLength(y);
      DaysBeforeYearGrows(y + 1, 2262);
    }
    assert DaysBeforeYear(2262) == 825813;
  }

  // ------------------------------------------------- int64 nanoseconds

  const I64Max: int := 0x7FFF_FFFF_FFFF_FFFF
  const NsPerMinute: int := 60_000_000_000
  const NsPerHour: int := 3_600_000_000_000
  const NsPerDay: int := 86_400_000_000_000

  /** The day number of 1970-01-01, pandas' epoch. */
  const EpochDay: int := 719162

  lemma EpochDayIsNewYear1970()
    ensures DayNumber(1970, 1, 1) == EpochDay
  {
  }

  /** pandas' nanosecond count of a timestamp given in minutes. */
  function Ns(minutes: int): int {
    (minutes - EpochDay * 1440) * NsPerMinute
  }

  /** A nanosecond count pandas can hold: a signed 64-bit value other than
      the smallest, which stands for `NaT`. */
  predicate FitsNs(v: int) {
    -I64Max <= v <= I64Max
  }

  /** A date pandas can hold at midnight (`Timestamp.min` is 1677-09-21
      00:12:43, `Timestamp.max` 2262-04-11 23:47:16). */
  predicate InPandasRange(y: int, m: int, d: int) {
    && (y > 1677 || (y == 1677 && (m > 9 || (m == 9 && d >= 22))))
    && (y < 2262 || (y == 2262 && (m < 4 || (m == 4 && d <= 11))))
  }

  // ------------------------------------------- YEAR0+MONTH1+DAY2+HOUR3+MINUTE4

  /** `to_datetime(v, format="%Y%m%d")` on the number pandas assembles as
      `YEAR * 10000 + MONTH * 100 + DAY`: the day number, if its digits spell
      a real date within pandas' range. */
  function AssembledDate(v: int): Option<int> {
    var y, m, d := v / 10000, (v / 100) % 100, v % 100;
    if ValidDate(y, m, d) && InPandasRange(y, m, d) then Some(DayNumber(y, m, d)) else None
  }

  /** The fault of a failing step of the five-part assembly: the timedelta
      conversions raise `ValueError`, the checked sums `OverflowError`. */
  function StepFault(k: nat): Fault {
    if k == 3 || k == 5 then OverflowError else ValueError
  }

  /** The timestamp of one row, or the first step of pandas' assembly that
      fails for it: 1 the date, 2 HOUR as a timedelta, 3 the date plus the
      hours, 4 MINUTE as a timedelta, 5 the full sum. */
  function FivePartStamp(year: int, month: int, day: int, hour: int, minute: int): (r: Result<int, nat>)
    ensures r.Err? ==> 1 <= r.error <= 5
    ensures r == Err(1) <==> AssembledDate(year * 10000 + month * 100 + day).None?
    ensures r.Ok? ==> && AssembledDate(year * 10000 + month * 100 + day).Some?
                      && r.value == AssembledDate(year * 10000 + month * 100 + day).value * 1440 + hour * 60 + minute
                      && FitsNs(Ns(r.value))
  {
    match AssembledDate(year * 10000 + month * 100 + day)
    case None => Err(1)
    case Some(n) =>
      if !FitsNs(hour * NsPerHour) then Err(2)
      else if !FitsNs(Ns(n * 1440 + hour * 60)) then Err(3)
      else if !FitsNs(minute * NsPerMinute) then Err(4)
      else if !FitsNs(Ns(n * 1440 + hour * 60 + minute)) then Err(5)
      else Ok(n * 1440 + hour * 60 + minute)
  }

  /** A real date from 1678-01-01 to 2262-04-10 with a clock time gives its
      day number plus the hours and minutes: no step fails. */
  lemma FivePartStampOfDate(year: int, month: int, day: int, hour: int, minute: int)
    requires ValidDate(year, month, day) && 1678 <= year
    requires year < 2262 || (year == 2262 && (month < 4 || (month == 4 && day <= 10)))
    requires 0 <= hour <= 23 && 0 <= minute <= 59
    ensures FivePartStamp(year, month, day, hour, minute) == Ok(DayNumber(year, month, day) * 1440 + hour * 60 + minute)
  {
    var v := year * 10000 + month * 100 + day;
    DivUnique(v, 10000, year, month * 100 + day);
    DivUnique(v, 100, year * 100 + month, day);
    DivUnique(year * 100 + month, 100, year, month);
    DayNumberBounds(year, month, day);
  }

  /** On the last day pandas can hold, 24 hours past midnight overflow the
      sum of the date and the hours. */
  lemma FivePartLastDayOverflows()
    ensures FivePartStamp(2262, 4, 11, 24, 0) == Err(3)
  {
    assert 2262 * 10000 + 4 * 100 + 11 == 22620411;
    assert AssembledDate(22620411) == Some(825913);
  }

  /** A month past 12 has no date: the recipe raises instead of dropping the row. */
  lemma FivePartImpossibleMonth(year: int, month: int, day: int, hour: int, minute: int)
    requires 13 <= month <= 99 && 1 <= day <= 31
    ensures FivePartStamp(year, month, day, hour, minute) == Err(1)
  {
    var v := year * 10000 + month * 100 + day;
    assert v == (year * 100 + month) * 100 + day;
    assert v / 100 == year * 100 + month;
    assert (v / 100) % 100 == month;
    assert !ValidDate(v / 10000, (v / 100) % 100, v % 100);
  }

  /** The parts are added up before parsing, so month 0 and day 115 of 2023
      read as 15 January 2023. */
  lemma FivePartDigitsAreReparsed()
    ensures FivePartStamp(2023, 0, 115, 0, 0) == Ok(DayNumber(2023, 1, 15) * 1440)
  {
    assert (2023 * 10000 + 0 * 100 + 115) == 20230115;
    assert AssembledDate(20230115) == Some(DayNumber(2023, 1, 15));
  }

  // ------------------------------------------------------------ %H%M parse

  /** One way a pattern of `strptime` can match: the value read and its width. */
  datatype Piece = Piece(value: nat, width: nat)

  /** `%H` is `2[0-3]|[0-1]\d|\d`; the alternatives are tried in this order. */
  function HourAlternatives(s: string): (r: seq<Piece>)
    ensures forall p <- r :: 1 <= p.width <= 2 && p.width <= |s|
  {
    (if |s| >= 2 && s[0] == '2' && '0' <= s[1] <= '3' then [Piece(20 + DigitValue(s[1]), 2)] else [])
    + (if |s| >= 2 && (s[0] == '0' || s[0] == '1') && IsDigit(s[1])
       then [Piece(10 * DigitValue(s[0]) + DigitValue(s[1]), 2)] else [])
    + (if |s| >= 1 && IsDigit(s[0]) then [Piece(DigitValue(s[0]), 1)] else [])
  }

  /** `%M` is `[0-5]\d|\d`. */
  function MinuteAlternatives(s: string): (r: seq<Piece>)
    ensures forall p <- r :: 1 <= p.width <= 2 && p.width <= |s|
  {
    (if |s| >= 2 && '0' <= s[0] <= '5' && IsDigit(s[1])
     then [Piece(10 * DigitValue(s[0]) + DigitValue(s[1]), 2)] else [])
    + (if |s| >= 1 && IsDigit(s[0]) then [Piece(DigitValue(s[0]), 1)] else [])
  }

  /** The regex match `%H%M` finds: the first hour alternative after which a
      minute alternative matches, with the first such minute alternative. */
  function FirstMatch(s: string, hours: seq<Piece>): (r: Option<(nat, nat, nat)>)
    requires forall p <- hours :: p.width <= 2 && p.width <= |s|
    ensures r.Some? ==> r.value.2 <= |s| && r.value.2 <= 4
  {
    if hours == [] then None
    else
      var ms := MinuteAlternatives(s[hours[0].width..]);
      if ms != [] then Some((hours[0].value, ms[0].value, hours[0].width + ms[0].width))
      else FirstMatch(s, hours[1..])
  }

  /** `strptime(s, "%H%M")`: the match must use up the whole text
      ("unconverted data remains" otherwise). */
  function ParseHourMinute(s: string): Option<(nat, nat)> {
    match FirstMatch(s, HourAlternatives(s))
    case None => None
    case Some((h, m, end)) => if end == |s| then Some((h, m)) else None
  }

  /** The clock time TIME stands for: hour TIME / 100 and minute TIME % 100
      (930 is 09:30) when TIME lies in 0..9999 with an hour up to 23 and a
      minute up to 59; any other TIME (2400, 960, a negative one) has none.
      `TimeOfDayIsParsed` shows this is what the source's parse gives. */
  function TimeOfDay(time: int): Option<(nat, nat)> {
    if 0 <= time <= 9999 && time / 100 <= 23 && time % 100 <= 59 then Some((time / 100, time % 100)) else None
  }

  /** Four digits d0 d1 d2 d3 read as hour d0d1 and minute d2d3 exactly when
      the hour is at most 23 and the minute at most 59. */
  lemma ParseFourDigits(s: string)
    requires |s| == 4 && forall i :: 0 <= i < 4 ==> IsDigit(s[i])
    ensures var h, m := 10 * DigitValue(s[0]) + DigitValue(s[1]), 10 * DigitValue(s[2]) + DigitValue(s[3]);
      ParseHourMinute(s) == if h <= 23 && m <= 59 then Some((h, m)) else None
  {
    var hs := HourAlternatives(s);
    if (s[0] == '2' && s[1] <= '3') || s[0] == '0' || s[0] == '1' {
      assert hs[0].width == 2;
      assert s[2..][0] == s[2] && s[2..][1] == s[3];
    } else {
      assert hs == [Piece(DigitValue(s[0]), 1)];
      assert s[1..][0] == s[1] && s[1..][1] == s[2];
    }
  }

  /** `zfill(4)` of the decimal text of 0..9999 is its four digits. */
  lemma FourDigitText(t: int)
    requires 0 <= t <= 9999
    ensures var s := ZFill(IntToStr(t), 4);
      && |s| == 4 && (forall i :: 0 <= i < 4 ==> IsDigit(s[i]))
      && 10 * DigitValue(s[0]) + DigitValue(s[1]) == t / 100
      && 10 * DigitValue(s[2]) + DigitValue(s[3]) == t % 100
  {
    FourDigitChars(t);
    DigitsOfFour(t);
  }

  /** The four characters are the thousands, hundreds, tens and units digits. */
  lemma FourDigitChars(t: int)
    requires 0 <= t <= 9999
    ensures ZFill(IntToStr(t), 4) == FourDigits(t)
  {
    if t < 10 {
      OneDigitText(t);
    } else if t < 100 {
      TwoDigitText(t);
    } else if t < 1000 {
      ThreeDigitText(t);
    } else {
      FourDigitsText(t);
    }
  }

  /** The thousands, hundreds, tens and units digits of a number below 10000. */
  function FourDigits(t: int): (r: string)
    requires 0 <= t <= 9999
    ensures |r| == 4
  {
    [DigitChar(t / 1000), DigitChar((t / 100) % 10), DigitChar((t / 10) % 10), DigitChar(t % 10)]
  }

  lemma OneDigitText(t: int)
    requires 0 <= t < 10
    ensures ZFill(IntToStr(t), 4) == FourDigits(t)
  {
    assert t / 1000 == 0 && (t / 100) % 10 == 0 && (t / 10) % 10 == 0 && t % 10 == t;
    assert DigitChar(0) == '0';
    assert IntToStr(t) == [DigitChar(t)];
    PaddedDigits(IntToStr(t), 3);
  }

  lemma TwoDigitText(t: int)
    requires 10 <= t < 100
    ensures ZFill(IntToStr(t), 4) == FourDigits(t)
  {
    assert t / 1000 == 0 && (t / 100) % 10 == 0 && (t / 10) % 10 == t / 10;
    assert DigitChar(0) == '0';
    assert NatToStr(t / 10) == [DigitChar(t / 10)];
    assert IntToStr(t) == [DigitChar(t / 10), DigitChar(t % 10)];
    PaddedDigits(IntToStr(t), 2);
  }

  lemma ThreeDigitText(t: int)
    requires 100 <= t < 1000
    ensures ZFill(IntToStr(t), 4) == FourDigits(t)
  {
    assert t / 1000 == 0 && (t / 100) % 10 == t / 100 && (t / 10) / 10 == t / 100;
    assert DigitChar(0) == '0';
    assert NatToStr(t / 100) == [DigitChar(t / 100)];
    assert NatToStr(t / 10) == [DigitChar(t / 100), DigitChar((t / 10) % 10)];
    assert IntToStr(t) == [DigitChar(t / 100), DigitChar((t / 10) % 10), DigitChar(t % 10)];
    PaddedDigits(IntToStr(t), 1);
  }

  lemma FourDigitsText(t: int)
    requires 1000 <= t <= 9999
    ensures ZFill(IntToStr(t), 4) == FourDigits(t)
  {
    DigitsOfFour(t);
    assert NatToStr(t / 1000) == [DigitChar(t / 1000)];
    assert NatToStr(t / 100) == [DigitChar(t / 1000), DigitChar((t / 100) % 10)];
    assert NatToStr(t / 10) == [DigitChar(t / 1000), DigitChar((t / 100) % 10), DigitChar((t / 10) % 10)];
  }

  /** Unsigned text `k` characters short of four is padded by `k` zeros. */
  lemma PaddedDigits(s: string, k: nat)
    requires |s| + k == 4 && 1 <= k <= 3 && s[0] != '+' && s[0] != '-'
    ensures ZFill(s, 4) == seq(k, _ => '0') + s
  {
  }

  /** Quotients and remainders of a number below 10000 by 10, 100 and 1000. */
  lemma DigitsOfFour(t: int)
    requires 0 <= t <= 9999
    ensures (t / 10) / 10 == t / 100 && (t / 100) / 10 == t / 1000
    ensures t / 1000 < 10
    ensures 10 * (t / 1000) + (t / 100) % 10 == t / 100
    ensures 10 * ((t / 10) % 10) + t % 10 == t % 100
  {
    var q, r := t / 100, t % 100;
    var a, b := q / 10, q % 10;
    var c, d := r / 10, r % 10;
    DivUnique(t, 1000, a, 100 * b + r);
    DivUnique(t, 10, 10 * q + c, d);
    DivUnique(10 * q + c, 10, q, c);
  }

  /** More than four digits never match in full. */
  lemma LongTextNoTime(s: string)
    requires |s| > 4
    ensures ParseHourMinute(s).None?
  {
  }

  /** The text of a number of five digits or more is longer than four characters. */
  lemma {:induction false} LongNumberText(n: nat)
    requires n >= 10000
    ensures |NatToStr(n)| > 4
  {
    assert NatToStr(n) == NatToStr(n / 10) + [DigitChar(n % 10)];
    assert NatToStr(n / 10) == NatToStr(n / 100) + [DigitChar((n / 10) % 10)];
    assert NatToStr(n / 100) == NatToStr(n / 1000) + [DigitChar((n / 100) % 10)];
    assert NatToStr(n / 1000) == NatToStr(n / 10000) + [DigitChar((n / 1000) % 10)];
  }

  /** `TIME.astype(int).astype(str).str.zfill(4)` parsed with `%H%M` gives
      exactly the clock time TIME stands for. */
  lemma {:induction false} TimeOfDayIsParsed(time: int)
    ensures ParseHourMinute(ZFill(IntToStr(time), 4)) == TimeOfDay(time)
  {
    var s := ZFill(IntToStr(time), 4);
    if time < 0 {
      assert s[0] == '-';
      assert HourAlternatives(s) == [];
    } else if time <= 9999 {
      FourDigitText(time);
      ParseFourDigits(s);
    } else {
      LongNumberText(time);
      LongTextNoTime(s);
    }
  }

  // ------------------------------------------------------ YEAR+DOY+TIME

  /** `to_datetime(YEAR, format='%Y', errors='coerce')`: 1 January of a year
      whose start pandas can represent, `NaT` otherwise. */
  function YearStart(year: int): (r: Option<int>)
    ensures r.Some? <==> 1678 <= year <= 2262
  {
    if 1678 <= year <= 2262 then Some(DayNumber(year, 1, 1)) else None
  }

  /** The timestamp of one row as pandas computes it, column by column: DOY
      days as a timedelta (`ValueError` out of range), minus one day, then
      the start of YEAR, the hours and the minutes of TIME added in turn,
      each sum overflow-checked (`OverflowError`). The row is `NaT` (None)
      when the year or the time is unusable; a `NaT` operand is not checked. */
  function DoyStamp(year: int, doy: int, time: int): (r: Result<Option<int>, Fault>)
    ensures r == Err(ValueError) <==> !FitsNs(doy * NsPerDay)
    ensures r.Err? ==> r.error == ValueError || r.error == OverflowError
    ensures r.Ok? ==> (r.value.Some? <==> 1678 <= year <= 2262 && TimeOfDay(time).Some?)
    ensures r.Ok? && r.value.Some? ==> FitsNs(Ns(r.value.value))
  {
    if !FitsNs(doy * NsPerDay) then Err(ValueError)
    else if !FitsNs((doy - 1) * NsPerDay) then Err(OverflowError)
    else
      match YearStart(year)
      case None => Ok(None)
      case Some(start) =>
        var day := (start + doy - 1) * 1440;
        if !FitsNs(Ns(day)) then Err(OverflowError)
        else
          match TimeOfDay(time)
          case None => Ok(None)
          case Some((h, m)) =>
            if !FitsNs(Ns(day + h * 60)) then Err(OverflowError)
            else if !FitsNs(Ns(day + h * 60 + m)) then Err(OverflowError)
            else Ok(Some(day + h * 60 + m))
  }

  /** In the years 1678 to 2261, DOY 1 to 366 and a valid TIME give the
      start of the year plus DOY - 1 whole days and the clock time of TIME. */
  lemma DoyStampValue(year: int, doy: int, time: int)
    requires 1678 <= year <= 2261 && 1 <= doy <= 366
    requires 0 <= time <= 9999 && time / 100 <= 23 && time % 100 <= 59
    ensures DoyStamp(year, doy, time) == Ok(Some((DayNumber(year, 1, 1) + doy - 1) * 1440 + (time / 100) * 60 + time % 100))
  {
    YearStartBounds(year);
    var start := DayNumber(year, 1, 1);
    DoyStepsFit(start, doy, time / 100, time % 100);
  }

  /** The years 1678 to 2261 start between those two day numbers. */
  lemma YearStartBounds(year: int)
    requires 1678 <= year <= 2261
    ensures YearStart(year) == Some(DayNumber(year, 1, 1))
    ensures 612512 <= DayNumber(year, 1, 1) <= 825448
  {
    DaysBeforeYearGrows(1678, year);
    DaysBeforeYearGrows(year, 2261);
    assert DaysBeforeYear(1678) == 612512 && DaysBeforeYear(2261) == 825448;
  }

  /** Within those years no step of the DOY computation leaves the range. */
  lemma DoyStepsFit(start: int, doy: int, h: int, m: int)
    requires 612512 <= start <= 825448 && 1 <= doy <= 366 && 0 <= h <= 23 && 0 <= m <= 59
    ensures FitsNs(doy * NsPerDay) && FitsNs((doy - 1) * NsPerDay)
    ensures var day := (start + doy - 1) * 1440;
      FitsNs(Ns(day)) && FitsNs(Ns(day + h * 60)) && FitsNs(Ns(day + h * 60 + m))
  {
  }

  /** Day 200 of 2262 lies past the last day pandas can hold: the sum of the
      year start and the days overflows. */
  lemma DoyPastLastDayOverflows()
    ensures DoyStamp(2262, 200, 0) == Err(OverflowError)
  {
    assert YearStart(2262) == Some(825813);
  }

  /** A DOY of more than 106751 days is no timedelta at all. */
  lemma DoyTooLargeRaises()
    ensures DoyStamp(2000, 106752, 0) == Err(ValueError)
  {
  }

  // ---------------------------------------------------------------- tables

  /** `df[name]` for each name in turn; the first absent one raises `KeyError`. */
  function LookupAll(t: Table, names: seq<string>): (r: Result<seq<nat>, Fault>)
    ensures r.Ok? <==> forall n <- names :: Name(n) in t.columns
    ensures r.Ok? ==> |r.value| == |names|
    ensures r.Ok? ==> forall k :: 0 <= k < |names| ==> r.value[k] < |t.columns| && t.columns[r.value[k]] == Name(names[k])
    ensures r.Err? ==> r.error.KeyError? && r.error.key in names && Name(r.error.key) !in t.columns
  {
    if names == [] then Ok([])
    else
      match Lookup(t, names[0])
      case Err(e) => Err(e)
      case Ok(j) =>
        match LookupAll(t, names[1..])
        case Err(e) =>
          assert e.key in names;
          Err(e)
        case Ok(rest) =>
          assert forall n <- names :: n == names[0] || n in names[1..];
          Ok([j] + rest)
  }

  /** The number in a cell of a numeric table (0 stands in for a missing one). */
  function NumberIn(row: Row, j: nat): int {
    if j < |row.cells| && row.cells[j].Num? then row.cells[j].n else 0
  }

  /** The row has a value in each of the given columns. */
  predicate Complete(row: Row, idx: seq<nat>) {
    forall k :: 0 <= k < |idx| ==> idx[k] < |row.cells| && row.cells[idx[k]] != Missing
  }

  /** The rows `kept` of `t`, re-indexed by their timestamps. */
  function Restamped(t: Table, kept: seq<Row>, stamps: seq<int>): (r: Table)
    requires forall row <- kept :: row in t.rows
    requires |stamps| == |kept|
    ensures r.columns == t.columns && |r.rows| == |kept|
    ensures forall i :: 0 <= i < |kept| ==> r.rows[i] == Row(At(stamps[i]), kept[i].cells)
    ensures Numeric(t) ==> Numeric(r)
  {
    var rows := seq(|kept|, i requires 0 <= i < |kept| => Row(At(stamps[i]), kept[i].cells));
    assert forall i :: 0 <= i < |kept| ==> kept[i] in t.rows;
    Frame(t.columns, rows)
  }

  /** A label that neither `names` nor `TIMESTAMP` (which `set_index` moves
      into the index) takes away. */
  predicate Survives(l: Label, names: seq<string>) {
    !(l.Name? && (l.name in names || l.name == "TIMESTAMP"))
  }

  /** `df.drop(names, axis=1)`, together with the `TIMESTAMP` column. */
  function WithoutColumns(t: Table, names: seq<string>): (r: Table)
    ensures r.columns == Filter(t.columns, (l: Label) => Survives(l, names))
    ensures forall l :: l in r.columns <==> l in t.columns && Survives(l, names)
    ensures Keys(r.rows) == Keys(t.rows)
    ensures Numeric(t) ==> Numeric(r)
  {
    var r := SelectColumns(t, (l: Label) => Survives(l, names));
    assert Keys(r.rows) == Keys(t.rows);
    SelectColumnsNumeric(t, (l: Label) => Survives(l, names));
    r
  }

  /** Every row keeps, under each label that survives, the cell it held. */
  lemma WithoutColumnsKeepsCells(t: Table, names: seq<string>)
    ensures forall i, l :: 0 <= i < |t.rows| && Survives(l, names) ==>
      CellUnder(WithoutColumns(t, names).rows[i].cells, WithoutColumns(t, names).columns, l)
      == CellUnder(t.rows[i].cells, t.columns, l)
  {
    SelectColumnsKeepsCells(t, (l: Label) => Survives(l, names));
  }

  const FivePartRecipe: string := "YEAR0+MONTH1+DAY2+HOUR3+MINUTE4"
  const DoyRecipe: string := "YEAR+DOY+TIME"
  const FiveParts: seq<string> := ["YEAR", "MONTH", "DAY", "HOUR", "MINUTE"]
  const DoyParts: seq<string> := ["YEAR", "DOY", "TIME"]
  const DoyHelpers: seq<string> := ["_basedate", "_doy_timedelta", "_hours", "_minutes", "_time", "_time_str", "YEAR", "DOY", "TIME"]

  function FivePartStampOf(row: Row, idx: seq<nat>): Result<int, nat>
    requires |idx| == 5
  {
    FivePartStamp(NumberIn(row, idx[0]), NumberIn(row, idx[1]), NumberIn(row, idx[2]),
                  NumberIn(row, idx[3]), NumberIn(row, idx[4]))
  }

  /** Every row assembles into a timestamp. */
  predicate AllAssemble(rows: seq<Row>, idx: seq<nat>)
    requires |idx| == 5
  {
    forall row <- rows :: FivePartStampOf(row, idx).Ok?
  }

  /** The earliest step at which some row fails, 0 when every row
      assembles: pandas runs each step on the whole column before the next. */
  function EarliestFailure(rows: seq<Row>, idx: seq<nat>): (k: nat)
    requires |idx| == 5
    ensures k <= 5
    ensures k == 0 <==> AllAssemble(rows, idx)
    ensures k != 0 ==> exists row <- rows :: FivePartStampOf(row, idx) == Err(k)
    ensures forall row <- rows :: FivePartStampOf(row, idx).Err? ==> 0 < k <= FivePartStampOf(row, idx).error
  {
    if rows == [] then 0
    else
      assert forall row <- rows :: row == rows[0] || row in rows[1..];
      var rest := EarliestFailure(rows[1..], idx);
      match FivePartStampOf(rows[0], idx)
      case Ok(_) => rest
      case Err(s) => if rest == 0 || s < rest then s else rest
  }

  /** The rows with all five parts, in their order. */
  function CompleteRows(rows: seq<Row>, idx: seq<nat>): (r: seq<Row>)
    ensures forall row :: row in r <==> row in rows && Complete(row, idx)
  {
    Filter(rows, (row: Row) => Complete(row, idx))
  }

  /** Dropping incomplete rows keeps each complete row as often as it occurs. */
  lemma CompleteRowsCounts(rows: seq<Row>, idx: seq<nat>)
    ensures forall row :: multiset(CompleteRows(rows, idx))[row] == if Complete(row, idx) then multiset(rows)[row] else 0
  {
    FilterCounts(rows, (row: Row) => Complete(row, idx));
  }

  /** The five-part recipe: rows missing a part are dropped, then every
      remaining row must assemble (there is no coercion), else the earliest
      failing step raises; see `FivePartTable` for the table it builds. */
  function BuildFivePart(t: Table): (r: Result<Table, Fault>)
    ensures r.Ok? <==>
      && (forall n <- FiveParts :: Name(n) in t.columns)
      && AllAssemble(CompleteRows(t.rows, LookupAll(t, FiveParts).value), LookupAll(t, FiveParts).value)
    ensures r.Err? && (forall n <- FiveParts :: Name(n) in t.columns) ==>
      var idx := LookupAll(t, FiveParts).value;
      r.error == StepFault(EarliestFailure(CompleteRows(t.rows, idx), idx))
    ensures r.Ok? ==> r.value == FivePartTable(t, LookupAll(t, FiveParts).value)
  {
    var idx :- LookupAll(t, FiveParts);
    var k := EarliestFailure(CompleteRows(t.rows, idx), idx);
    if k != 0 then Err(StepFault(k)) else Ok(FivePartTable(t, idx))
  }

  /** The table of the five-part recipe: the complete rows, in order, each
      keyed by its timestamp, without the five part columns. */
  function FivePartTable(t: Table, idx: seq<nat>): (r: Table)
    requires |idx| == 5 && AllAssemble(CompleteRows(t.rows, idx), idx)
    ensures forall l :: l in r.columns <==> l in t.columns && Survives(l, FiveParts)
    ensures var kept := CompleteRows(t.rows, idx);
      && |r.rows| == |kept|
      && forall i :: 0 <= i < |kept| ==> r.rows[i].key == At(FivePartStampOf(kept[i], idx).value)
    ensures Numeric(t) ==> Numeric(r)
  {
    var kept := CompleteRows(t.rows, idx);
    WithoutColumns(Restamped(t, kept, FivePartStamps(kept, idx)), FiveParts)
  }

  /** The five-part table keeps the other columns in their order, and each
      kept row its cells under them. */
  lemma FivePartTableKeepsCells(t: Table, idx: seq<nat>)
    requires |idx| == 5 && AllAssemble(CompleteRows(t.rows, idx), idx)
    ensures var r := FivePartTable(t, idx); var kept := CompleteRows(t.rows, idx);
      && r.columns == Filter(t.columns, (l: Label) => Survives(l, FiveParts))
      && (forall i :: 0 <= i < |kept| ==> kept[i] in t.rows)
      && forall i, l :: 0 <= i < |kept| && Survives(l, FiveParts) ==>
           CellUnder(r.rows[i].cells, r.columns, l) == CellUnder(kept[i].cells, t.columns, l)
  {
    var kept := CompleteRows(t.rows, idx);
    WithoutColumnsKeepsCells(Restamped(t, kept, FivePartStamps(kept, idx)), FiveParts);
    assert forall i :: 0 <= i < |kept| ==> kept[i] in kept;
  }

  /** The timestamps of rows that all have one. */
  function FivePartStamps(rows: seq<Row>, idx: seq<nat>): (r: seq<int>)
    requires |idx| == 5 && AllAssemble(rows, idx)
    ensures |r| == |rows| && forall i :: 0 <= i < |rows| ==> FivePartStampOf(rows[i], idx) == Ok(r[i])
  {
    seq(|rows|, i requires 0 <= i < |rows| => assert rows[i] in rows; FivePartStampOf(rows[i], idx).value)
  }

  function DoyStampOf(row: Row, idx: seq<nat>): Result<Option<int>, Fault>
    requires |idx| == 3
  {
    DoyStamp(NumberIn(row, idx[0]), NumberIn(row, idx[1]), NumberIn(row, idx[2]))
  }

  /** YEAR, DOY and TIME are present and DOY is not 0. */
  predicate DoyUsable(row: Row, idx: seq<nat>)
    requires |idx| == 3
  {
    Complete(row, idx) && row.cells[idx[1]] != Num(0)
  }

  /** Some usable row makes the computation raise `f`. */
  predicate DoyRaises(rows: seq<Row>, idx: seq<nat>, f: Fault)
    requires |idx| == 3
  {
    exists row <- rows :: DoyUsable(row, idx) && DoyStampOf(row, idx) == Err(f)
  }

  /** A usable row with a timestamp. */
  predicate DoyDated(row: Row, idx: seq<nat>)
    requires |idx| == 3
  {
    DoyUsable(row, idx) && DoyStampOf(row, idx).Ok? && DoyStampOf(row, idx).value.Some?
  }

  /** The rows that survive the DOY recipe, in their order. */
  function DoyRows(rows: seq<Row>, idx: seq<nat>): (r: seq<Row>)
    requires |idx| == 3
    ensures forall row :: row in r <==> row in rows && DoyDated(row, idx)
    ensures forall i :: 0 <= i < |r| ==> DoyDated(r[i], idx)
  {
    Filter(rows, (row: Row) => DoyDated(row, idx))
  }

  /** The DOY recipe keeps each dated row as often as it occurs. */
  lemma DoyRowsCounts(rows: seq<Row>, idx: seq<nat>)
    requires |idx| == 3
    ensures forall row :: multiset(DoyRows(rows, idx))[row] == if DoyDated(row, idx) then multiset(rows)[row] else 0
  {
    FilterCounts(rows, (row: Row) => DoyDated(row, idx));
  }

  /** The YEAR+DOY+TIME recipe: rows with a missing part or DOY 0 are
      dropped; a DOY that is no timedelta raises `ValueError`, an overflowing
      sum `OverflowError`; see `DoyTable` for the table it builds. */
  function BuildDoy(t: Table): (r: Result<Table, Fault>)
    ensures r.Ok? <==> && (forall n <- DoyParts :: Name(n) in t.columns)
                       && DoyComputes(t.rows, LookupAll(t, DoyParts).value)
    ensures r.Err? && (forall n <- DoyParts :: Name(n) in t.columns) ==>
      var idx := LookupAll(t, DoyParts).value;
      && (r.error == ValueError || r.error == OverflowError)
      && (r.error == ValueError <==> DoyRaises(t.rows, idx, ValueError))
    ensures r.Ok? ==> r.value == DoyTable(t, LookupAll(t, DoyParts).value)
  {
    var idx :- LookupAll(t, DoyParts);
    DoyFaults(t.rows, idx);
    if DoyRaises(t.rows, idx, ValueError) then Err(ValueError)
    else if DoyRaises(t.rows, idx, OverflowError) then Err(OverflowError)
    else Ok(DoyTable(t, idx))
  }

  /** No usable row makes the computation raise. */
  predicate DoyComputes(rows: seq<Row>, idx: seq<nat>)
    requires |idx| == 3
  {
    forall row <- rows :: DoyUsable(row, idx) ==> DoyStampOf(row, idx).Ok?
  }

  /** A row raises `ValueError` or `OverflowError`, or none does. */
  lemma DoyFaults(rows: seq<Row>, idx: seq<nat>)
    requires |idx| == 3
    ensures DoyComputes(rows, idx) <==> !DoyRaises(rows, idx, ValueError) && !DoyRaises(rows, idx, OverflowError)
  {
    forall row <- rows | DoyUsable(row, idx) && DoyStampOf(row, idx).Err?
      ensures DoyStampOf(row, idx) == Err(ValueError) || DoyStampOf(row, idx) == Err(OverflowError)
    {
    }
  }

  /** The table of the DOY recipe: the rows with a timestamp, in order, each
      keyed by it, without the parts and the helper columns. */
  function DoyTable(t: Table, idx: seq<nat>): (r: Table)
    requires |idx| == 3
    ensures forall l :: l in r.columns <==> l in t.columns && Survives(l, DoyHelpers)
    ensures var kept := DoyRows(t.rows, idx);
      && |r.rows| == |kept|
      && forall i :: 0 <= i < |kept| ==> r.rows[i].key == At(DoyStampOf(kept[i], idx).value.value)
    ensures Numeric(t) ==> Numeric(r)
  {
    var kept := DoyRows(t.rows, idx);
    WithoutColumns(Restamped(t, kept, DoyStamps(kept, idx)), DoyHelpers)
  }

  /** The DOY table keeps the other columns in their order, and each kept
      row its cells under them. */
  lemma DoyTableKeepsCells(t: Table, idx: seq<nat>)
    requires |idx| == 3
    ensures var r := DoyTable(t, idx); var kept := DoyRows(t.rows, idx);
      && r.columns == Filter(t.columns, (l: Label) => Survives(l, DoyHelpers))
      && (forall i :: 0 <= i < |kept| ==> kept[i] in t.rows)
      && forall i, l :: 0 <= i < |kept| && Survives(l, DoyHelpers) ==>
           CellUnder(r.rows[i].cells, r.columns, l) == CellUnder(kept[i].cells, t.columns, l)
  {
    var kept := DoyRows(t.rows, idx);
    WithoutColumnsKeepsCells(Restamped(t, kept, DoyStamps(kept, idx)), DoyHelpers);
    assert forall i :: 0 <= i < |kept| ==> kept[i] in kept;
  }

  /** The timestamps of rows that all have one. */
  function DoyStamps(rows: seq<Row>, idx: seq<nat>): (r: seq<int>)
    requires |idx| == 3 && forall row <- rows :: DoyDated(row, idx)
    ensures |r| == |rows| && forall i :: 0 <= i < |rows| ==> DoyStampOf(rows[i], idx) == Ok(Some(r[i]))
  {
    assert forall i :: 0 <= i < |rows| ==> rows[i] in rows && DoyDated(rows[i], idx);
    seq(|rows|, i requires 0 <= i < |rows| => DoyStampOf(rows[i], idx).value.value)
  }

  /** `_build_timestamp` on one table; an unknown recipe changes nothing. */
  function BuildTimestamp(t: Table, recipe: string): (r: Result<Table, Fault>)
    ensures recipe != FivePartRecipe && recipe != DoyRecipe ==> r == Ok(t)
    ensures r.Ok? && (recipe == FivePartRecipe || recipe == DoyRecipe) ==>
      forall k <- Keys(r.value.rows) :: k.At?
    ensures r.Ok? && Numeric(t) ==> Numeric(r.value)
  {
    if recipe == FivePartRecipe then BuildFivePart(t)
    else if recipe == DoyRecipe then BuildDoy(t)
    else Ok(t)
  }
}

=== FILE: wrappers.dfy ===
/** Failure-compatible wrappers used throughout the model: the source's
    `None` values and raised exceptions become `Option` and `Result`. */
module Wrappers {

  datatype Option<+T> = None | Some(value: T) {
    predicate IsFailure() { None? }

    function PropagateFailure<U>(): Option<U>
      requires None?
    {
      None
    }

    function Extract(): T
      requires Some?
    {
      value
    }
  }

  datatype Result<+T, +E> = Ok(value: T) | Err(error: E) {
    predicate IsFailure() { Err? }

    function PropagateFailure<U>(): Result<U, E>
      requires Err?
    {
      Err(error)
    }

    function Extract(): T
      requires Ok?
    {
      value
    }
  }
}
